=== FILE: README.md ===
# MedAssist core in Dafny

MedAssist helps people in Kenya find medicines in nearby pharmacies, see prices
and stock, and pay for a subscription through M-Pesa. This project models the
logic at its centre as pure Dafny functions over in-memory sequences of
records, and proves properties of them:

- **Medicine availability search.** It matches catalog entries by text and by
  exact filters. It keeps offers that are in stock and within the price bounds,
  joins each with its medicine and its active, verified pharmacy, and applies
  an optional radius. It then sorts by `(distance, price)` or by price, groups
  offers by medicine in order of first appearance, and cuts a page.
- **The medicine detail view, the trending list, nearby browsing, a pharmacy's
  stock listing and the pharmacy page** (its ten best-stocked offers).
- **The opening-hours evaluator**, with the clock as a parameter.
- **The offer, pharmacy, medicine, user and subscription records**, with their
  enums, defaults and unique keys. This includes the offer's save hook, which
  derives the stock status from the quantity.
- **The Kenyan phone rule** shared by the server and the web pages:
  - keep the digits;
  - a leading `0` becomes `254`;
  - otherwise `254` is prefixed unless already there.

  The payment endpoint then accepts only `254` followed by nine digits.
- **The subscription lifecycle**:
  - the payment request and the gateway's immediate reply;
  - the gateway's callback;
  - the read-side "active subscription";
  - cancelling;
  - registration and login, including the tier reported at login.
- **The client-side rules**:
  - the map's pharmacy filter;
  - the payment dialog with its bounded status poll;
  - the sign-up form's checks;
  - the subscription page's request, close and button rules.

The model is split into these modules:
- **Shared helpers:**
  - `Wrappers` holds `Option`.
  - `Text` holds digits, ASCII case, substrings, split/join, lexicographic order, JavaScript's `parseInt` (leading white space, a sign, a `0x` prefix, the leading digit run) and trim.
  - `Seqs` holds filter, JavaScript `slice`, the store's `$skip`/`$limit`, and `Math.ceil` page counts.
  - `Sorting` holds a stable insertion sort under a total preorder.
- **Records:** `Hours`, `Inventory`, `Pharmacies`, `Medicines`, `Users` and `Store`.
- **Queries:** `Grouping`, `Search`, `MedicineDetail`, `Trending`, `Nearby` and `PharmacyInventory`.
- **Payments and accounts:** `Phone`, `Subscriptions` and `Auth`.
- **The pages:** `MapFilter`, `PaymentDialog`, `RegisterForm` and `SubscriptionPage`.

Everything the running system reads from outside arrives as a parameter:
- the clock, as a weekday/hour/minute triple or a millisecond count;
- each pharmacy's distance from the query point, in meters;
- the gateway's replies, with each poll's reply indexed by poll number;
- password hashing and comparison;
- the date parser used on the callback's transaction date.

A collection's order is its insertion order. So "first found" means earliest
in the sequence, and "newest" means latest.

## Model

| member | source | states |
|---|---|---|
| Hours.IsOpen | MedAssist/backend/controllers/medicineController.js:201-216 | a 24-hour pharmacy is always open, a day flagged closed never is, and otherwise being open needs both of today's times to parse as numbers |
| Hours.TimeNumberSkipsSpace | MedAssist/backend/controllers/medicineController.js:212-213 | a white-space character in front of a stored time does not change the number it is read as, so " 8:00" reads as 800 |
| Hours.TimeNumberSign | MedAssist/backend/controllers/medicineController.js:212-213 | a leading minus negates the time's number ("-1:00" reads as -100) and a leading plus changes nothing |
| Hours.BlankOpeningStillOpens | MedAssist/backend/controllers/medicineController.js:208-215 | a day whose opening time is a well-formed time with a blank in front is open exactly within that time's window |
| Text.ParseIntDecimal | MedAssist/backend/controllers/medicineController.js:212-213 | a string that starts with a decimal digit and has no `0x` prefix reads as the value of its leading digit run |
| Text.ParseIntSkipsSpace | MedAssist/backend/controllers/pharmacyController.js:89-90 | `parseInt` skips leading white space: a white-space character in front changes nothing |
| Text.ParseIntSign | MedAssist/backend/controllers/pharmacyController.js:89-90 | `parseInt` reads one sign: a minus in front of an unsigned number negates it and a plus changes nothing |
| Hours.IsOpenMeansWithinMinutes | MedAssist/backend/controllers/medicineController.js:208-215 | with well-formed "HH:MM" entries, the HHMM comparison decides exactly whether the current minute of the day lies between opening and closing, both ends included |
| Hours.IsOpenOnWellFormedDay | MedAssist/backend/controllers/pharmacyController.js:80-95 | the evaluator's second copy: on well-formed entries it is open exactly when not closed and open ≤ H*100+M ≤ close |
| Hours.TimeNumberOfWellFormed | MedAssist/backend/controllers/medicineController.js:212-213 | dropping the colon of "HH:MM" and parsing gives the number HH*100+MM |
| Hours.MidnightOpeningNeverOpen | MedAssist/backend/seeders/seedDatabase.js:234 | a day whose opening time is "24:00" is never open, because the clock's HHMM value stays below 2400 |
| Hours.DefaultHoursWindows | MedAssist/backend/models/Pharmacy.js:48-84 | the default schedule is open Monday-Friday 08:00-18:00, Saturday 09:00-17:00 and Sunday 10:00-16:00, ends included |
| Hours.MondayBoundaries | MedAssist/backend/controllers/medicineController.js:211-215 | on a Monday 08:00-18:00 day, 08:00 and 18:00 are open and 07:59 and 18:01 are not |
| Inventory.DeriveStatus | MedAssist/backend/models/Inventory.js:52-59 | zero units is out of stock; up to and including the alert threshold is low stock; above it is available; `discontinued` is never derived |
| Inventory.DeriveStatusMonotone | MedAssist/backend/models/Inventory.js:53-58 | more units never give a lower status under the same threshold |
| Inventory.PreSave | MedAssist/backend/models/Inventory.js:52-62 | after a save the status agrees with the quantity and is never `discontinued`; only status and lastUpdated change |
| Inventory.PreSaveIdempotent | MedAssist/backend/models/Inventory.js:52-62 | saving twice at the same instant is saving once |
| Inventory.DiscontinuedIsOverwritten | MedAssist/backend/models/Inventory.js:33-59 | a `discontinued` offer does not stay so once saved, although the enum allows the value |
| Inventory.InsertOffer | MedAssist/backend/models/Inventory.js:14-48 | a negative quantity or price is refused; a second offer for a (pharmacy, medicine) pair is refused; otherwise the offer is appended with the given pharmacy, medicine, quantity, price and discount price, the defaults (threshold 10, cap 100), a consistent status and `lastUpdated` set to now, and pairs stay unique |
| Inventory.DefaultThresholdBoundary | MedAssist/backend/models/Inventory.js:25-28 | with the default threshold, ten units are low stock and eleven are available |
| Pharmacies.ServiceRoundTrip | MedAssist/backend/models/Pharmacy.js:108-111 | every service's stored spelling parses back to that service |
| Pharmacies.SpecialtyRoundTrip | MedAssist/backend/models/Pharmacy.js:112-115 | every specialty's stored spelling parses back to that specialty |
| Pharmacies.PointAtRoundTrip | MedAssist/backend/models/Pharmacy.js:19-29 | a point is stored longitude first, and reading it back gives the latitude and longitude it was built from |
| Pharmacies.CreatePharmacy | MedAssist/backend/controllers/pharmacyController.js:133-188 | a license already on file is refused; otherwise a pharmacy is created exactly when the name is non-blank after trimming (the schema's `trim` runs before `required`), license, address, county, town and phone are non-empty, the location has both numbers within latitude [-90,90] and longitude [-180,180] (a missing location throws, an out-of-range point is refused by the geo index; both answer 500), and every service and specialty is enumerated; the stored name is the trimmed one; it stores [longitude, latitude] and starts unverified, active, not 24-hour and rated 0 within [0,5], with the hours the request gives and the schema's default for every day and field it leaves out; licenses stay unique |
| Pharmacies.OutOfRangePointRefused | MedAssist/backend/models/Pharmacy.js:128 | with a new license, a request without a location, at latitude 91 or at longitude 200 is refused with a server error |
| Pharmacies.FillHours | MedAssist/backend/models/Pharmacy.js:48-84 | a request without hours gets the default schedule |
| Pharmacies.FillHoursKeepsGivenFields | MedAssist/backend/models/Pharmacy.js:48-84 | a schedule given in full is stored as given, and defaults apply field by field: a Monday given only its closing time keeps the default opening time and is not closed, and an omitted Sunday is the default Sunday |
| Pharmacies.NewPharmacyNotEligible | MedAssist/backend/models/Pharmacy.js:96-103 | a freshly created pharmacy is not eligible for search or nearby results until verified |
| Medicines.CategoryRoundTrip | MedAssist/backend/models/Medicine.js:17-24 | the fourteen category spellings are accepted back as their categories, so they are distinct |
| Medicines.TherapeuticClassRoundTrip | MedAssist/backend/models/Medicine.js:25-33 | the fifteen therapeutic-class spellings are accepted back as their classes |
| Medicines.ParsePregnancyCategory | MedAssist/backend/models/Medicine.js:57-61 | an absent pregnancy category is `N/A`, and any accepted value is one of the six spellings |
| Medicines.PregnancyCategoryRoundTrip | MedAssist/backend/models/Medicine.js:57-61 | each of the six spellings is accepted as its own category |
| Medicines.NewMedicine | MedAssist/backend/models/Medicine.js:4-61 | the name, generic name and brand are trimmed before validation and stored trimmed; an entry is created exactly when the trimmed name is non-empty and category, class and pregnancy category are enumerated; the prescription and controlled flags are the given ones or false, the ingredients are stored as given, and the pregnancy category is the one the given spelling names, `N/A` when absent |
| Medicines.NewMedicineResubmitted | MedAssist/backend/models/Medicine.js:4-61 | submitting a created entry's own fields again creates the same entry: validation accepts what it produced, and trimming and the defaults change nothing the second time |
| Text.TrimIdempotent | MedAssist/backend/models/Medicine.js:4-12 | trimming an already trimmed string changes nothing |
| Users.ParseRole | MedAssist/backend/models/User.js:27-31 | a role is accepted exactly when it is one of user, pharmacy, doctor, admin; an absent one is `user` |
| Users.RoleRoundTrip | MedAssist/backend/models/User.js:27-31 | each role's spelling is accepted as that role |
| Text.Trim | MedAssist/backend/models/User.js:5-9 | the trimmed name is empty exactly when the name is blank; otherwise it is a slice of the name with blanks only around it and no blank at either end |
| Seqs.Paginate | MedAssist/backend/controllers/medicineController.js:180-192 | count is the page length (at most the limit), total the number of groups, currentPage the page asked for, pages the ceiling of total/limit (null for a zero limit), and every listed group is one of the groups |
| Seqs.JsCeilDiv | MedAssist/backend/controllers/medicineController.js:189 | `Math.ceil(n / d)`: null exactly for d = 0; the least number of d-sized pages covering n for d ≥ 1; the ceiling of a non-positive quotient for d < 0 |
| Seqs.PaginateWindow | MedAssist/backend/controllers/medicineController.js:181-183 | page p ≥ 1 holds the groups from (p-1)*limit on, at most limit of them, in order; page 0 is empty |
| Seqs.MongoWindow | MedAssist/backend/controllers/pharmacyController.js:55-58 | a negative skip or a non-positive limit fails the query; otherwise the window is the items from (page-1)*limit on, full unless the items run out |
| Seqs.MongoPage | MedAssist/backend/controllers/pharmacyController.js:286-305 | the listing's page carries every match in `total`, the window in `results`, and ceil(total/limit) in `pages` |
| Search.GeoRadius | MedAssist/backend/controllers/medicineController.js:96-124 | a geo search happens exactly when both coordinates are given, with a 20 km radius by default |
| Search.MatchMedicines | MedAssist/backend/controllers/medicineController.js:28-39 | a medicine matches exactly when a name, generic name, brand or ingredient contains the term ignoring case, and each given category, class and prescription filter agrees |
| Search.CandidateRows | MedAssist/backend/controllers/medicineController.js:53-124 | there is exactly one row per selected offer whose joins succeed, in offer order, and it is that offer's join; every joined row comes from a selected offer of a matched medicine at an active, verified pharmacy within the radius |
| Search.SortedRows | MedAssist/backend/controllers/medicineController.js:148-150 | the rows are ordered by (distance, price) in a geo search and by price otherwise |
| Search.SortedRowsArePermutation | MedAssist/backend/controllers/medicineController.js:148-150 | sorting only rearranges the joined rows |
| Search.SearchMedicines | MedAssist/backend/controllers/medicineController.js:5-199 | a missing term is refused before any lookup; no matching medicine gives the empty answer; otherwise (at least one match) the answer is one page of the grouped, sorted rows, with or without coordinates (the intended behaviour; see Findings) |
| Search.GeoSearchFailsAsWritten | MedAssist/backend/controllers/medicineController.js:96-118 | as written, a search with both coordinates and a matching medicine is answered 500, because `$geoNear` is not the first stage of the lookup's inner pipeline, where the intended search answers with a page; without coordinates the two agree |
| Search.GroupsAreReference | MedAssist/backend/controllers/medicineController.js:155-180 | there is one group per medicine of the sorted rows, in order of first appearance, and each holds exactly that medicine's rows |
| Search.SearchResultsSound | MedAssist/backend/controllers/medicineController.js:53-124 | every listed offer is one of the catalog's matching medicine's stored offers, not out of stock, within the price bounds, at an active and verified pharmacy, with its open flag, and with its distance (within the radius) in a geo search |
| Search.SearchResultsComplete | MedAssist/backend/controllers/medicineController.js:53-180 | every offer that passes the filters and joins is listed under its medicine's group |
| Search.SearchGroupsDistinct | MedAssist/backend/controllers/medicineController.js:155-178 | no medicine has two groups |
| Search.SearchGroupSorted | MedAssist/backend/controllers/medicineController.js:148-178 | within a group, offers are in (distance, price) order in a geo search and in non-decreasing price otherwise |
| Search.SearchGroupsOrdered | MedAssist/backend/controllers/medicineController.js:155-180 | groups come in the order of their first offers, so in a geo search by nearest distance |
| Grouping.GroupRowsIsReference | MedAssist/backend/controllers/medicineController.js:155-178 | the walk that appends each row to its medicine's group computes the reference grouping |
| Grouping.GroupRowsKeepsEveryRow | MedAssist/backend/controllers/medicineController.js:155-178 | grouping neither drops nor duplicates a row: the groups hold as many entries as there were rows |
| Grouping.RowInItsGroup | MedAssist/backend/controllers/medicineController.js:155-178 | each row lands in the single group of its medicine |
| MedicineDetail.Populate | MedAssist/backend/controllers/medicineController.js:229-242 | populating fails exactly when some offer's pharmacy is missing; otherwise each offer gets its own pharmacy and that pharmacy's open flag |
| MedicineDetail.GetMedicine | MedAssist/backend/controllers/medicineController.js:218-250 | an unknown medicine is 404; a listed offer whose pharmacy is missing makes it 500; otherwise it lists every not-out-of-stock offer for the medicine, in order, with its pharmacy |
| MedicineDetail.DetailListsUnverifiedPharmacies | MedAssist/backend/controllers/medicineController.js:229-231 | the detail view lists an in-stock offer whatever its pharmacy's active and verified flags, unlike the search |
| Trending.AvailableOffers | MedAssist/backend/controllers/medicineController.js:290 | only offers whose status is `available` are tallied |
| Trending.GroupTalliesIsReference | MedAssist/backend/controllers/medicineController.js:291-298 | grouping yields, for each medicine with offers and no other, the number of its offers and the sum of their quantities |
| Trending.RankedTallies | MedAssist/backend/controllers/medicineController.js:299 | the tallies are ordered by offer count and then by units, both descending, and are only rearranged |
| Trending.TopTallies | MedAssist/backend/controllers/medicineController.js:300 | at most ten tallies, still ranked, all drawn from the tallies |
| Trending.JoinMedicines | MedAssist/backend/controllers/medicineController.js:301-309 | each kept tally is paired with its catalog entry; a tally whose medicine is in the catalog is kept; the ranking is kept |
| Trending.GetTrending | MedAssist/backend/controllers/medicineController.js:287-310 | at most ten entries, each with its catalog medicine, ranked by offer count then units, both descending |
| Trending.TrendingTalliesAreExact | MedAssist/backend/controllers/medicineController.js:290-298 | each entry's figures are exactly the count and the summed quantity of its medicine's available offers, of which there is at least one |
| Trending.TrendingDistinct | MedAssist/backend/controllers/medicineController.js:291-298 | no medicine appears twice |
| Trending.TrendingCutoff | MedAssist/backend/controllers/medicineController.js:299-300 | a stocked catalog medicine is missing only when ten tallies rank at or above its own |
| Nearby.NearbyMatches | MedAssist/backend/controllers/pharmacyController.js:25-53 | a pharmacy is selected exactly when it is active, verified, within the radius and passes the filters; the selection is nearest first |
| Nearby.AnnotateAll | MedAssist/backend/controllers/pharmacyController.js:62-70 | each listed pharmacy carries its distance and the shared open rule's verdict |
| Nearby.GetNearbyPharmacies | MedAssist/backend/controllers/pharmacyController.js:5-78 | missing coordinates are refused before any query; a bad window fails; otherwise at most `limit` active, verified pharmacies within the radius (10 km by default) that pass the filters, nearest first, with count equal to their number |
| Nearby.NearbyPageIsWindow | MedAssist/backend/controllers/pharmacyController.js:55-58 | the page is the matches from (page-1)*limit on, truncated to the limit |
| Nearby.NearbyFirstPageComplete | MedAssist/backend/controllers/pharmacyController.js:25-58 | with page 1 and a limit covering all matches, every qualifying pharmacy is listed |
| Nearby.NoFilterKeepsAll | MedAssist/backend/controllers/pharmacyController.js:43-53 | without specialty, services or `is24Hours=true` nothing is filtered out, so `is24Hours=false` filters nothing |
| Nearby.SingleServiceFilter | MedAssist/backend/controllers/pharmacyController.js:46-53 | a single service name keeps exactly the pharmacies offering that service |
| PharmacyInventory.JoinRows | MedAssist/backend/controllers/pharmacyController.js:249-284 | there is exactly one row per offer of the pharmacy that passes the status filter and whose medicine exists and passes the search and class filters, in offer order, each carrying that offer's medicine; every row is such an offer |
| PharmacyInventory.InventoryMatches | MedAssist/backend/controllers/pharmacyController.js:249-287 | the listing's rows, before paging, are the joined rows rearranged into medicine-name order |
| PharmacyInventory.GetPharmacyInventory | MedAssist/backend/controllers/pharmacyController.js:236-313 | with the route's id matched as the stored ObjectId (the intended behaviour; see Findings): an unknown pharmacy is 404; a bad window fails; otherwise total is the number of the pharmacy's offers that pass the status filter and whose medicine exists and passes the search and class filters, count ≤ limit, pages = ceil(total/limit), and rows are in name order |
| PharmacyInventory.InventoryPageIsWindow | MedAssist/backend/controllers/pharmacyController.js:286-292 | the page is the sorted matches from (page-1)*limit on, truncated to the limit |
| PharmacyInventory.InventoryRowsSound | MedAssist/backend/controllers/pharmacyController.js:249-290 | every listed row is an offer of this pharmacy passing the status filter (none for absent or "all"), with its medicine, which passes the name/generic/brand search and the class filter |
| PharmacyInventory.InventoryTotalCountsAll | MedAssist/backend/controllers/pharmacyController.js:294-297 | every offer of the pharmacy that passes the filters and joins is among the counted matches |
| PharmacyInventory.UncastRouteIdHidesStock | MedAssist/backend/controllers/pharmacyController.js:249-256 | as written, the first `$match` compares the stored ObjectId with the route's id as a string, so an existing pharmacy lists an empty page with total 0 and pages 0, even when it holds an offer that the intended listing counts (total ≥ 1) |
| PharmacyInventory.TopOffers | MedAssist/backend/controllers/pharmacyController.js:109-113 | the top offers are at most ten available offers of this pharmacy, most units first |
| PharmacyInventory.GetPharmacy | MedAssist/backend/controllers/pharmacyController.js:97-131 | an unknown pharmacy is 404; otherwise the pharmacy, its open flag and at most ten of its available offers, most units first, each with its medicine or null |
| PharmacyInventory.TopMedicinesCutoff | MedAssist/backend/controllers/pharmacyController.js:109-115 | an available offer is left off the page only when ten listed offers hold at least as many units |
| Phone.Normalize | MedAssist/backend/controllers/paymentController.js:95-100 | the rewritten number is all digits and starts with 254 |
| Phone.NormalizeIdempotent | MedAssist/backend/controllers/paymentController.js:95-100 | rewriting a rewritten number changes nothing |
| Phone.AcceptedIffDigitShape | MedAssist/backend/controllers/paymentController.js:95-107 | the endpoint accepts a number exactly when its digits are ten starting with 0, twelve starting with 254, or nine starting otherwise |
| Phone.LocalForm | MedAssist/frontend/src/components/Payment/MpesaPayment.js:49-54 | a local number's leading 0 becomes 254 |
| Phone.InternationalForm | MedAssist/frontend/src/components/Auth/Register.js:61-66 | a "+254..." number only loses its plus sign |
| Phone.BareForm | MedAssist/frontend/src/pages/Subscription.js:84-89 | a bare subscriber number gets 254 in front |
| Phone.FormsAgree | MedAssist/backend/controllers/paymentController.js:95-107 | the local, international and bare forms of one subscriber number rewrite alike, to a number the endpoint accepts |
| Phone.ShortNumberStillRewritten | MedAssist/backend/controllers/authController.js:27-32 | registration rewrites but never rejects: a number too short is stored as 254 plus its digits, which the payment endpoint would refuse |
| Subscriptions.DefaultFeatures | MedAssist/backend/models/Subscription.js:50-79 | basic allows 50 searches a day and premium 1000; prices are always visible; telemedicine and priority support come exactly with premium |
| Subscriptions.AlertsAlwaysOn | MedAssist/backend/models/Subscription.js:61-66 | alerts default to "plan is not free", which every plan satisfies |
| Subscriptions.NewSubscription | MedAssist/backend/controllers/paymentController.js:109-120 | a new subscription is pending, costs the plan's price, ends 30 days later, in KES, auto-renewing, paid by M-Pesa, with the plan's features |
| Subscriptions.LookupPlanAsWritten | MedAssist/backend/controllers/paymentController.js:88-93 | the plan table answers the two plans and also every name a plain object inherits |
| Subscriptions.LookupPlan | MedAssist/backend/controllers/paymentController.js:16-43 | the intended lookup knows exactly the two plans and nothing inherited |
| Subscriptions.PlanNameRoundTrip | MedAssist/backend/controllers/paymentController.js:16-43 | each plan is found under its own name by both lookups |
| Subscriptions.InitiateSubscription | MedAssist/backend/controllers/paymentController.js:84-179 | an unknown plan is 400 with nothing stored; a bad phone is 400; otherwise one pending subscription is appended. The outcome is decided by the gateway's reply, each case an if-and-only-if: response code "0" is a request that records the checkout id and keeps the subscription pending; any other code is a 400 rejection that marks it failed; no reply is a 500. A missing phone is a 500 that stores nothing |
| Subscriptions.InheritedPlanNameAsWritten | MedAssist/backend/controllers/paymentController.js:88-93 | as written, plan "toString" passes the plan check and ends in a server error; corrected, it is refused as an invalid plan |
| Subscriptions.AsWrittenAgreesOnRealPlans | MedAssist/backend/controllers/paymentController.js:88-120 | apart from inherited names, the written and the corrected endpoint behave identically |
| Subscriptions.ItemValue | MedAssist/backend/controllers/paymentController.js:194-197 | a name no item carries gives the fallback; a first matching item with a truthy value gives a truthy value |
| Subscriptions.ItemValueFirstWins | MedAssist/backend/controllers/paymentController.js:194-197 | the first item with the name decides, and a falsy value gives the fallback |
| Subscriptions.ExtractPaymentData | MedAssist/backend/controllers/paymentController.js:191-198 | amount, receipt and phone are the value of the first item of that name, or 0 and "" when it is missing or falsy; the transaction date is present exactly when the first such item is truthy, and otherwise the current time is used |
| Subscriptions.Upgrade | MedAssist/backend/controllers/paymentController.js:238-253 | the user gets the plan's tier, an expiry 30 days on and exactly one new active history entry; nothing else about them changes |
| Subscriptions.HandleCallback | MedAssist/backend/controllers/paymentController.js:181-223 | only a subscription carrying the callback's checkout id can change; a failure callback changes no user |
| Subscriptions.SuccessActivatesAndUpgrades | MedAssist/backend/controllers/paymentController.js:225-260 | a success callback for a known checkout id with a readable (or absent) transaction date activates that subscription whatever its status. Its user gets the tier, a 30-day expiry and one history entry; no other subscription or user changes |
| Subscriptions.FailureMarksFailed | MedAssist/backend/controllers/paymentController.js:203-210 | a failure callback marks the first subscription with that checkout id failed and changes nothing else; an unknown id changes nothing |
| Subscriptions.ActiveSubscription | MedAssist/backend/controllers/paymentController.js:306-313 | the reported subscription is the user's newest one that is active and not past its end; none exactly when there is no such subscription |
| Subscriptions.CancelSubscription | MedAssist/backend/controllers/paymentController.js:328-359 | 404 exactly when no active subscription exists; otherwise one current subscription becomes cancelled without auto-renewal, its end date kept and reported |
| Subscriptions.CancelEndsActive | MedAssist/backend/controllers/paymentController.js:328-352 | after cancelling a user's only current subscription, none is reported active |
| Subscriptions.CancelAndReadAgreeOnOne | MedAssist/backend/controllers/paymentController.js:306-334 | with a single current subscription, cancel acts on the one the read side reports |
| Auth.Register | MedAssist/backend/controllers/authController.js:12-72 | an email already on file (looked up lowercased, since the schema's `lowercase` setter also applies to the query) or a raw phone already on file is refused. Success needs a non-blank name, an email, a six-character password, an enumerated role, and a rewritten phone not yet taken. The user is stored with lowercased email, rewritten phone, hashed password, free tier and unverified |
| Auth.CaseVariantEmailAlreadyExists | MedAssist/backend/models/User.js:10-15 | an email on file typed again with different letter case is refused as already existing |
| Auth.StoredCollisionIsPhone | MedAssist/backend/controllers/authController.js:16-37 | a request past the duplicate check that still collides with a stored contact collides on the rewritten phone |
| Auth.RegisterKeepsContactsUnique | MedAssist/backend/models/User.js:10-26 | registering keeps stored emails and phones unique |
| Auth.LocalFormSlipsPastDuplicateCheck | MedAssist/backend/controllers/authController.js:16-37 | a phone on file, typed again in another form, passes the duplicate check and then fails on the unique index as a server error |
| Auth.EffectiveTier | MedAssist/backend/controllers/authController.js:103-105 | the stored paid tier is reported only while its expiry lies strictly in the future, `free` otherwise |
| Auth.Downgrade | MedAssist/backend/controllers/authController.js:106-108 | the stored tier is written back as `free` exactly when a paid tier's expiry lies strictly in the past |
| Auth.Login | MedAssist/backend/controllers/authController.js:74-133 | a missing email or password is 400; with unique emails, an unknown email and a wrong password are the same 401; success is the account with that lowercased email whose password matches |
| Auth.StoredAndReportedTier | MedAssist/backend/controllers/authController.js:103-108 | the write-back and the report agree, except when the expiry is exactly now: a paid tier is then reported free but kept on file |
| Auth.LoginAfterRegister | MedAssist/backend/controllers/authController.js:85-108 | a just-registered user logs in with the same credentials, on the free tier, with nothing written |
| MapFilter.FilterPharmacies | MedAssist/frontend/src/pages/PharmacyMap.js:316-337 | a pharmacy is shown exactly when it passes the search and the three drop-downs |
| MapFilter.FilterKeepsLoadOrder | MedAssist/frontend/src/pages/PharmacyMap.js:317-334 | filtering keeps the order pharmacies were loaded in |
| MapFilter.NoFilterShowsAll | MedAssist/frontend/src/pages/PharmacyMap.js:316-337 | an empty search with every drop-down on "any" shows every pharmacy, in order |
| MapFilter.SearchIsSubstring | MedAssist/frontend/src/pages/PharmacyMap.js:318-320 | the search matches exactly when the lowercased term occurs in the lowercased name or address |
| MapFilter.MapAgainstBackend | MedAssist/frontend/src/pages/PharmacyMap.js:325-328 | for "" and "true" the map's drop-downs keep what the nearby filter keeps; for "false" the map hides round-the-clock pharmacies the server keeps |
| PaymentDialog.PollPaymentStatus | MedAssist/frontend/src/components/Payment/MpesaPayment.js:81-121 | at most thirty queries, every one before the last still pending or failed; "0" succeeds, a code other than "0"/"1032" fails, only the thirtieth query can time out (pending) or leave the status `initiated` (an error) |
| PaymentDialog.PollFromShape | MedAssist/frontend/src/components/Payment/MpesaPayment.js:81-121 | a poll run ends within thirty queries; every query before the last kept polling; the last reply decides the outcome; only the thirtieth leaves polling undecided |
| PaymentDialog.ImmediateSuccess | MedAssist/frontend/src/components/Payment/MpesaPayment.js:89-95 | a payment confirmed on the first query settles as success after one query |
| PaymentDialog.NeverSettles | MedAssist/frontend/src/components/Payment/MpesaPayment.js:103-117 | a gateway that never settles is queried exactly thirty times; the status becomes `timeout` after a pending reply and stays `initiated` after an error |
| PaymentDialog.PaymentRequestFor | MedAssist/frontend/src/components/Payment/MpesaPayment.js:42-65 | no request for an empty phone; otherwise the rewritten phone and the plan's price |
| PaymentDialog.HandlePayment | MedAssist/frontend/src/components/Payment/MpesaPayment.js:42-79 | an empty phone only sets an error. An accepted request records its checkout id and ends in the poll's status. A thrown request shows the server's message or a fixed one |
| PaymentDialog.HandleClose | MedAssist/frontend/src/components/Payment/MpesaPayment.js:123-130 | closing clears phone, loading, checkout id, status and error |
| PaymentDialog.CloseThenPayAsksForPhone | MedAssist/frontend/src/components/Payment/MpesaPayment.js:42-46 | after closing, paying sends no request |
| RegisterForm.HandleSubmit | MedAssist/frontend/src/components/Auth/Register.js:48-76 | mismatched passwords are reported first, a password under six characters next; otherwise the form is sent without the confirmation, with the phone rewritten |
| RegisterForm.FormAgreesWithServer | MedAssist/frontend/src/components/Auth/Register.js:23-76 | what the form sends meets the server's password rule; on success it is stored with the phone it sent; the default role registers a `user` |
| SubscriptionPage.HandleSubscribe | MedAssist/frontend/src/pages/Subscription.js:72-76 | choosing a plan opens the dialog for it with a cleared status |
| SubscriptionPage.InitiatePayment | MedAssist/frontend/src/pages/Subscription.js:78-99 | no request for an empty phone; otherwise the chosen plan and the rewritten phone |
| SubscriptionPage.AfterReply | MedAssist/frontend/src/pages/Subscription.js:101-116 | an accepted request shows `initiated`, a failed request `failed`, a refused one leaves the status; loading ends |
| SubscriptionPage.HandleCloseDialog | MedAssist/frontend/src/pages/Subscription.js:119-124 | closing clears phone, loading and status and keeps the chosen plan |
| SubscriptionPage.DisabledPlanIsCurrent | MedAssist/frontend/src/pages/Subscription.js:133-135 | a plan's button is disabled only for the plan of a current subscription of the user, never for both plans, and for none without one |
| SubscriptionPage.PageRequestStoresItsPhone | MedAssist/frontend/src/pages/Subscription.js:84-96 | the number the page sends is stored unchanged by the server, whose own rewriting leaves it as it is |

## Left out

- Search.SearchMedicines: the term goes into a case-insensitive regular expression; the model reads it as a literal substring and requires it to contain no pattern metacharacters.
- PharmacyInventory.GetPharmacyInventory: the search term goes into a case-insensitive regular expression (pharmacyController.js:268-278); the model reads it as a literal substring and requires it to contain no pattern metacharacters. Terms with metacharacters, including malformed ones the database rejects with a 500 (pharmacyController.js:307-311), are outside the model.
- PharmacyInventory.InventoryMatches: holds only for a search term without pattern metacharacters, for the same reason.
- PharmacyInventory.InventoryRowsSound: the search condition on each row is the literal-substring reading, and the term must contain no pattern metacharacters.
- PharmacyInventory.InventoryTotalCountsAll: the search condition on each offer is the literal-substring reading, and the term must contain no pattern metacharacters.
- Auth.Register: lowercasing covers ASCII letters only, unlike JavaScript's `toLowerCase`; the password's minimum length counts characters rather than UTF-16 code units.
- Auth.Login: the email is lowercased over ASCII letters only, unlike JavaScript's `toLowerCase`.
- Text.ContainsIgnoreCase: lowercases ASCII letters only; no Unicode case folding.
- Text.Trim: trims ASCII whitespace only, and lengths count characters rather than UTF-16 code units.
- Query-string parsing: price, page and limit arrive as already parsed integers, and prices are whole numbers; the parser itself is modelled for stored opening times only.
- Hours.IsOpen: `parseInt` skips ASCII white space only, not the other Unicode spaces JavaScript skips; a time that reads as -0 is taken as 0, which compares the same.
- Hours.IsOpen: a schedule always names all seven days. A document missing today's entry would make the source throw, and that case is not modelled.
- Geo distance: the spherical distance is a per-pharmacy natural-number input. The radius test is taken as inclusive. The search as written fails on every geo query (see Findings); the model's search is the intended one.
- The clock: it is a parameter throughout, so `new Date()` is never read.
- Trending.GetTrending: the average price (a floating-point mean) is not computed.
- Pharmacies.CreatePharmacy: the change of the owner's role to `pharmacy` after creation is not modelled. Latitude and longitude are reals; a value that is not a number is not modelled.
- Sorting.Sort: the insertion sort is stable, so it fixes the order of rows that compare equal. The store's `$sort` and `sort()` do not promise an order for ties, so an order among equal keys proved here is one the running system may not show.
- Registration location: the user's location point and its default coordinates are not modelled.
- Subscriptions.ProcessSuccessfulPayment: the transaction date goes through a date-parser parameter. When the date is absent, the model uses `now`, although the source's string round trip drops milliseconds.
- Subscriptions.HandleCallback: a success callback without metadata items changes nothing. The source throws inside its handler and answers result code 0 all the same.
- Subscriptions.CancelSubscription: "first found" is the earliest in the ledger. The read side sorts by creation time, and timestamps are assumed to follow ledger order.
- The payment gateway: the access token, password, timestamp, HTTP calls and `queryPaymentStatus` are outside the model. Their results arrive as the gateway-reply inputs.
- Security and messaging: bcrypt hashing and comparison are parameters. JWT issuing and SMS sending are not modelled.
- Other endpoints: `getCategories` (two distinct-value queries), `updatePharmacy`, `getMe`, `updateProfile`, `forgotPassword` and `getSubscriptionPlans` (a read of the plan table) are not modelled.
- PaymentDialog.PollPaymentStatus: the ten-second timer between queries is not modelled. Polls are numbered steps, and the gateway's result code is compared as a string, as the page does.
- PaymentDialog.HandlePayment: the dialog's plan is a `Plan` value. The page's lookup of an unknown plan name is not modelled.
- SubscriptionPage.AfterReply: the page's simulated success ten seconds after a request is not modelled.
- Seeders, scripts, routes, the server set-up and presentation-only components are outside the model.

## Findings

| source | as written | input that shows it | evidently intended | confidence | as-written member | corrected member |
|---|---|---|---|---|---|---|
| MedAssist/backend/controllers/pharmacyController.js:249-256 | the first `$match` of the stock listing puts the route's id into the filter as a string; aggregation stages are not cast, and the stored `pharmacy` is an ObjectId, so no offer matches | any existing pharmacy holding an offer whose medicine is in the catalog, listed with default query parameters | the listing selects that pharmacy's offers, as the pharmacy page's own query does (pharmacyController.js:109) | not executed | PharmacyInventory.UncastRouteIdHidesStock | PharmacyInventory.GetPharmacyInventory |
| MedAssist/backend/controllers/paymentController.js:88-93 | the plan check indexes a plain object, so names inherited through its prototype pass it; the stored plan then fails validation and the request is answered with a 500 | plan "toString" with phone "0712345678" | any name other than `basic` and `premium` is refused with 400 "Invalid subscription plan" before anything is stored | not executed | Subscriptions.InheritedPlanNameAsWritten | Subscriptions.InitiateSubscription |
| MedAssist/backend/controllers/medicineController.js:96-118 | the geo branch puts in front a `$lookup` whose inner pipeline is a `$match` followed by `$geoNear`; the store accepts `$geoNear` only as the first stage of a pipeline, so the aggregate throws and the handler answers 500 | any search term that matches a catalog entry, with `latitude` and `longitude` both given | the offers are kept when their pharmacy lies within the radius of the point, carry that distance, and are sorted by distance then price, as the branch's later stages (:120-123, :149) expect | not executed | Search.GeoSearchFailsAsWritten | Search.SearchMedicines |

=== FILE: auth.dfy ===
/** Registration and login. Registration first refuses an email or phone
    already on file (the email lowercased by the schema's setter, which the
    query runs too; the phone as typed), then stores the email lowercased and
    the phone rewritten by the shared rule; the schema then checks the record
    (name, password length, role) and the unique indexes on the STORED email
    and phone. Login looks the user up by lowercased email, answers an unknown
    email and a wrong password alike, and reports the tier the user holds only
    while its expiry is in the future, writing the downgrade back once the
    expiry has passed. Password hashing and comparison are parameters. */
module Auth {
  import opened Wrappers
  import opened Text
  import opened Phone
  import opened Users
  import opened Seqs

  // ---------------------------------------------------------------------------
  // Registration

  /** The request body; `None` is an absent field. */
  datatype Registration = Registration(
    name: Option<string>,
    email: Option<string>,
    phone: Option<string>,
    password: Option<string>,
    role: Option<string>,
    address: string)

  datatype RegisterOutcome =
    | AlreadyExists                              // 400
    | RegisterFailed                             // 500
    | Registered(users: seq<User>, user: User)   // 201

  /** Some user on file has this email or this phone, compared exactly; an
      absent value matches nobody. */
  predicate ClaimsContact(users: seq<User>, email: Option<string>, phone: Option<string>) {
    exists i :: 0 <= i < |users| && ((email.Some? && users[i].email == email.value)
                                     || (phone.Some? && users[i].phone == phone.value))
  }

  /** The email as the duplicate query compares it: the schema's `lowercase`
      setter also applies to query filters on `email`, so a present email is
      looked up lowercased. */
  function QueriedEmail(email: Option<string>): (r: Option<string>)
    ensures r.Some? <==> email.Some?
    ensures r.Some? ==> |r.value| == |email.value|
    ensures r.Some? ==> forall i :: 0 <= i < |email.value| ==> r.value[i] == LowerChar(email.value[i])
  {
    match email
    case Some(e) => Some(Lower(e))
    case None => None
  }

  /** The schema's checks on a new record: a name that is not blank, an email,
      a password of at least six characters, a role from the enum (absent
      means `user`). */
  predicate ValidNewUser(name: Option<string>, storedEmail: string, password: Option<string>, role: Option<string>) {
    && name.Some? && Trim(name.value) != ""
    && storedEmail != ""
    && password.Some? && |password.value| >= MinPasswordLength
    && ParseRole(role).Some?
  }

  function Register(users: seq<User>, req: Registration, id: nat, hash: string -> string): (r: RegisterOutcome)
    ensures r.AlreadyExists? <==> ClaimsContact(users, QueriedEmail(req.email), req.phone)
    ensures r.Registered? <==>
      && !ClaimsContact(users, QueriedEmail(req.email), req.phone)
      && req.email.Some? && req.phone.Some?
      && ValidNewUser(req.name, Lower(req.email.value), req.password, req.role)
      && !ClaimsContact(users, Some(Lower(req.email.value)), Some(Normalize(req.phone.value)))
    ensures r.Registered? ==>
      && r.users == users + [r.user]
      && r.user.id == id
      && r.user.email == Lower(req.email.value)
      && r.user.phone == Normalize(req.phone.value)
      && r.user.name == Trim(req.name.value)
      && r.user.passwordHash == hash(req.password.value)
      && Some(r.user.role) == ParseRole(req.role)
      && r.user.address == req.address
      && !r.user.isVerified && r.user.subscription == Free
      && r.user.subscriptionExpiry.None? && r.user.history == []
  {
    if ClaimsContact(users, QueriedEmail(req.email), req.phone) then AlreadyExists
    else if req.phone.None? || req.email.None? then RegisterFailed
    else
      var email := Lower(req.email.value);
      var phone := Normalize(req.phone.value);
      if !ValidNewUser(req.name, email, req.password, req.role) then RegisterFailed
      else if ClaimsContact(users, Some(email), Some(phone)) then RegisterFailed
      else
        var u := User(id, Trim(req.name.value), email, phone, hash(req.password.value),
                      ParseRole(req.role).value, req.address, false, Free, None, []);
        Registered(users + [u], u)
  }

  /** Registration keeps the stored emails and phones unique. */
  lemma RegisterKeepsContactsUnique(users: seq<User>, req: Registration, id: nat, hash: string -> string)
    requires UniqueContacts(users)
    requires Register(users, req, id, hash).Registered?
    ensures UniqueContacts(Register(users, req, id, hash).users)
  {
    var r := Register(users, req, id, hash);
    forall i, j | 0 <= i < j < |r.users|
      ensures r.users[i].email != r.users[j].email && r.users[i].phone != r.users[j].phone
    {
      if j == |users| {
        assert r.users[i] == users[i];
        assert r.users[j] == r.user;
      } else {
        assert r.users[i] == users[i] && r.users[j] == users[j];
      }
    }
  }

  /** A stored email typed again with different letter case is found by the
      duplicate check and refused as already existing. */
  lemma CaseVariantEmailAlreadyExists(users: seq<User>, req: Registration, id: nat, hash: string -> string, k: nat)
    requires k < |users| && req.email.Some? && users[k].email == Lower(req.email.value)
    ensures Register(users, req, id, hash) == AlreadyExists
  {
    assert ClaimsContact(users, QueriedEmail(req.email), req.phone) by {
      assert QueriedEmail(req.email) == Some(Lower(req.email.value));
    }
  }

  /** Past the duplicate check, the email on file is already ruled out, so
      the second check can only fail on the rewritten phone. */
  lemma StoredCollisionIsPhone(users: seq<User>, req: Registration)
    requires req.email.Some? && req.phone.Some?
    requires !ClaimsContact(users, QueriedEmail(req.email), req.phone)
    requires ClaimsContact(users, Some(Lower(req.email.value)), Some(Normalize(req.phone.value)))
    ensures exists i :: 0 <= i < |users| && users[i].phone == Normalize(req.phone.value)
  {
  }

  /** The duplicate check compares the phone as typed: a number on file in
      its rewritten form, typed again in local form, passes the check and then
      collides with the unique index, which is a server error rather than the
      "already exists" answer. */
  lemma LocalFormSlipsPastDuplicateCheck(users: seq<User>, req: Registration, id: nat, hash: string -> string, k: nat)
    requires k < |users| && req.phone.Some? && users[k].phone == Normalize(req.phone.value)
    requires !ClaimsContact(users, QueriedEmail(req.email), req.phone)
    requires req.email.Some?
    ensures Register(users, req, id, hash) == RegisterFailed
  {
    assert ClaimsContact(users, Some(Lower(req.email.value)), Some(Normalize(req.phone.value)));
  }

  // ---------------------------------------------------------------------------
  // Login

  datatype LoginOutcome =
    | MissingCredentials                                      // 400
    | InvalidCredentials                                      // 401
    | LoggedIn(users: seq<User>, user: User, effective: Tier)  // 200

  /** A field that is present and not empty. */
  predicate Present(s: Option<string>) {
    s.Some? && s.value != ""
  }

  /** Position of the first user with this stored email, or `|users|`. */
  function IndexOfEmail(users: seq<User>, email: string): (k: nat)
    ensures k <= |users|
    ensures k < |users| ==> users[k].email == email
    ensures forall j :: 0 <= j < k ==> users[j].email != email
  {
    FirstIndex(users, (u: User) => u.email == email)
  }

  /** The tier reported at login: the stored one only while the expiry lies
      strictly in the future, `free` otherwise. */
  function EffectiveTier(u: User, now: int): (t: Tier)
    ensures t != Free ==> t == u.subscription
    ensures t == u.subscription <==>
      (u.subscription == Free || (u.subscriptionExpiry.Some? && u.subscriptionExpiry.value > now))
  {
    match u.subscriptionExpiry
    case Some(e) => if e > now then u.subscription else Free
    case None => Free
  }

  /** The write-back at login: the stored tier becomes `free` only once the
      expiry lies strictly in the past. */
  function Downgrade(u: User, now: int): (r: User)
    ensures r == u.(subscription := r.subscription)
    ensures r.subscription != u.subscription <==>
      u.subscription != Free && u.subscriptionExpiry.Some? && u.subscriptionExpiry.value < now
    ensures r.subscription == u.subscription || r.subscription == Free
  {
    match u.subscriptionExpiry
    case Some(e) => if e < now then u.(subscription := Free) else u
    case None => u
  }

  function Login(users: seq<User>, email: Option<string>, password: Option<string>, now: int,
                 matches: (string, string) -> bool): (r: LoginOutcome)
    ensures r.MissingCredentials? <==> !Present(email) || !Present(password)
    ensures r.LoggedIn? ==> exists k :: (0 <= k < |users|
      && users[k].email == Lower(email.value)
      && matches(password.value, users[k].passwordHash)
      && r.user == users[k]
      && r.users == users[k := Downgrade(users[k], now)]
      && r.effective == EffectiveTier(users[k], now))
    ensures UniqueContacts(users) ==>
      (r.InvalidCredentials? <==>
        (Present(email) && Present(password)
         && forall k :: 0 <= k < |users| && users[k].email == Lower(email.value) ==>
              !matches(password.value, users[k].passwordHash)))
  {
    if !Present(email) || !Present(password) then MissingCredentials
    else
      var k := IndexOfEmail(users, Lower(email.value));
      if k == |users| then InvalidCredentials
      else if !matches(password.value, users[k].passwordHash) then InvalidCredentials
      else LoggedIn(users[k := Downgrade(users[k], now)], users[k], EffectiveTier(users[k], now))
  }

  /** The downgrade written back and the tier reported agree, except when the
      expiry is exactly now: then a paid tier is reported as `free` but kept
      on file. Users who hold a paid tier always have an expiry, as every
      upgrade sets one. */
  lemma StoredAndReportedTier(u: User, now: int)
    requires u.subscription != Free ==> u.subscriptionExpiry.Some?
    ensures u.subscriptionExpiry != Some(now) ==> Downgrade(u, now).subscription == EffectiveTier(u, now)
    ensures u.subscriptionExpiry == Some(now) && u.subscription != Free ==>
      Downgrade(u, now) == u && EffectiveTier(u, now) == Free
  {
  }

  /** A user who has just registered can log in with the same email and
      password (when the hash comparison accepts the password against its own
      hash), and is reported on the free tier with nothing written. */
  lemma LoginAfterRegister(users: seq<User>, req: Registration, id: nat, hash: string -> string,
                           now: int, matches: (string, string) -> bool)
    requires Register(users, req, id, hash).Registered?
    requires matches(req.password.value, hash(req.password.value))
    ensures var r := Register(users, req, id, hash);
      Login(r.users, req.email, req.password, now, matches) == LoggedIn(r.users, r.user, Free)
  {
    var r := Register(users, req, id, hash);
    var email := Lower(req.email.value);
    assert |email| == |req.email.value|;
    assert IndexOfEmail(r.users, email) == |users| by {
      var k := IndexOfEmail(r.users, email);
      assert r.users[|users|].email == email;
      if k < |users| {
        assert false;
      }
    }
    assert r.users[|users| := Downgrade(r.user, now)] == r.users;
  }
}

=== FILE: grouping.dfy ===
/** Joined search rows and their grouping by medicine. The source walks the
    sorted rows once, keeping an object keyed by medicine identity whose
    values come out in insertion order; the fold `GroupRows` models that walk
    and `ReferenceGroups` states what it computes: one group per distinct
    medicine, in order of first appearance, holding exactly that medicine's
    rows in their sorted order. */
module Grouping {
  import opened Wrappers
  import opened Hours
  import opened Medicines
  import opened Pharmacies
  import opened Inventory
  import Sorting

  /** An offer joined with its medicine and pharmacy; `distance` (meters) only in a geo search. */
  datatype Row = Row(offer: Offer, medicine: Medicine, pharmacy: Pharmacy, distance: Option<nat>)

  /** What a result lists for one offer: the pharmacy with its open flag, the
      offer's stock and price fields, and the distance. */
  datatype Availability = Availability(
    pharmacy: Pharmacy,
    isCurrentlyOpen: bool,
    quantity: nat,
    price: nat,
    discountPrice: Option<nat>,
    status: StockStatus,
    distance: Option<nat>)

  datatype Group = Group(medicine: Medicine, availability: seq<Availability>)

  function Annotate(r: Row, now: Clock): Availability
    requires now.Valid()
  {
    Availability(r.pharmacy, IsOpen(r.pharmacy.hours, r.pharmacy.is24Hours, now),
                 r.offer.quantity, r.offer.price, r.offer.discountPrice, r.offer.status, r.distance)
  }

  function AnnotateAll(rows: seq<Row>, now: Clock): (r: seq<Availability>)
    requires now.Valid()
    ensures |r| == |rows|
    ensures forall k :: 0 <= k < |rows| ==> r[k] == Annotate(rows[k], now)
  {
    seq(|rows|, k requires 0 <= k < |rows| => Annotate(rows[k], now))
  }

  lemma AnnotateAllSnoc(rows: seq<Row>, r: Row, now: Clock)
    requires now.Valid()
    ensures AnnotateAll(rows + [r], now) == AnnotateAll(rows, now) + [Annotate(r, now)]
  {
    var a := AnnotateAll(rows + [r], now);
    var b := AnnotateAll(rows, now) + [Annotate(r, now)];
    forall k | 0 <= k < |a|
      ensures a[k] == b[k]
    {
      if k < |rows| {
        assert (rows + [r])[k] == rows[k];
      }
    }
  }

  // ---------------------------------------------------------------------------
  // The reference description

  /** The distinct medicine identities of `rows`, in order of first appearance. */
  function Ids(rows: seq<Row>): (ids: seq<nat>)
    ensures forall i, j :: 0 <= i < j < |ids| ==> ids[i] != ids[j]
    ensures forall id :: id in ids <==> exists k :: 0 <= k < |rows| && rows[k].medicine.id == id
  {
    if rows == [] then []
    else
      var prefix := Ids(rows[..|rows| - 1]);
      var last := rows[|rows| - 1];
      assert forall k :: 0 <= k < |rows| - 1 ==> rows[..|rows| - 1][k] == rows[k];
      if last.medicine.id in prefix then prefix else prefix + [last.medicine.id]
  }

  /** The rows of one medicine, in their order in `rows`. */
  function RowsFor(rows: seq<Row>, id: nat): (r: seq<Row>)
    ensures forall k :: 0 <= k < |r| ==> r[k].medicine.id == id && r[k] in rows
    ensures forall k :: 0 <= k < |rows| && rows[k].medicine.id == id ==> rows[k] in r
  {
    if rows == [] then []
    else
      var prefix := RowsFor(rows[..|rows| - 1], id);
      var last := rows[|rows| - 1];
      assert forall k :: 0 <= k < |rows| - 1 ==> rows[..|rows| - 1][k] == rows[k];
      if last.medicine.id == id then prefix + [last] else prefix
  }

  /** The group for one medicine present in `rows`: its first row's medicine and all its rows. */
  function GroupFor(rows: seq<Row>, id: nat, now: Clock): Group
    requires now.Valid()
    requires id in Ids(rows)
  {
    var mine := RowsFor(rows, id);
    Group(mine[0].medicine, AnnotateAll(mine, now))
  }

  function ReferenceGroups(rows: seq<Row>, now: Clock): seq<Group>
    requires now.Valid()
  {
    var ids := Ids(rows);
    seq(|ids|, k requires 0 <= k < |ids| => GroupFor(rows, ids[k], now))
  }

  // ---------------------------------------------------------------------------
  // The source's single pass

  /** Position of the group for `id`, or |groups| when there is none yet. */
  function IndexOfGroup(groups: seq<Group>, id: nat): (k: nat)
    ensures k <= |groups|
    ensures k < |groups| ==> groups[k].medicine.id == id
    ensures forall j :: 0 <= j < k ==> groups[j].medicine.id != id
  {
    if groups == [] then 0
    else if groups[0].medicine.id == id then 0
    else 1 + IndexOfGroup(groups[1..], id)
  }

  /** One step of the walk: append the row to its medicine's group, opening a
      new group at the end when the medicine is seen for the first time. */
  function AddRow(groups: seq<Group>, r: Row, now: Clock): seq<Group>
    requires now.Valid()
  {
    var k := IndexOfGroup(groups, r.medicine.id);
    if k < |groups| then groups[k := groups[k].(availability := groups[k].availability + [Annotate(r, now)])]
    else groups + [Group(r.medicine, [Annotate(r, now)])]
  }

  function GroupRows(rows: seq<Row>, now: Clock): seq<Group>
    requires now.Valid()
  {
    if rows == [] then [] else AddRow(GroupRows(rows[..|rows| - 1], now), rows[|rows| - 1], now)
  }

  // ---------------------------------------------------------------------------
  // Facts about the reference

  lemma RowsForSnoc(rows: seq<Row>, r: Row, id: nat)
    ensures RowsFor(rows + [r], id) == RowsFor(rows, id) + (if r.medicine.id == id then [r] else [])
  {
    assert (rows + [r])[..|rows + [r]| - 1] == rows;
  }

  lemma IdsSnoc(rows: seq<Row>, r: Row)
    ensures Ids(rows + [r]) == if r.medicine.id in Ids(rows) then Ids(rows) else Ids(rows) + [r.medicine.id]
  {
    assert (rows + [r])[..|rows + [r]| - 1] == rows;
  }

  /** A medicine has rows exactly when it is one of the identities. */
  lemma {:induction false} RowsForNonEmpty(rows: seq<Row>, id: nat)
    ensures |RowsFor(rows, id)| > 0 <==> id in Ids(rows)
  {
    if rows != [] {
      var p := rows[..|rows| - 1];
      var r := rows[|rows| - 1];
      assert rows == p + [r];
      RowsForNonEmpty(p, id);
      RowsForSnoc(p, r, id);
      IdsSnoc(p, r);
    }
  }

  /** Appending a row of a medicine already present extends that medicine's group. */
  lemma GroupForSnocSame(rows: seq<Row>, r: Row, now: Clock)
    requires now.Valid()
    requires r.medicine.id in Ids(rows)
    ensures r.medicine.id in Ids(rows + [r])
    ensures GroupFor(rows + [r], r.medicine.id, now) ==
      var g := GroupFor(rows, r.medicine.id, now); g.(availability := g.availability + [Annotate(r, now)])
  {
    var id := r.medicine.id;
    IdsSnoc(rows, r);
    RowsForSnoc(rows, r, id);
    RowsForNonEmpty(rows, id);
    var mine := RowsFor(rows, id);
    assert (mine + [r])[0] == mine[0];
    AnnotateAllSnoc(mine, r, now);
  }

  /** Appending a row leaves the groups of the other medicines as they were. */
  lemma GroupForSnocOther(rows: seq<Row>, r: Row, id: nat, now: Clock)
    requires now.Valid()
    requires id in Ids(rows) && id != r.medicine.id
    ensures id in Ids(rows + [r])
    ensures GroupFor(rows + [r], id, now) == GroupFor(rows, id, now)
  {
    IdsSnoc(rows, r);
    RowsForSnoc(rows, r, id);
  }

  /** Appending the first row of a new medicine opens a one-row group. */
  lemma GroupForSnocNew(rows: seq<Row>, r: Row, now: Clock)
    requires now.Valid()
    requires r.medicine.id !in Ids(rows)
    ensures r.medicine.id in Ids(rows + [r])
    ensures GroupFor(rows + [r], r.medicine.id, now) == Group(r.medicine, [Annotate(r, now)])
  {
    IdsSnoc(rows, r);
    RowsForSnoc(rows, r, r.medicine.id);
    RowsForNonEmpty(rows, r.medicine.id);
  }

  /** The reference groups carry their identities in the order of Ids. */
  lemma ReferenceIds(rows: seq<Row>, now: Clock)
    requires now.Valid()
    ensures |ReferenceGroups(rows, now)| == |Ids(rows)|
    ensures forall k :: 0 <= k < |Ids(rows)| ==> ReferenceGroups(rows, now)[k].medicine.id == Ids(rows)[k]
  {
    forall k | 0 <= k < |Ids(rows)|
      ensures ReferenceGroups(rows, now)[k].medicine.id == Ids(rows)[k]
    {
      RowsForNonEmpty(rows, Ids(rows)[k]);
    }
  }

  /** The reference groups of `rows + [r]` differ from those of `rows` exactly as one walk step says. */
  lemma ReferenceStep(rows: seq<Row>, r: Row, now: Clock)
    requires now.Valid()
    ensures ReferenceGroups(rows + [r], now) == AddRow(ReferenceGroups(rows, now), r, now)
  {
    if IndexOfGroup(ReferenceGroups(rows, now), r.medicine.id) < |ReferenceGroups(rows, now)| {
      ReferenceStepKnown(rows, r, now);
    } else {
      ReferenceStepNew(rows, r, now);
    }
  }

  /** A row of a medicine that already has a group joins that group. */
  lemma ReferenceStepKnown(rows: seq<Row>, r: Row, now: Clock)
    requires now.Valid()
    requires IndexOfGroup(ReferenceGroups(rows, now), r.medicine.id) < |ReferenceGroups(rows, now)|
    ensures ReferenceGroups(rows + [r], now) == AddRow(ReferenceGroups(rows, now), r, now)
  {
    var ref := ReferenceGroups(rows, now);
    var ids := Ids(rows);
    var id := r.medicine.id;
    IdsSnoc(rows, r);
    ReferenceIds(rows, now);
    var k := IndexOfGroup(ref, id);
    var next := ReferenceGroups(rows + [r], now);
    var step := AddRow(ref, r, now);
    assert ids[k] == id;
    assert Ids(rows + [r]) == ids;
    forall j | 0 <= j < |next|
      ensures next[j] == step[j]
    {
      if j == k {
        GroupForSnocSame(rows, r, now);
      } else {
        GroupForSnocOther(rows, r, ids[j], now);
      }
    }
  }

  /** A row of a medicine without a group opens a new group at the end. */
  lemma ReferenceStepNew(rows: seq<Row>, r: Row, now: Clock)
    requires now.Valid()
    requires IndexOfGroup(ReferenceGroups(rows, now), r.medicine.id) >= |ReferenceGroups(rows, now)|
    ensures ReferenceGroups(rows + [r], now) == AddRow(ReferenceGroups(rows, now), r, now)
  {
    var ref := ReferenceGroups(rows, now);
    var ids := Ids(rows);
    var id := r.medicine.id;
    IdsSnoc(rows, r);
    ReferenceIds(rows, now);
    var next := ReferenceGroups(rows + [r], now);
    var step := AddRow(ref, r, now);
    assert id !in ids;
    assert Ids(rows + [r]) == ids + [id];
    forall j | 0 <= j < |next|
      ensures next[j] == step[j]
    {
      if j < |ids| {
        GroupForSnocOther(rows, r, ids[j], now);
      } else {
        GroupForSnocNew(rows, r, now);
      }
    }
  }

  /** The source's walk computes the reference grouping. */
  lemma {:induction false} GroupRowsIsReference(rows: seq<Row>, now: Clock)
    requires now.Valid()
    ensures GroupRows(rows, now) == ReferenceGroups(rows, now)
  {
    if rows != [] {
      var p := rows[..|rows| - 1];
      var r := rows[|rows| - 1];
      assert rows == p + [r];
      GroupRowsIsReference(p, now);
      ReferenceStep(p, r, now);
    }
  }

  // ---------------------------------------------------------------------------
  // Order facts, for rows already sorted by some total preorder

  /** Picking one medicine's rows out of sorted rows leaves them sorted. */
  lemma {:induction false} RowsForSorted(rows: seq<Row>, id: nat, le: (Row, Row) -> bool)
    requires Sorting.SortedBy(rows, le)
    ensures Sorting.SortedBy(RowsFor(rows, id), le)
  {
    if rows != [] {
      var p := rows[..|rows| - 1];
      var r := rows[|rows| - 1];
      assert rows == p + [r];
      RowsForSorted(p, id, le);
      RowsForSnoc(p, r, id);
      var mine := RowsFor(p, id);
      forall k | 0 <= k < |mine|
        ensures le(mine[k], r)
      {
        var i :| 0 <= i < |p| && p[i] == mine[k];
        assert rows[i] == p[i];
      }
    }
  }

  lemma SortedPrefix(rows: seq<Row>, le: (Row, Row) -> bool)
    requires Sorting.SortedBy(rows, le) && rows != []
    ensures Sorting.SortedBy(rows[..|rows| - 1], le)
  {
    var p := rows[..|rows| - 1];
    forall a, b | 0 <= a < b < |p|
      ensures le(p[a], p[b])
    {
      assert rows[a] == p[a] && rows[b] == p[b];
    }
  }

  /** In sorted rows, every earlier row is `le` the last one. */
  lemma BeforeLast(rows: seq<Row>, le: (Row, Row) -> bool, x: Row)
    requires Sorting.SortedBy(rows, le) && rows != []
    requires x in rows[..|rows| - 1]
    ensures le(x, rows[|rows| - 1])
  {
    var a :| 0 <= a < |rows| - 1 && rows[..|rows| - 1][a] == x;
    assert rows[a] == x;
  }

  /** Appending a row keeps the first row of every medicine already present. */
  lemma HeadStable(p: seq<Row>, r: Row, id: nat)
    requires id in Ids(p)
    ensures |RowsFor(p, id)| > 0 && |RowsFor(p + [r], id)| > 0
    ensures RowsFor(p + [r], id)[0] == RowsFor(p, id)[0]
  {
    RowsForNonEmpty(p, id);
    RowsForSnoc(p, r, id);
  }

  /** A medicine first seen in the appended row has that row alone. */
  lemma NewHead(p: seq<Row>, r: Row)
    requires r.medicine.id !in Ids(p)
    ensures RowsFor(p + [r], r.medicine.id) == [r]
  {
    RowsForNonEmpty(p, r.medicine.id);
    RowsForSnoc(p, r, r.medicine.id);
  }

  /** Over sorted rows, the groups come in order of their first rows. */
  lemma {:induction false} GroupHeadsSorted(rows: seq<Row>, le: (Row, Row) -> bool, i: nat, j: nat)
    requires Sorting.SortedBy(rows, le)
    requires i < j < |Ids(rows)|
    ensures |RowsFor(rows, Ids(rows)[i])| > 0 && |RowsFor(rows, Ids(rows)[j])| > 0
    ensures le(RowsFor(rows, Ids(rows)[i])[0], RowsFor(rows, Ids(rows)[j])[0])
  {
    var p := rows[..|rows| - 1];
    var r := rows[|rows| - 1];
    assert rows == p + [r];
    IdsSnoc(p, r);
    SortedPrefix(rows, le);
    var idi := Ids(rows)[i];
    var idj := Ids(rows)[j];
    assert i < |Ids(p)| && Ids(p)[i] == idi;
    HeadStable(p, r, idi);
    if j < |Ids(p)| {
      assert Ids(p)[j] == idj;
      HeadStable(p, r, idj);
      GroupHeadsSorted(p, le, i, j);
    } else {
      assert idj == r.medicine.id && idj !in Ids(p);
      NewHead(p, r);
      BeforeLast(rows, le, RowsFor(p, idi)[0]);
    }
  }

  // ---------------------------------------------------------------------------
  // Partition

  /** The number of availability entries over all groups. */
  function EntryCount(groups: seq<Group>): nat {
    if groups == [] then 0 else |groups[0].availability| + EntryCount(groups[1..])
  }

  lemma {:induction false} EntryCountUpdate(groups: seq<Group>, k: nat, g: Group)
    requires k < |groups|
    ensures EntryCount(groups[k := g]) == EntryCount(groups) - |groups[k].availability| + |g.availability|
  {
    if k > 0 {
      assert groups[k := g][1..] == groups[1..][k - 1 := g];
      EntryCountUpdate(groups[1..], k - 1, g);
    }
  }

  lemma {:induction false} EntryCountAppend(groups: seq<Group>, g: Group)
    ensures EntryCount(groups + [g]) == EntryCount(groups) + |g.availability|
  {
    if groups != [] {
      assert (groups + [g])[1..] == groups[1..] + [g];
      EntryCountAppend(groups[1..], g);
    }
  }

  /** Grouping neither drops nor duplicates a row: there are as many entries
      over all groups as there were rows. */
  lemma {:induction false} GroupRowsKeepsEveryRow(rows: seq<Row>, now: Clock)
    requires now.Valid()
    ensures EntryCount(GroupRows(rows, now)) == |rows|
  {
    if rows != [] {
      var p := rows[..|rows| - 1];
      var r := rows[|rows| - 1];
      GroupRowsKeepsEveryRow(p, now);
      var groups := GroupRows(p, now);
      var k := IndexOfGroup(groups, r.medicine.id);
      if k < |groups| {
        EntryCountUpdate(groups, k, groups[k].(availability := groups[k].availability + [Annotate(r, now)]));
      } else {
        EntryCountAppend(groups, Group(r.medicine, [Annotate(r, now)]));
      }
    }
  }

  /** Each row lands in the one group of its medicine: the groups' medicines are
      distinct, and the group for the row's medicine lists the row. */
  lemma RowInItsGroup(rows: seq<Row>, now: Clock, i: nat) returns (k: nat)
    requires now.Valid()
    requires i < |rows|
    ensures forall a, b :: 0 <= a < b < |GroupRows(rows, now)| ==>
      GroupRows(rows, now)[a].medicine.id != GroupRows(rows, now)[b].medicine.id
    ensures k < |GroupRows(rows, now)| && GroupRows(rows, now)[k].medicine.id == rows[i].medicine.id
    ensures Annotate(rows[i], now) in GroupRows(rows, now)[k].availability
  {
    GroupRowsIsReference(rows, now);
    ReferenceIds(rows, now);
    var id := rows[i].medicine.id;
    var ids := Ids(rows);
    assert id in ids;
    k :| 0 <= k < |ids| && ids[k] == id;
    RowsForNonEmpty(rows, id);
    var mine := RowsFor(rows, id);
    var j :| 0 <= j < |mine| && mine[j] == rows[i];
    assert AnnotateAll(mine, now)[j] == Annotate(rows[i], now);
  }
}

=== FILE: hours.dfy ===
/** The opening-hours evaluator: whether a pharmacy is open at a given local
    time, from its weekly schedule of "HH:MM" strings. The clock is a
    parameter instead of being read from the system. */
module Hours {
  import opened Wrappers
  import opened Text

  /** One day of a schedule: opening and closing time as "HH:MM", and a closed flag. */
  datatype DayHours = DayHours(open: string, close: string, closed: bool)

  /** A schedule names all seven days, so the day lookup below always finds an entry. */
  datatype WeeklyHours = WeeklyHours(
    monday: DayHours, tuesday: DayHours, wednesday: DayHours, thursday: DayHours,
    friday: DayHours, saturday: DayHours, sunday: DayHours)
  {
    /** The entry for a weekday numbered as `Date.getDay()` does: 0 = Sunday, ..., 6 = Saturday. */
    function Day(weekday: nat): DayHours
      requires weekday < 7
    {
      match weekday
      case 0 => sunday
      case 1 => monday
      case 2 => tuesday
      case 3 => wednesday
      case 4 => thursday
      case 5 => friday
      case _ => saturday
    }
  }

  /** The local time at which the evaluator runs. */
  datatype Clock = Clock(weekday: nat, hour: nat, minute: nat) {
    predicate Valid() {
      weekday < 7 && hour < 24 && minute < 60
    }
  }

  /** The default schedule of a new pharmacy: Monday to Friday 08:00-18:00,
      Saturday 09:00-17:00, Sunday 10:00-16:00, no day closed. */
  const DefaultHours: WeeklyHours :=
    WeeklyHours(
      DayHours("08:00", "18:00", false), DayHours("08:00", "18:00", false),
      DayHours("08:00", "18:00", false), DayHours("08:00", "18:00", false),
      DayHours("08:00", "18:00", false), DayHours("09:00", "17:00", false),
      DayHours("10:00", "16:00", false))

  /** `parseInt(t.replace(':', ''))`: "08:00" becomes 800, None stands for NaN. */
  function TimeNumber(t: string): Option<int> {
    ParseInt(RemoveFirst(t, ':'))
  }

  /** The clock read as an HHMM number: `getHours() * 100 + getMinutes()`. */
  function NowNumber(now: Clock): nat {
    now.hour * 100 + now.minute
  }

  /** Whether the pharmacy counts as open at `now`: always when it is a 24-hour
      pharmacy; never on a day flagged closed; otherwise when the HHMM number
      of `now` lies between the parsed opening and closing times, both ends
      included. A time that does not parse (NaN) makes both comparisons false. */
  function IsOpen(hours: WeeklyHours, is24Hours: bool, now: Clock): (r: bool)
    requires now.Valid()
    ensures is24Hours ==> r
    ensures !is24Hours && hours.Day(now.weekday).closed ==> !r
    ensures r && !is24Hours ==>
      TimeNumber(hours.Day(now.weekday).open).Some? && TimeNumber(hours.Day(now.weekday).close).Some?
  {
    if is24Hours then true
    else
      var today := hours.Day(now.weekday);
      if today.closed then false
      else
        var current := NowNumber(now);
        match (TimeNumber(today.open), TimeNumber(today.close))
        case (Some(o), Some(c)) => o <= current && current <= c
        case _ => false
  }

  // ---------------------------------------------------------------------------
  // The reference reading: minutes since midnight

  /** A well-formed "HH:MM" time: two digits, a colon, two digits, minutes below 60
      (the hour is not bounded, so "24:00" is well formed). */
  predicate WellFormedTime(t: string) {
    |t| == 5 && IsDigit(t[0]) && IsDigit(t[1]) && t[2] == ':' && IsDigit(t[3]) && IsDigit(t[4])
    && DigitValue(t[3]) * 10 + DigitValue(t[4]) < 60
  }

  function HoursOf(t: string): nat
    requires WellFormedTime(t)
  {
    DigitValue(t[0]) * 10 + DigitValue(t[1])
  }

  function MinutesOf(t: string): nat
    requires WellFormedTime(t)
  {
    DigitValue(t[3]) * 10 + DigitValue(t[4])
  }

  /** Minutes since midnight of a well-formed time. */
  function MinutesSinceMidnight(t: string): nat
    requires WellFormedTime(t)
  {
    HoursOf(t) * 60 + MinutesOf(t)
  }

  /** The evaluator's intended meaning: open when the current minute of the day
      lies between opening and closing, both included. */
  predicate OpenByMinutes(day: DayHours, now: Clock)
    requires WellFormedTime(day.open) && WellFormedTime(day.close)
  {
    !day.closed &&
    MinutesSinceMidnight(day.open) <= now.hour * 60 + now.minute <= MinutesSinceMidnight(day.close)
  }

  /** A well-formed time parses to its HHMM number. */
  lemma TimeNumberOfWellFormed(t: string)
    requires WellFormedTime(t)
    ensures TimeNumber(t) == Some(HoursOf(t) * 100 + MinutesOf(t))
  {
    var d := [t[0], t[1], t[3], t[4]];
    ColonOfWellFormed(t);
    FourDigitsValue(d);
    ParseIntDecimal(d);
  }

  /** Dropping the colon of "HH:MM" leaves its four digits. */
  lemma ColonOfWellFormed(t: string)
    requires WellFormedTime(t)
    ensures RemoveFirst(t, ':') == [t[0], t[1], t[3], t[4]]
  {
    assert RemoveFirst(t[2..], ':') == t[3..];
    assert RemoveFirst(t[1..], ':') == [t[1]] + t[3..];
    assert RemoveFirst(t, ':') == [t[0]] + ([t[1]] + t[3..]);
    assert t[3..] == [t[3], t[4]];
  }

  /** The value of four leading digits. */
  lemma FourDigitsValue(d: string)
    requires |d| == 4 && AllDigits(d)
    ensures LeadingDigits(d) == d
    ensures DigitsValue(d) == ((DigitValue(d[0]) * 10 + DigitValue(d[1])) * 10 + DigitValue(d[2])) * 10 + DigitValue(d[3])
  {
    AllDigitsAreLeading(d);
    assert d[..3][..2][..1] == [d[0]] && [d[0]][..0] == [];
    assert d[..3][..2] == [d[0], d[1]] && d[..3] == [d[0], d[1], d[2]];
    assert DigitsValue([d[0]]) == DigitValue(d[0]);
    assert DigitsValue([d[0], d[1]]) == DigitValue(d[0]) * 10 + DigitValue(d[1]);
  }

  /** Stored times are not validated, and `parseInt` skips leading white
      space: a blank in front of a time changes nothing, so " 8:00" is 800. */
  lemma TimeNumberSkipsSpace(c: char, t: string)
    requires IsSpace(c)
    ensures TimeNumber([c] + t) == TimeNumber(t)
  {
    assert ([c] + t)[1..] == t;
    assert RemoveFirst([c] + t, ':') == [c] + RemoveFirst(t, ':');
    ParseIntSkipsSpace(c, RemoveFirst(t, ':'));
  }

  /** `parseInt` also reads a sign: "-1:00" is -100, and "+1:00" is 100. */
  lemma TimeNumberSign(t: string)
    requires t != [] && IsDigit(t[0])
    ensures TimeNumber("-" + t) == Negate(TimeNumber(t))
    ensures TimeNumber("+" + t) == TimeNumber(t)
  {
    assert ("-" + t)[1..] == t && ("+" + t)[1..] == t;
    assert RemoveFirst("-" + t, ':') == "-" + RemoveFirst(t, ':');
    assert RemoveFirst("+" + t, ':') == "+" + RemoveFirst(t, ':');
    assert RemoveFirst(t, ':') == [t[0]] + RemoveFirst(t[1..], ':');
    ParseIntSign(RemoveFirst(t, ':'));
  }

  /** An opening time stored with a blank in front of a well-formed time is
      read as that time: the day is open exactly within its window. */
  lemma BlankOpeningStillOpens(hours: WeeklyHours, now: Clock, c: char, open: string)
    requires now.Valid() && IsSpace(c)
    requires hours.Day(now.weekday).open == [c] + open
    requires WellFormedTime(open) && WellFormedTime(hours.Day(now.weekday).close)
    ensures IsOpen(hours, false, now) <==>
      OpenByMinutes(DayHours(open, hours.Day(now.weekday).close, hours.Day(now.weekday).closed), now)
  {
    var today := hours.Day(now.weekday);
    TimeNumberSkipsSpace(c, open);
    TimeNumberOfWellFormed(open);
    TimeNumberOfWellFormed(today.close);
    HhmmOrderIsMinuteOrder(HoursOf(open), MinutesOf(open), now.hour, now.minute);
    HhmmOrderIsMinuteOrder(now.hour, now.minute, HoursOf(today.close), MinutesOf(today.close));
  }

  /** Comparing HHMM numbers is comparing minutes since midnight, as long as
      the minute parts are below 60. */
  lemma HhmmOrderIsMinuteOrder(h1: nat, m1: nat, h2: nat, m2: nat)
    requires m1 < 60 && m2 < 60
    ensures h1 * 100 + m1 <= h2 * 100 + m2 <==> h1 * 60 + m1 <= h2 * 60 + m2
  {
    if h1 < h2 {
      assert h1 * 100 + m1 < (h1 + 1) * 100 <= h2 * 100;
      assert h1 * 60 + m1 < (h1 + 1) * 60 <= h2 * 60;
    } else if h1 > h2 {
      assert h2 * 100 + m2 < (h2 + 1) * 100 <= h1 * 100;
      assert h2 * 60 + m2 < (h2 + 1) * 60 <= h1 * 60;
    }
  }

  /** On a schedule whose day entries are well formed, the HHMM comparison of
      the evaluator decides exactly the minutes-since-midnight window. */
  lemma IsOpenMeansWithinMinutes(hours: WeeklyHours, is24Hours: bool, now: Clock)
    requires now.Valid()
    requires WellFormedTime(hours.Day(now.weekday).open) && WellFormedTime(hours.Day(now.weekday).close)
    ensures IsOpen(hours, is24Hours, now) <==> is24Hours || OpenByMinutes(hours.Day(now.weekday), now)
  {
    var today := hours.Day(now.weekday);
    TimeNumberOfWellFormed(today.open);
    TimeNumberOfWellFormed(today.close);
    HhmmOrderIsMinuteOrder(HoursOf(today.open), MinutesOf(today.open), now.hour, now.minute);
    HhmmOrderIsMinuteOrder(now.hour, now.minute, HoursOf(today.close), MinutesOf(today.close));
  }

  /** A day whose opening time is "24:00" is never open, because the clock's
      HHMM number stays below 2400. */
  lemma MidnightOpeningNeverOpen(hours: WeeklyHours, now: Clock)
    requires now.Valid()
    requires hours.Day(now.weekday).open == "24:00"
    ensures !IsOpen(hours, false, now)
  {
    TimeNumberOfWellFormed("24:00");
  }

  /** With a well-formed entry for today and no 24-hour flag, the evaluator
      compares the clock's HHMM number with the entry's HHMM numbers. */
  lemma IsOpenOnWellFormedDay(hours: WeeklyHours, now: Clock)
    requires now.Valid()
    requires WellFormedTime(hours.Day(now.weekday).open) && WellFormedTime(hours.Day(now.weekday).close)
    ensures IsOpen(hours, false, now) <==>
      var today := hours.Day(now.weekday);
      !today.closed
      && HoursOf(today.open) * 100 + MinutesOf(today.open) <= NowNumber(now)
      && NowNumber(now) <= HoursOf(today.close) * 100 + MinutesOf(today.close)
  {
    TimeNumberOfWellFormed(hours.Day(now.weekday).open);
    TimeNumberOfWellFormed(hours.Day(now.weekday).close);
  }

  /** The default schedule is open Monday to Friday between 08:00 and 18:00,
      Saturday between 09:00 and 17:00 and Sunday between 10:00 and 16:00,
      both ends included. */
  lemma DefaultHoursWindows(now: Clock)
    requires now.Valid()
    ensures 1 <= now.weekday <= 5 ==> (IsOpen(DefaultHours, false, now) <==> 800 <= NowNumber(now) <= 1800)
    ensures now.weekday == 6 ==> (IsOpen(DefaultHours, false, now) <==> 900 <= NowNumber(now) <= 1700)
    ensures now.weekday == 0 ==> (IsOpen(DefaultHours, false, now) <==> 1000 <= NowNumber(now) <= 1600)
  {
    IsOpenOnWellFormedDay(DefaultHours, now);
  }

  /** The boundary scenario: on a Monday 08:00-18:00 schedule the pharmacy is
      open at 08:00 and 18:00 and closed at 07:59 and 18:01. */
  lemma MondayBoundaries()
    ensures IsOpen(DefaultHours, false, Clock(1, 8, 0))
    ensures !IsOpen(DefaultHours, false, Clock(1, 7, 59))
    ensures IsOpen(DefaultHours, false, Clock(1, 18, 0))
    ensures !IsOpen(DefaultHours, false, Clock(1, 18, 1))
  {
    DefaultHoursWindows(Clock(1, 8, 0));
    DefaultHoursWindows(Clock(1, 7, 59));
    DefaultHoursWindows(Clock(1, 18, 0));
    DefaultHoursWindows(Clock(1, 18, 1));
  }
}

=== FILE: inventory.dfy ===
/** The offer (inventory) record: one medicine's quantity and price at one
    pharmacy, and the stock status a save derives from the quantity. */
module Inventory {
  import opened Wrappers

  datatype StockStatus = Available | LowStock | OutOfStock | Discontinued

  function StatusName(s: StockStatus): string {
    match s
    case Available => "available"
    case LowStock => "low_stock"
    case OutOfStock => "out_of_stock"
    case Discontinued => "discontinued"
  }

  /** The default alert threshold and per-customer cap of a new offer. */
  const DefaultMinQuantityAlert: int := 10
  const DefaultMaxQuantityPerCustomer: int := 100

  /** An offer. `quantity` and `price` are non-negative by the schema's minimum;
      `lastUpdated` is a timestamp in milliseconds. */
  datatype Offer = Offer(
    pharmacy: nat,
    medicine: nat,
    quantity: nat,
    price: nat,
    discountPrice: Option<nat>,
    minQuantityAlert: int,
    maxQuantityPerCustomer: int,
    status: StockStatus,
    lastUpdated: int)

  /** The status a save computes: nothing left is out of stock, a quantity up
      to and including the alert threshold is low stock, anything above it is
      available. `discontinued` is never produced. */
  function DeriveStatus(quantity: nat, minQuantityAlert: int): (s: StockStatus)
    ensures s == OutOfStock <==> quantity == 0
    ensures s == LowStock <==> 0 < quantity <= minQuantityAlert
    ensures s == Available <==> quantity > 0 && quantity > minQuantityAlert
    ensures s != Discontinued
  {
    if quantity == 0 then OutOfStock
    else if quantity <= minQuantityAlert then LowStock
    else Available
  }

  /** How far up the scale available > low_stock > out_of_stock a status is. */
  function StockLevel(s: StockStatus): nat {
    match s
    case OutOfStock => 0
    case LowStock => 1
    case Available => 2
    case Discontinued => 0
  }

  /** More stock never gives a lower status under the same threshold. */
  lemma DeriveStatusMonotone(q1: nat, q2: nat, minQuantityAlert: int)
    requires q1 <= q2
    ensures StockLevel(DeriveStatus(q1, minQuantityAlert)) <= StockLevel(DeriveStatus(q2, minQuantityAlert))
  {
  }

  /** An offer whose status agrees with its quantity. */
  predicate StatusConsistent(o: Offer) {
    o.status == DeriveStatus(o.quantity, o.minQuantityAlert)
  }

  /** The save hook: overwrites the status with the derived one (whatever it
      was, `discontinued` included) and stamps `lastUpdated`; every other field
      stays as it was. */
  function PreSave(o: Offer, now: int): (r: Offer)
    ensures StatusConsistent(r)
    ensures r.status != Discontinued
    ensures r.lastUpdated == now
    ensures r.(status := o.status, lastUpdated := o.lastUpdated) == o
  {
    o.(status := DeriveStatus(o.quantity, o.minQuantityAlert), lastUpdated := now)
  }

  /** Saving twice at the same instant is saving once. */
  lemma PreSaveIdempotent(o: Offer, now: int)
    ensures PreSave(PreSave(o, now), now) == PreSave(o, now)
  {
  }

  /** A discontinued offer does not stay discontinued once saved. */
  lemma DiscontinuedIsOverwritten(o: Offer, now: int)
    requires o.status == Discontinued
    ensures PreSave(o, now).status != o.status
  {
  }

  /** At most one offer per (pharmacy, medicine) pair. */
  predicate UniquePairs(offers: seq<Offer>) {
    forall i, j :: 0 <= i < j < |offers| ==>
      (offers[i].pharmacy, offers[i].medicine) != (offers[j].pharmacy, offers[j].medicine)
  }

  /** The fields an inventory write supplies; omitted ones are None. */
  datatype OfferInput = OfferInput(
    pharmacy: nat,
    medicine: nat,
    quantity: int,
    price: int,
    discountPrice: Option<nat>,
    minQuantityAlert: Option<int>,
    maxQuantityPerCustomer: Option<int>)

  datatype InsertOutcome = Inserted(offers: seq<Offer>) | DuplicatePair | BelowMinimum

  /** Creating an offer through the schema: negative quantity or price fails
      validation, a second offer for the same pair violates the unique index,
      otherwise the defaults apply and the save hook runs before the offer is
      stored at the end. */
  function InsertOffer(offers: seq<Offer>, input: OfferInput, now: int): (r: InsertOutcome)
    ensures r.BelowMinimum? <==> input.quantity < 0 || input.price < 0
    ensures r.DuplicatePair? <==>
      input.quantity >= 0 && input.price >= 0 &&
      exists i :: 0 <= i < |offers| && offers[i].pharmacy == input.pharmacy && offers[i].medicine == input.medicine
    ensures r.Inserted? ==>
      && |r.offers| == |offers| + 1
      && r.offers[..|offers|] == offers
      && StatusConsistent(r.offers[|offers|])
      && r.offers[|offers|].pharmacy == input.pharmacy
      && r.offers[|offers|].medicine == input.medicine
      && r.offers[|offers|].quantity == input.quantity
      && r.offers[|offers|].price == input.price
      && r.offers[|offers|].discountPrice == input.discountPrice
      && r.offers[|offers|].lastUpdated == now
      && r.offers[|offers|].minQuantityAlert == input.minQuantityAlert.GetOr(DefaultMinQuantityAlert)
      && r.offers[|offers|].maxQuantityPerCustomer == input.maxQuantityPerCustomer.GetOr(DefaultMaxQuantityPerCustomer)
      && (UniquePairs(offers) ==> UniquePairs(r.offers))
  {
    if input.quantity < 0 || input.price < 0 then BelowMinimum
    else if exists i :: 0 <= i < |offers| && offers[i].pharmacy == input.pharmacy && offers[i].medicine == input.medicine
    then DuplicatePair
    else
      var created := Offer(input.pharmacy, input.medicine, input.quantity, input.price, input.discountPrice,
                         input.minQuantityAlert.GetOr(DefaultMinQuantityAlert),
                         input.maxQuantityPerCustomer.GetOr(DefaultMaxQuantityPerCustomer),
                         Available, now);
      Inserted(offers + [PreSave(created, now)])
  }

  /** With the default threshold, ten units are still low stock and eleven are available. */
  lemma DefaultThresholdBoundary()
    ensures DeriveStatus(10, DefaultMinQuantityAlert) == LowStock
    ensures DeriveStatus(11, DefaultMinQuantityAlert) == Available
  {
  }
}

=== FILE: map_filter.dfy ===
/** The pharmacy map's client-side filter: a free-text search over name and
    address, and three drop-downs (specialty, round-the-clock opening,
    service), "" meaning "any". Unlike the backend's nearby filter, the
    round-the-clock drop-down is three-valued: "false" keeps only pharmacies
    that are NOT open around the clock. */
module MapFilter {
  import opened Text
  import opened Seqs
  import opened Pharmacies
  import opened Nearby

  datatype MapFilters = MapFilters(specialty: string, is24Hours: string, services: string)

  const NoFilters: MapFilters := MapFilters("", "", "")

  /** The search term occurs, ignoring case, in the name or the address. */
  predicate MatchesSearch(p: Pharmacy, term: string) {
    ContainsIgnoreCase(p.name, term) || ContainsIgnoreCase(p.address, term)
  }

  predicate MatchesSpecialty(p: Pharmacy, f: MapFilters) {
    f.specialty == "" || HasSpecialty(p, f.specialty)
  }

  /** "" keeps every pharmacy, "true" the round-the-clock ones, "false" the
      others, and any other value none. */
  predicate Matches24Hours(p: Pharmacy, f: MapFilters) {
    || f.is24Hours == ""
    || (f.is24Hours == "true" && p.is24Hours)
    || (f.is24Hours == "false" && !p.is24Hours)
  }

  predicate MatchesServices(p: Pharmacy, f: MapFilters) {
    f.services == "" || OffersAnyService(p, [f.services])
  }

  predicate Shown(p: Pharmacy, term: string, f: MapFilters) {
    MatchesSearch(p, term) && MatchesSpecialty(p, f) && Matches24Hours(p, f) && MatchesServices(p, f)
  }

  function ShownBy(term: string, f: MapFilters): Pharmacy -> bool {
    (p: Pharmacy) => Shown(p, term, f)
  }

  /** The pharmacies drawn on the map: those passing all four tests, in the
      order they were loaded. */
  function FilterPharmacies(ps: seq<Pharmacy>, term: string, f: MapFilters): (r: seq<Pharmacy>)
    ensures |r| <= |ps|
    ensures forall p :: p in r <==> p in ps && Shown(p, term, f)
  {
    Filter(ps, ShownBy(term, f))
  }

  /** The filter keeps the loaded order: filtering two lists one after the
      other gives the filtered lists one after the other. */
  lemma FilterKeepsLoadOrder(a: seq<Pharmacy>, b: seq<Pharmacy>, term: string, f: MapFilters)
    ensures FilterPharmacies(a + b, term, f) == FilterPharmacies(a, term, f) + FilterPharmacies(b, term, f)
  {
    FilterAppend(a, b, ShownBy(term, f));
  }

  /** An empty search with every drop-down on "any" shows every pharmacy, in order. */
  lemma NoFilterShowsAll(ps: seq<Pharmacy>)
    ensures FilterPharmacies(ps, "", NoFilters) == ps
  {
    forall p | p in ps ensures Shown(p, "", NoFilters) {
      EmptyIsContained(Lower(p.name));
    }
    FilterAll(ps, ShownBy("", NoFilters));
  }

  /** The search matches a pharmacy exactly when, after lower-casing, the term
      starts at some position of its name or of its address. */
  lemma SearchIsSubstring(p: Pharmacy, term: string)
    ensures MatchesSearch(p, term) <==>
      (exists i: nat :: OccursAt(Lower(p.name), Lower(term), i))
      || (exists i: nat :: OccursAt(Lower(p.address), Lower(term), i))
  {
    ContainsIffOccurs(Lower(p.name), Lower(term));
    ContainsIffOccurs(Lower(p.address), Lower(term));
  }

  /** Against the backend's nearby filter with the same specialty and a
      single service: for "" and "true" the drop-downs keep the same
      pharmacies, while for "false" the map drops the round-the-clock ones
      the backend keeps. */
  lemma MapAgainstBackend(p: Pharmacy, f: MapFilters, q: NearbyQuery)
    requires q.specialty == f.specialty && q.services == f.services && ',' !in f.services
    requires q.is24Hours == f.is24Hours
    ensures f.is24Hours in {"", "true"} ==>
      (MatchesSpecialty(p, f) && Matches24Hours(p, f) && MatchesServices(p, f) <==> PassesFilters(p, q))
    ensures f.is24Hours == "false" && p.is24Hours ==> !Shown(p, "", f)
    ensures f.is24Hours == "false" && p.is24Hours ==>
      (PassesFilters(p, q) <==> MatchesSpecialty(p, f) && MatchesServices(p, f))
  {
    if f.services != "" {
      SplitWithoutSeparator(f.services, ',');
    }
  }
}

=== FILE: medicine_detail.dfy ===
// The medicine detail view: one catalog entry plus every offer for it that
// is not out of stock, each with its pharmacy and whether that pharmacy is
// open now. Unlike the search, it does not require the pharmacy to be active
// and verified.

module MedicineDetail {
  import opened Wrappers
  import opened Seqs
  import opened Hours
  import opened Medicines
  import opened Pharmacies
  import opened Inventory
  import opened Store

  datatype Listing = Listing(offer: Offer, pharmacy: Pharmacy, isCurrentlyOpen: bool)

  /** 404 for an unknown medicine; 500 when an offer's pharmacy cannot be
      populated (it comes back null and converting it throws). */
  datatype DetailResponse =
    | NotFound
    | Failed
    | Found(medicine: Medicine, availability: seq<Listing>)

  /** The offer query: this medicine, status other than `out_of_stock`. */
  predicate Listed(o: Offer, id: nat) {
    o.medicine == id && o.status != OutOfStock
  }

  function ListedOffers(offers: seq<Offer>, id: nat): (r: seq<Offer>)
    ensures forall o :: o in r <==> o in offers && Listed(o, id)
  {
    Filter(offers, o => Listed(o, id))
  }

  /** Populates each offer's pharmacy, in order; `None` as soon as one is missing. */
  function Populate(ps: seq<Pharmacy>, offers: seq<Offer>, now: Clock): (r: Option<seq<Listing>>)
    requires now.Valid()
    ensures r.None? <==> exists k :: 0 <= k < |offers| && FindPharmacy(ps, offers[k].pharmacy).None?
    ensures r.Some? ==> |r.value| == |offers|
    ensures r.Some? ==> forall k :: 0 <= k < |offers| ==>
      && r.value[k].offer == offers[k]
      && r.value[k].pharmacy in ps
      && r.value[k].pharmacy.id == offers[k].pharmacy
      && r.value[k].isCurrentlyOpen == IsOpen(r.value[k].pharmacy.hours, r.value[k].pharmacy.is24Hours, now)
  {
    if offers == [] then Some([])
    else
      match FindPharmacy(ps, offers[0].pharmacy)
      case None => None
      case Some(p) =>
        var rest := Populate(ps, offers[1..], now);
        assert forall k :: 1 <= k < |offers| ==> offers[k] == offers[1..][k - 1];
        if rest.None? then None
        else Some([Listing(offers[0], p, IsOpen(p.hours, p.is24Hours, now))] + rest.value)
  }

  function GetMedicine(db: Db, id: nat, now: Clock): (r: DetailResponse)
    requires now.Valid()
    ensures r.NotFound? <==> FindMedicine(db.medicines, id).None?
    ensures r.Failed? <==> (FindMedicine(db.medicines, id).Some? &&
                            exists o :: o in db.offers && Listed(o, id) && FindPharmacy(db.pharmacies, o.pharmacy).None?)
    ensures r.Found? ==> r.medicine in db.medicines && r.medicine.id == id
    ensures r.Found? ==> |r.availability| == |ListedOffers(db.offers, id)|
    ensures r.Found? ==> forall k :: 0 <= k < |r.availability| ==>
      && r.availability[k].offer == ListedOffers(db.offers, id)[k]
      && r.availability[k].pharmacy in db.pharmacies
      && r.availability[k].pharmacy.id == r.availability[k].offer.pharmacy
  {
    match FindMedicine(db.medicines, id)
    case None => NotFound
    case Some(m) =>
      var offers := ListedOffers(db.offers, id);
      match Populate(db.pharmacies, offers, now)
      case None =>
        var k :| 0 <= k < |offers| && FindPharmacy(db.pharmacies, offers[k].pharmacy).None?;
        assert offers[k] in offers;
        Failed
      case Some(listings) =>
        assert forall o :: o in db.offers && Listed(o, id) ==> FindPharmacy(db.pharmacies, o.pharmacy).Some? by {
          forall o | o in db.offers && Listed(o, id)
            ensures FindPharmacy(db.pharmacies, o.pharmacy).Some?
          {
            var k :| 0 <= k < |offers| && offers[k] == o;
          }
        }
        Found(m, listings)
  }

  /** The detail view lists every in-stock offer for the medicine, whatever the
      pharmacy's active and verified flags: an inactive or unverified pharmacy's
      offer still shows up here although the search drops it. */
  lemma DetailListsUnverifiedPharmacies(db: Db, id: nat, now: Clock, o: Offer)
    requires now.Valid()
    requires o in db.offers && Listed(o, id)
    requires GetMedicine(db, id, now).Found?
    ensures exists k :: (0 <= k < |GetMedicine(db, id, now).availability|
                         && GetMedicine(db, id, now).availability[k].offer == o
                         && GetMedicine(db, id, now).availability[k].pharmacy.id == o.pharmacy)
  {
    var offers := ListedOffers(db.offers, id);
    assert o in offers;
    var k :| 0 <= k < |offers| && offers[k] == o;
    assert GetMedicine(db, id, now).availability[k].offer == o;
  }
}

=== FILE: medicines.dfy ===
/** The medicine catalog record and its closed enumerations. */
module Medicines {
  import opened Wrappers
  import opened Text

  /** Dosage form: one of fourteen values. */
  datatype Category =
    | Tablet | Capsule | Syrup | Injection | Cream | Drops | Inhaler
    | Ointment | Powder | Suspension | Gel | Patch | Suppository | OtherForm

  /** Clinical class: one of fifteen values. */
  datatype TherapeuticClass =
    | Oncology | Diabetes | Hypertension | Antibiotics | Painkillers
    | Vitamins | Supplements | Cardiovascular | Respiratory | Gastro
    | Dermatology | Pediatrics | MentalHealth | Contraceptives | General

  /** Pregnancy risk letter, `N/A` by default. */
  datatype PregnancyCategory = A | B | C | D | X | NotApplicable

  /** A catalog entry. Text fields that are absent are the empty string. */
  datatype Medicine = Medicine(
    id: nat,
    name: string,
    genericName: string,
    brand: string,
    category: Category,
    therapeuticClass: TherapeuticClass,
    requiresPrescription: bool,
    isControlled: bool,
    activeIngredients: seq<string>,
    pregnancyCategory: PregnancyCategory)

  /** The stored spelling of a category. */
  function CategoryName(c: Category): string {
    match c
    case Tablet => "tablet"
    case Capsule => "capsule"
    case Syrup => "syrup"
    case Injection => "injection"
    case Cream => "cream"
    case Drops => "drops"
    case Inhaler => "inhaler"
    case Ointment => "ointment"
    case Powder => "powder"
    case Suspension => "suspension"
    case Gel => "gel"
    case Patch => "patch"
    case Suppository => "suppository"
    case OtherForm => "other"
  }

  /** Schema validation of a category string: only the fourteen spellings are accepted. */
  function ParseCategory(s: string): (r: Option<Category>)
    ensures r.Some? ==> CategoryName(r.value) == s
  {
    match s
    case "tablet" => Some(Tablet)
    case "capsule" => Some(Capsule)
    case "syrup" => Some(Syrup)
    case "injection" => Some(Injection)
    case "cream" => Some(Cream)
    case "drops" => Some(Drops)
    case "inhaler" => Some(Inhaler)
    case "ointment" => Some(Ointment)
    case "powder" => Some(Powder)
    case "suspension" => Some(Suspension)
    case "gel" => Some(Gel)
    case "patch" => Some(Patch)
    case "suppository" => Some(Suppository)
    case "other" => Some(OtherForm)
    case _ => None
  }

  /** Every category's spelling is accepted back as that category, so the
      fourteen spellings are distinct. */
  lemma CategoryRoundTrip(c: Category)
    ensures ParseCategory(CategoryName(c)) == Some(c)
  {
  }

  /** The stored spelling of a therapeutic class. */
  function TherapeuticClassName(t: TherapeuticClass): string {
    match t
    case Oncology => "oncology"
    case Diabetes => "diabetes"
    case Hypertension => "hypertension"
    case Antibiotics => "antibiotics"
    case Painkillers => "painkillers"
    case Vitamins => "vitamins"
    case Supplements => "supplements"
    case Cardiovascular => "cardiovascular"
    case Respiratory => "respiratory"
    case Gastro => "gastro"
    case Dermatology => "dermatology"
    case Pediatrics => "pediatrics"
    case MentalHealth => "mental_health"
    case Contraceptives => "contraceptives"
    case General => "general"
  }

  /** Schema validation of a therapeutic class string: only the fifteen spellings are accepted. */
  function ParseTherapeuticClass(s: string): (r: Option<TherapeuticClass>)
    ensures r.Some? ==> TherapeuticClassName(r.value) == s
  {
    match s
    case "oncology" => Some(Oncology)
    case "diabetes" => Some(Diabetes)
    case "hypertension" => Some(Hypertension)
    case "antibiotics" => Some(Antibiotics)
    case "painkillers" => Some(Painkillers)
    case "vitamins" => Some(Vitamins)
    case "supplements" => Some(Supplements)
    case "cardiovascular" => Some(Cardiovascular)
    case "respiratory" => Some(Respiratory)
    case "gastro" => Some(Gastro)
    case "dermatology" => Some(Dermatology)
    case "pediatrics" => Some(Pediatrics)
    case "mental_health" => Some(MentalHealth)
    case "contraceptives" => Some(Contraceptives)
    case "general" => Some(General)
    case _ => None
  }

  lemma TherapeuticClassRoundTrip(t: TherapeuticClass)
    ensures ParseTherapeuticClass(TherapeuticClassName(t)) == Some(t)
  {
  }

  function PregnancyCategoryName(p: PregnancyCategory): string {
    match p
    case A => "A"
    case B => "B"
    case C => "C"
    case D => "D"
    case X => "X"
    case NotApplicable => "N/A"
  }

  /** Schema handling of the pregnancy category: absent means `N/A`, any other
      value must be one of the six spellings. */
  function ParsePregnancyCategory(s: Option<string>): (r: Option<PregnancyCategory>)
    ensures s.None? ==> r == Some(NotApplicable)
    ensures s.Some? && r.Some? ==> PregnancyCategoryName(r.value) == s.value
  {
    match s
    case None => Some(NotApplicable)
    case Some("A") => Some(A)
    case Some("B") => Some(B)
    case Some("C") => Some(C)
    case Some("D") => Some(D)
    case Some("X") => Some(X)
    case Some("N/A") => Some(NotApplicable)
    case Some(_) => None
  }

  lemma PregnancyCategoryRoundTrip(p: PregnancyCategory)
    ensures ParsePregnancyCategory(Some(PregnancyCategoryName(p))) == Some(p)
  {
  }

  /** The fields a catalog write supplies; optional ones are None when omitted. */
  datatype MedicineInput = MedicineInput(
    name: string,
    genericName: string,
    brand: string,
    category: string,
    therapeuticClass: string,
    requiresPrescription: Option<bool>,
    isControlled: Option<bool>,
    activeIngredients: seq<string>,
    pregnancyCategory: Option<string>)

  /** Schema validation and defaults of a new catalog entry: the name,
      generic name and brand are trimmed before validation; a name that is
      non-blank, a category and a therapeutic class are required and must be
      enumerated values; the two flags default to false and the pregnancy
      category to `N/A`. */
  function NewMedicine(id: nat, input: MedicineInput): (r: Option<Medicine>)
    ensures r.Some? <==>
      Trim(input.name) != "" && ParseCategory(input.category).Some?
      && ParseTherapeuticClass(input.therapeuticClass).Some?
      && ParsePregnancyCategory(input.pregnancyCategory).Some?
    ensures r.Some? ==>
      && r.value.name == Trim(input.name) && r.value.name != ""
      && r.value.genericName == Trim(input.genericName)
      && r.value.brand == Trim(input.brand)
      && CategoryName(r.value.category) == input.category
      && TherapeuticClassName(r.value.therapeuticClass) == input.therapeuticClass
      && r.value.requiresPrescription == input.requiresPrescription.GetOr(false)
      && r.value.isControlled == input.isControlled.GetOr(false)
      && r.value.activeIngredients == input.activeIngredients
      && ParsePregnancyCategory(input.pregnancyCategory) == Some(r.value.pregnancyCategory)
      && (input.requiresPrescription.None? ==> !r.value.requiresPrescription)
      && (input.isControlled.None? ==> !r.value.isControlled)
      && (input.pregnancyCategory.None? ==> r.value.pregnancyCategory == NotApplicable)
  {
    match (ParseCategory(input.category), ParseTherapeuticClass(input.therapeuticClass),
           ParsePregnancyCategory(input.pregnancyCategory))
    case (Some(c), Some(t), Some(p)) =>
      var name := Trim(input.name);
      if name == "" then None
      else Some(Medicine(id, name, Trim(input.genericName), Trim(input.brand), c, t,
                         input.requiresPrescription.GetOr(false), input.isControlled.GetOr(false),
                         input.activeIngredients, p))
    case _ => None
  }

  /** A catalog entry spelled back as a request, every field given. */
  function InputOf(m: Medicine): MedicineInput {
    MedicineInput(m.name, m.genericName, m.brand, CategoryName(m.category),
                  TherapeuticClassName(m.therapeuticClass), Some(m.requiresPrescription),
                  Some(m.isControlled), m.activeIngredients, Some(PregnancyCategoryName(m.pregnancyCategory)))
  }

  /** Submitting a created entry's own fields again creates the same entry:
      validation accepts what it produced, and trimming and the defaults
      change nothing the second time. */
  lemma NewMedicineResubmitted(id: nat, input: MedicineInput, m: Medicine)
    requires NewMedicine(id, input) == Some(m)
    ensures NewMedicine(id, InputOf(m)) == Some(m)
  {
    TrimIdempotent(input.name);
    TrimIdempotent(input.genericName);
    TrimIdempotent(input.brand);
    CategoryRoundTrip(m.category);
    TherapeuticClassRoundTrip(m.therapeuticClass);
    PregnancyCategoryRoundTrip(m.pregnancyCategory);
  }
}

=== FILE: nearby.dfy ===
/** Browsing pharmacies near a point. The store's geo stage keeps active and
    verified pharmacies within the radius (default 10 km) and orders them by
    distance; then optional filters on specialty, round-the-clock opening and
    services apply; then a page is cut out, and every pharmacy is annotated
    with whether it is open now. The distance of each pharmacy to the point is
    a parameter. */
module Nearby {
  import opened Wrappers
  import opened Text
  import opened Seqs
  import opened Sorting
  import opened Hours
  import opened Pharmacies
  import opened Store

  const DefaultNearbyRadius: nat := 10000

  /** Query parameters as strings; "" stands for an absent one. */
  datatype NearbyQuery = NearbyQuery(
    latitude: string,
    longitude: string,
    radius: Option<nat>,
    specialty: string,
    is24Hours: string,
    services: string,
    page: Option<int>,
    limit: Option<int>)

  datatype NearbyItem = NearbyItem(pharmacy: Pharmacy, distance: nat, isCurrentlyOpen: bool)

  datatype NearbyResponse =
    | MissingCoordinates
    | Failed
    | Nearby(count: nat, pharmacies: seq<NearbyItem>)

  function RadiusOf(q: NearbyQuery): nat { q.radius.GetOr(DefaultNearbyRadius) }
  function PageOf(q: NearbyQuery): int { q.page.GetOr(1) }
  function LimitOf(q: NearbyQuery): int { q.limit.GetOr(20) }

  // ---------------------------------------------------------------------------
  // The post-geo filters

  predicate HasSpecialty(p: Pharmacy, name: string) {
    exists i :: 0 <= i < |p.specialties| && SpecialtyName(p.specialties[i]) == name
  }

  /** `services` holds at least one of the names. */
  predicate OffersAnyService(p: Pharmacy, names: seq<string>) {
    exists i :: 0 <= i < |p.services| && ServiceName(p.services[i]) in names
  }

  /** The `$match` built from the optional parameters. Only the exact string
      "true" asks for round-the-clock pharmacies; "false" asks for nothing. */
  predicate PassesFilters(p: Pharmacy, q: NearbyQuery) {
    && (q.specialty != "" ==> HasSpecialty(p, q.specialty))
    && (q.is24Hours == "true" ==> p.is24Hours)
    && (q.services != "" ==> OffersAnyService(p, Split(q.services, ',')))
  }

  /** The geo stage's query and range. */
  predicate InRange(p: Pharmacy, radius: nat, distance: nat -> nat) {
    Eligible(p) && distance(p.id) <= radius
  }

  function DistanceOrder(distance: nat -> nat): (Pharmacy, Pharmacy) -> bool {
    (a: Pharmacy, b: Pharmacy) => distance(a.id) <= distance(b.id)
  }

  lemma DistanceOrderIsPreorder(distance: nat -> nat)
    ensures TotalPreorder(DistanceOrder(distance))
  {
  }

  /** Every pharmacy the query selects, nearest first, before paging. */
  function NearbyMatches(ps: seq<Pharmacy>, q: NearbyQuery, distance: nat -> nat): (r: seq<Pharmacy>)
    ensures forall p :: p in r <==> p in ps && InRange(p, RadiusOf(q), distance) && PassesFilters(p, q)
    ensures forall i, j :: 0 <= i < j < |r| ==> distance(r[i].id) <= distance(r[j].id)
  {
    DistanceOrderIsPreorder(distance);
    var near := Sort(Filter(ps, (p: Pharmacy) => InRange(p, RadiusOf(q), distance)), DistanceOrder(distance));
    FilterKeepsOrder(near, (p: Pharmacy) => PassesFilters(p, q), DistanceOrder(distance));
    assert forall p :: p in near <==> p in multiset(near);
    Filter(near, (p: Pharmacy) => PassesFilters(p, q))
  }

  function Annotate(p: Pharmacy, distance: nat -> nat, now: Clock): NearbyItem
    requires now.Valid()
  {
    NearbyItem(p, distance(p.id), IsOpen(p.hours, p.is24Hours, now))
  }

  function AnnotateAll(window: seq<Pharmacy>, distance: nat -> nat, now: Clock): (r: seq<NearbyItem>)
    requires now.Valid()
    ensures |r| == |window|
    ensures forall k :: 0 <= k < |r| ==> && r[k].pharmacy == window[k]
                                         && r[k].distance == distance(window[k].id)
                                         && r[k].isCurrentlyOpen == IsOpen(window[k].hours, window[k].is24Hours, now)
  {
    seq(|window|, k requires 0 <= k < |window| => Annotate(window[k], distance, now))
  }

  function GetNearbyPharmacies(ps: seq<Pharmacy>, q: NearbyQuery, distance: nat -> nat, now: Clock): (r: NearbyResponse)
    requires now.Valid()
    ensures r.MissingCoordinates? <==> q.latitude == "" || q.longitude == ""
    ensures r.Failed? <==> (q.latitude != "" && q.longitude != "" &&
                            ((PageOf(q) - 1) * LimitOf(q) < 0 || LimitOf(q) <= 0))
    ensures r.Nearby? ==> r.count == |r.pharmacies| <= LimitOf(q)
    ensures r.Nearby? ==> forall k :: 0 <= k < |r.pharmacies| ==>
      && r.pharmacies[k].pharmacy in ps
      && Eligible(r.pharmacies[k].pharmacy)
      && r.pharmacies[k].distance == distance(r.pharmacies[k].pharmacy.id) <= RadiusOf(q)
      && PassesFilters(r.pharmacies[k].pharmacy, q)
      && r.pharmacies[k].isCurrentlyOpen == IsOpen(r.pharmacies[k].pharmacy.hours, r.pharmacies[k].pharmacy.is24Hours, now)
    ensures r.Nearby? ==> forall i, j :: 0 <= i < j < |r.pharmacies| ==> r.pharmacies[i].distance <= r.pharmacies[j].distance
  {
    if q.latitude == "" || q.longitude == "" then MissingCoordinates
    else
      var matches := NearbyMatches(ps, q, distance);
      match MongoWindow(matches, PageOf(q), LimitOf(q))
      case None => Failed
      case Some(window) =>
        assert forall k :: 0 <= k < |window| ==> window[k] in matches;
        Nearby(|window|, AnnotateAll(window, distance, now))
  }

  // ---------------------------------------------------------------------------
  // Properties

  /** The page is the query's matches from position `(page - 1) * limit` on,
      truncated to `limit`. */
  lemma NearbyPageIsWindow(ps: seq<Pharmacy>, q: NearbyQuery, distance: nat -> nat, now: Clock, k: nat)
    requires now.Valid()
    requires GetNearbyPharmacies(ps, q, distance, now).Nearby?
    requires k < |GetNearbyPharmacies(ps, q, distance, now).pharmacies|
    ensures var skip := (PageOf(q) - 1) * LimitOf(q);
      && 0 <= skip + k < |NearbyMatches(ps, q, distance)|
      && GetNearbyPharmacies(ps, q, distance, now).pharmacies[k].pharmacy == NearbyMatches(ps, q, distance)[skip + k]
  {
  }

  /** On a page that starts inside the matches and is wide enough, no selected
      pharmacy is left out: with page 1 and a limit of at least the number of
      matches, every active, verified pharmacy within the radius that passes
      the filters is listed. */
  lemma NearbyFirstPageComplete(ps: seq<Pharmacy>, q: NearbyQuery, distance: nat -> nat, now: Clock, p: Pharmacy)
    requires now.Valid()
    requires q.latitude != "" && q.longitude != ""
    requires PageOf(q) == 1 && LimitOf(q) >= |NearbyMatches(ps, q, distance)| && LimitOf(q) >= 1
    requires p in ps && InRange(p, RadiusOf(q), distance) && PassesFilters(p, q)
    ensures exists k :: (0 <= k < |GetNearbyPharmacies(ps, q, distance, now).pharmacies|
                         && GetNearbyPharmacies(ps, q, distance, now).pharmacies[k].pharmacy == p)
  {
    var matches := NearbyMatches(ps, q, distance);
    var i :| 0 <= i < |matches| && matches[i] == p;
    var w := MongoWindow(matches, 1, LimitOf(q)).value;
    assert |w| == |matches|;
    assert GetNearbyPharmacies(ps, q, distance, now).pharmacies[i].pharmacy == p;
  }

  /** Without a specialty, services, or `is24Hours=true`, the filters keep
      everything; in particular `is24Hours=false` is no filter at all. */
  lemma NoFilterKeepsAll(p: Pharmacy, q: NearbyQuery)
    requires q.specialty == "" && q.services == "" && q.is24Hours != "true"
    ensures PassesFilters(p, q)
  {
  }

  /** A single service name (no comma) keeps exactly the pharmacies offering it. */
  lemma SingleServiceFilter(p: Pharmacy, q: NearbyQuery)
    requires q.specialty == "" && q.is24Hours != "true"
    requires q.services != "" && ',' !in q.services
    ensures PassesFilters(p, q) <==> exists i :: 0 <= i < |p.services| && ServiceName(p.services[i]) == q.services
  {
    SplitWithoutSeparator(q.services, ',');
  }
}

=== FILE: payment_dialog.dfy ===
/** The M-Pesa payment dialog. Paying sends the rewritten phone number (an
    empty one only raises an error); once the request is accepted the dialog
    polls the payment's status every ten seconds: "0" is success, "1032"
    (still waiting) or a failed query polls again until thirty attempts are
    used, and any other code is a failure. The gateway's answer to each poll
    is a parameter, indexed by the poll's number; the timer is left out. */
module PaymentDialog {
  import opened Wrappers
  import opened Phone
  import opened Subscriptions

  const MaxAttempts: nat := 30
  const PendingCode: string := "1032"

  /** What one status query returned: a result code and description, or an error. */
  datatype PollReply = Reply(resultCode: string, resultDesc: string) | Thrown

  datatype PayStatus = NotStarted | Initiated | Succeeded | PaymentFailed | TimedOut

  function StatusName(s: PayStatus): string {
    match s
    case NotStarted => ""
    case Initiated => "initiated"
    case Succeeded => "success"
    case PaymentFailed => "failed"
    case TimedOut => "timeout"
  }

  /** Where polling ended: the status shown, the error shown, and how many
      queries were made. */
  datatype PollResult = PollResult(status: PayStatus, error: string, polls: nat)

  /** A reply that neither settles the payment nor fails it: poll again. */
  predicate KeepsPolling(r: PollReply) {
    r.Thrown? || r.resultCode == PendingCode
  }

  /** The outcome of one decisive reply. */
  function Settle(r: PollReply, polls: nat): PollResult
    requires !KeepsPolling(r)
  {
    if r.resultCode == "0" then PollResult(Succeeded, "", polls)
    else PollResult(PaymentFailed, if r.resultDesc != "" then r.resultDesc else "Payment failed", polls)
  }

  /** The outcome once every attempt is used, by the kind of the last reply:
      a pending code times out, a failed query leaves the dialog as it was. */
  function Exhausted(r: PollReply): PollResult
    requires KeepsPolling(r)
  {
    if r.Thrown? then PollResult(Initiated, "", MaxAttempts)
    else PollResult(TimedOut, "Payment verification timed out. Please check your M-Pesa messages.", MaxAttempts)
  }

  /** Reference definition: polling from the given number of used attempts. */
  function PollFrom(reply: nat -> PollReply, attempts: nat): PollResult
    requires attempts < MaxAttempts
    decreases MaxAttempts - attempts
  {
    var r := reply(attempts);
    if !KeepsPolling(r) then Settle(r, attempts + 1)
    else if attempts + 1 < MaxAttempts then PollFrom(reply, attempts + 1)
    else Exhausted(r)
  }

  /** The shape of a poll run from a given attempt: it ends within the thirty
      attempts, every query before the last kept polling, and the last reply
      decides the outcome; only the thirtieth can leave polling undecided. */
  lemma {:induction false} PollFromShape(reply: nat -> PollReply, attempts: nat)
    requires attempts < MaxAttempts
    ensures var r := PollFrom(reply, attempts);
      && attempts + 1 <= r.polls <= MaxAttempts
      && (forall k :: attempts <= k < r.polls - 1 ==> KeepsPolling(reply(k)))
      && (KeepsPolling(reply(r.polls - 1)) ==> r.polls == MaxAttempts && r == Exhausted(reply(r.polls - 1)))
      && (!KeepsPolling(reply(r.polls - 1)) ==> r == Settle(reply(r.polls - 1), r.polls))
    decreases MaxAttempts - attempts
  {
    if KeepsPolling(reply(attempts)) && attempts + 1 < MaxAttempts {
      PollFromShape(reply, attempts + 1);
    }
  }

  /** The poll loop. It makes at most thirty queries; every query but the
      last kept polling; the last one decides the status: "0" succeeds, a code
      other than "0" and "1032" fails, and only the thirtieth query can end
      in a timeout (a pending code) or leave the status `initiated` (an
      error). */
  method PollPaymentStatus(reply: nat -> PollReply) returns (result: PollResult)
    ensures result == PollFrom(reply, 0)
    ensures 1 <= result.polls <= MaxAttempts
    ensures forall k :: 0 <= k < result.polls - 1 ==> KeepsPolling(reply(k))
    ensures result.status == Succeeded <==> (reply(result.polls - 1).Reply? && reply(result.polls - 1).resultCode == "0")
    ensures result.status == PaymentFailed <==> !KeepsPolling(reply(result.polls - 1)) && reply(result.polls - 1).resultCode != "0"
    ensures result.status == TimedOut <==> result.polls == MaxAttempts && reply(MaxAttempts - 1).Reply? && reply(MaxAttempts - 1).resultCode == PendingCode
    ensures result.status == Initiated <==> result.polls == MaxAttempts && reply(MaxAttempts - 1).Thrown?
    ensures result.polls < MaxAttempts ==> result.status == Succeeded || result.status == PaymentFailed
  {
    var attempts: nat := 0;
    var done := false;
    result := PollResult(Initiated, "", 0);
    while !done
      invariant attempts <= MaxAttempts
      invariant !done ==> attempts < MaxAttempts && PollFrom(reply, attempts) == PollFrom(reply, 0)
      invariant done ==> result == PollFrom(reply, 0)
      decreases MaxAttempts - attempts, !done
    {
      var r := reply(attempts);
      if !KeepsPolling(r) {
        result := Settle(r, attempts + 1);
        done := true;
      } else {
        attempts := attempts + 1;
        if attempts >= MaxAttempts {
          result := Exhausted(r);
          done := true;
        }
      }
    }
    PollFromShape(reply, 0);
  }

  /** A payment confirmed on the first query settles at once. */
  lemma ImmediateSuccess(reply: nat -> PollReply)
    requires reply(0).Reply? && reply(0).resultCode == "0"
    ensures PollFrom(reply, 0) == PollResult(Succeeded, "", 1)
  {
  }

  /** A gateway that always says "still waiting" is queried exactly thirty
      times and then times out; one whose query always errors is queried as
      often but leaves the dialog `initiated`. */
  lemma {:induction false} NeverSettles(reply: nat -> PollReply, attempts: nat)
    requires attempts < MaxAttempts
    requires forall k :: attempts <= k < MaxAttempts ==> KeepsPolling(reply(k))
    ensures PollFrom(reply, attempts).polls == MaxAttempts
    ensures PollFrom(reply, attempts).status == (if reply(MaxAttempts - 1).Thrown? then Initiated else TimedOut)
    decreases MaxAttempts - attempts
  {
    if attempts + 1 < MaxAttempts {
      NeverSettles(reply, attempts + 1);
    }
  }

  // ---------------------------------------------------------------------------
  // The dialog

  datatype DialogState = DialogState(
    phoneNumber: string,
    loading: bool,
    checkoutRequestId: string,
    status: PayStatus,
    error: string)

  const ClosedDialog: DialogState := DialogState("", false, "", NotStarted, "")

  /** The payment request the dialog sends: the rewritten phone and the plan's price. */
  datatype PaymentRequest = PaymentRequest(phoneNumber: string, amount: nat)

  /** What the server said to the payment request. */
  datatype InitiateReply = InitiateThrew(message: string) | InitiateAnswered(success: bool, checkoutRequestId: string)

  /** The request `handlePayment` sends, if any: none for an empty phone. */
  function PaymentRequestFor(st: DialogState, plan: Plan): (r: Option<PaymentRequest>)
    ensures r.None? <==> st.phoneNumber == ""
    ensures r.Some? ==> r.value.phoneNumber == Normalize(st.phoneNumber) && r.value.amount == PlanPrice(plan)
  {
    if st.phoneNumber == "" then None
    else Some(PaymentRequest(Normalize(st.phoneNumber), PlanPrice(plan)))
  }

  /** `handlePayment` followed by its polling, with the server's answer and
      the poll replies as inputs. */
  function HandlePayment(st: DialogState, plan: Plan, answer: InitiateReply, reply: nat -> PollReply): (r: DialogState)
    ensures st.phoneNumber == "" ==> r == st.(error := "Please enter your phone number")
    ensures st.phoneNumber != "" ==> r.phoneNumber == st.phoneNumber && !r.loading
    ensures st.phoneNumber != "" && answer.InitiateAnswered? && answer.success ==>
      && r.checkoutRequestId == answer.checkoutRequestId
      && r.status == PollFrom(reply, 0).status
    ensures st.phoneNumber != "" && answer.InitiateThrew? ==>
      r == st.(loading := false, error := if answer.message != "" then answer.message else "Payment initiation failed")
  {
    if st.phoneNumber == "" then st.(error := "Please enter your phone number")
    else
      match answer
      case InitiateThrew(message) =>
        st.(loading := false, error := if message != "" then message else "Payment initiation failed")
      case InitiateAnswered(success, checkout) =>
        if !success then st.(loading := false, error := "")
        else
          var polled := PollFrom(reply, 0);
          st.(loading := false, checkoutRequestId := checkout, status := polled.status,
              error := polled.error)
  }

  /** Closing the dialog forgets everything typed and every payment state. */
  function HandleClose(st: DialogState): (r: DialogState)
    ensures r.phoneNumber == "" && !r.loading && r.checkoutRequestId == ""
    ensures r.status == NotStarted && StatusName(r.status) == "" && r.error == ""
  {
    ClosedDialog
  }

  /** After closing, paying again with nothing typed only asks for the phone
      number: no request is sent. */
  lemma CloseThenPayAsksForPhone(st: DialogState, plan: Plan)
    ensures PaymentRequestFor(HandleClose(st), plan).None?
  {
  }
}

=== FILE: pharmacies.dfy ===
/** The pharmacy record: identity, location, weekly hours, eligibility flags
    and the closed service and specialty enumerations. */
module Pharmacies {
  import opened Wrappers
  import opened Text
  import opened Hours

  datatype Service =
    | Prescription | Consultation | Delivery | Insurance | Vaccination
    | BloodPressureCheck | DiabetesTesting

  datatype Specialty = SpOncology | SpDiabetes | SpHypertension | SpPediatrics | SpGeriatrics | SpGeneral

  function ServiceName(s: Service): string {
    match s
    case Prescription => "prescription"
    case Consultation => "consultation"
    case Delivery => "delivery"
    case Insurance => "insurance"
    case Vaccination => "vaccination"
    case BloodPressureCheck => "blood_pressure_check"
    case DiabetesTesting => "diabetes_testing"
  }

  function ParseService(s: string): (r: Option<Service>)
    ensures r.Some? ==> ServiceName(r.value) == s
  {
    match s
    case "prescription" => Some(Prescription)
    case "consultation" => Some(Consultation)
    case "delivery" => Some(Delivery)
    case "insurance" => Some(Insurance)
    case "vaccination" => Some(Vaccination)
    case "blood_pressure_check" => Some(BloodPressureCheck)
    case "diabetes_testing" => Some(DiabetesTesting)
    case _ => None
  }

  lemma ServiceRoundTrip(s: Service)
    ensures ParseService(ServiceName(s)) == Some(s)
  {
  }

  function SpecialtyName(s: Specialty): string {
    match s
    case SpOncology => "oncology"
    case SpDiabetes => "diabetes"
    case SpHypertension => "hypertension"
    case SpPediatrics => "pediatrics"
    case SpGeriatrics => "geriatrics"
    case SpGeneral => "general"
  }

  function ParseSpecialty(s: string): (r: Option<Specialty>)
    ensures r.Some? ==> SpecialtyName(r.value) == s
  {
    match s
    case "oncology" => Some(SpOncology)
    case "diabetes" => Some(SpDiabetes)
    case "hypertension" => Some(SpHypertension)
    case "pediatrics" => Some(SpPediatrics)
    case "geriatrics" => Some(SpGeriatrics)
    case "general" => Some(SpGeneral)
    case _ => None
  }

  lemma SpecialtyRoundTrip(s: Specialty)
    ensures ParseSpecialty(SpecialtyName(s)) == Some(s)
  {
  }

  /** A geo point stored the GeoJSON way: `coordinates` is [longitude, latitude]. */
  datatype GeoPoint = GeoPoint(coordinates: seq<real>)

  function PointAt(latitude: real, longitude: real): GeoPoint {
    GeoPoint([longitude, latitude])
  }

  /** Reading a point back gives the latitude and longitude it was built from. */
  lemma PointAtRoundTrip(latitude: real, longitude: real)
    ensures |PointAt(latitude, longitude).coordinates| == 2
    ensures PointAt(latitude, longitude).coordinates[1] == latitude
    ensures PointAt(latitude, longitude).coordinates[0] == longitude
  {
  }

  datatype Pharmacy = Pharmacy(
    id: nat,
    owner: nat,
    name: string,
    license: string,
    location: GeoPoint,
    address: string,
    county: string,
    town: string,
    phone: string,
    hours: WeeklyHours,
    rating: real,
    totalReviews: nat,
    isVerified: bool,
    isActive: bool,
    is24Hours: bool,
    services: seq<Service>,
    specialties: seq<Specialty>)

  /** Only active and verified pharmacies appear in search and nearby results. */
  predicate Eligible(p: Pharmacy) {
    p.isActive && p.isVerified
  }

  /** The rating bound the schema enforces. */
  predicate ValidRating(p: Pharmacy) {
    0.0 <= p.rating <= 5.0
  }

  /** No two pharmacies share a license. */
  predicate UniqueLicenses(ps: seq<Pharmacy>) {
    forall i, j :: 0 <= i < j < |ps| ==> ps[i].license != ps[j].license
  }

  /** The request's `location`; a number it lacks is None. */
  datatype LocationInput = LocationInput(latitude: Option<real>, longitude: Option<real>)

  /** The ranges a `2dsphere` index accepts for a point. */
  predicate InRange(latitude: real, longitude: real) {
    -90.0 <= latitude <= 90.0 && -180.0 <= longitude <= 180.0
  }

  /** A location the store can index: both numbers present and in range. */
  predicate IndexableLocation(l: Option<LocationInput>) {
    l.Some? && l.value.latitude.Some? && l.value.longitude.Some?
    && InRange(l.value.latitude.value, l.value.longitude.value)
  }

  /** One day of the request's `operatingHours`; an absent field is None. */
  datatype DayInput = DayInput(open: Option<string>, close: Option<string>, closed: Option<bool>)

  datatype HoursInput = HoursInput(
    monday: Option<DayInput>, tuesday: Option<DayInput>, wednesday: Option<DayInput>,
    thursday: Option<DayInput>, friday: Option<DayInput>, saturday: Option<DayInput>,
    sunday: Option<DayInput>)

  /** The schema's defaults apply field by field. */
  function FillDay(d: Option<DayInput>, default: DayHours): DayHours {
    match d
    case None => default
    case Some(i) => DayHours(i.open.GetOr(default.open), i.close.GetOr(default.close), i.closed.GetOr(default.closed))
  }

  /** The stored schedule: every day, and every field of a day, that the
      request leaves out takes its default. */
  function FillHours(h: Option<HoursInput>): (r: WeeklyHours)
    ensures h.None? ==> r == DefaultHours
  {
    var i := h.GetOr(HoursInput(None, None, None, None, None, None, None));
    WeeklyHours(FillDay(i.monday, DefaultHours.monday), FillDay(i.tuesday, DefaultHours.tuesday),
                FillDay(i.wednesday, DefaultHours.wednesday), FillDay(i.thursday, DefaultHours.thursday),
                FillDay(i.friday, DefaultHours.friday), FillDay(i.saturday, DefaultHours.saturday),
                FillDay(i.sunday, DefaultHours.sunday))
  }

  /** A schedule given in full, as a request would spell it. */
  function FullInput(w: WeeklyHours): HoursInput {
    var day := (d: DayHours) => Some(DayInput(Some(d.open), Some(d.close), Some(d.closed)));
    HoursInput(day(w.monday), day(w.tuesday), day(w.wednesday), day(w.thursday),
               day(w.friday), day(w.saturday), day(w.sunday))
  }

  /** A complete schedule is stored as given; a day given only its closing
      time keeps the default opening time and is not closed. */
  lemma FillHoursKeepsGivenFields(w: WeeklyHours, close: string)
    ensures FillHours(Some(FullInput(w))) == w
    ensures var h := HoursInput(Some(DayInput(None, Some(close), None)), None, None, None, None, None, None);
      FillHours(Some(h)).monday == DayHours(DefaultHours.monday.open, close, false)
      && FillHours(Some(h)).sunday == DefaultHours.sunday
  {
  }

  /** The fields of a pharmacy registration request. */
  datatype PharmacyInput = PharmacyInput(
    name: string,
    license: string,
    location: Option<LocationInput>,
    address: string,
    county: string,
    town: string,
    phone: string,
    hours: Option<HoursInput>,
    services: seq<string>,
    specialties: seq<string>)

  datatype CreateOutcome =
    | Created(pharmacy: Pharmacy)
    | DuplicateLicense   // 400 "Pharmacy with this license already exists"
    | Invalid            // a thrown error, a failed validation or an index refusal, each a 500

  /** Parses every element, or fails when one is not an enumerated value. */
  function ParseAll<T>(xs: seq<string>, parse: string -> Option<T>): (r: Option<seq<T>>)
    ensures r.Some? ==> |r.value| == |xs| && forall i :: 0 <= i < |xs| ==> parse(xs[i]) == Some(r.value[i])
  {
    if xs == [] then Some([])
    else
      match (parse(xs[0]), ParseAll(xs[1..], parse))
      case (Some(x), Some(rest)) => Some([x] + rest)
      case _ => None
  }

  /** Registration of a pharmacy: a license already on file is refused.
      Otherwise reading the point of an absent location throws; the name is
      trimmed and must then be non-blank, the other required text fields must
      be non-empty, every service and specialty enumerated, and the point
      both numbers, in the ranges the geo index accepts. The stored record
      gets the schema defaults (rating 0, no reviews, not verified, active,
      not 24 hours, the default hours field by field) and its point is
      stored longitude first. */
  function CreatePharmacy(existing: seq<Pharmacy>, id: nat, owner: nat, input: PharmacyInput): (r: CreateOutcome)
    ensures r.DuplicateLicense? <==> exists i :: 0 <= i < |existing| && existing[i].license == input.license
    ensures r.Created? <==>
      && !r.DuplicateLicense?
      && Trim(input.name) != "" && input.license != "" && input.address != ""
      && input.county != "" && input.town != "" && input.phone != ""
      && IndexableLocation(input.location)
      && ParseAll(input.services, ParseService).Some?
      && ParseAll(input.specialties, ParseSpecialty).Some?
    ensures r.Created? ==>
      && r.pharmacy.name == Trim(input.name)
      && r.pharmacy.license == input.license
      && r.pharmacy.location.coordinates == [input.location.value.longitude.value, input.location.value.latitude.value]
      && !r.pharmacy.isVerified && r.pharmacy.isActive && !r.pharmacy.is24Hours
      && r.pharmacy.rating == 0.0 && ValidRating(r.pharmacy)
      && r.pharmacy.hours == FillHours(input.hours)
      && (UniqueLicenses(existing) ==> UniqueLicenses(existing + [r.pharmacy]))
  {
    if exists i :: 0 <= i < |existing| && existing[i].license == input.license then DuplicateLicense
    else if !IndexableLocation(input.location) then Invalid
    else if Trim(input.name) == "" || input.license == "" || input.address == "" || input.county == ""
            || input.town == "" || input.phone == "" then Invalid
    else
      match (ParseAll(input.services, ParseService), ParseAll(input.specialties, ParseSpecialty))
      case (Some(services), Some(specialties)) =>
        var point := PointAt(input.location.value.latitude.value, input.location.value.longitude.value);
        Created(Pharmacy(id, owner, Trim(input.name), input.license, point,
                         input.address, input.county, input.town, input.phone,
                         FillHours(input.hours), 0.0, 0, false, true, false, services, specialties))
      case _ => Invalid
  }

  /** A point outside the index's ranges, such as latitude 91 or longitude
      200, is refused with a server error, and so is a request without a
      location; the license check still comes first. */
  lemma OutOfRangePointRefused(existing: seq<Pharmacy>, id: nat, owner: nat, input: PharmacyInput)
    requires forall i :: 0 <= i < |existing| ==> existing[i].license != input.license
    requires input.location.None? || input.location == Some(LocationInput(Some(91.0), Some(0.0)))
             || input.location == Some(LocationInput(Some(0.0), Some(200.0)))
    ensures CreatePharmacy(existing, id, owner, input) == Invalid
  {
  }

  /** A freshly registered pharmacy is not eligible: it stays out of search and
      nearby results until it is verified. */
  lemma NewPharmacyNotEligible(existing: seq<Pharmacy>, id: nat, owner: nat, input: PharmacyInput)
    ensures CreatePharmacy(existing, id, owner, input).Created? ==>
      !Eligible(CreatePharmacy(existing, id, owner, input).pharmacy)
  {
  }
}

=== FILE: pharmacy_inventory.dfy ===
/** One pharmacy's stock. The listing keeps the pharmacy's offers, optionally
    of one status, joined with their medicines, optionally narrowed by a text
    search on name, generic name or brand and by therapeutic class, ordered by
    medicine name and paged; `total` counts every match. The pharmacy page
    shows the pharmacy, whether it is open now, and its ten best-stocked
    available offers. */
module PharmacyInventory {
  import opened Wrappers
  import opened Text
  import opened Seqs
  import opened Sorting
  import opened Hours
  import opened Medicines
  import opened Pharmacies
  import opened Inventory
  import opened Store

  /** Query parameters as strings; "" stands for an absent one. */
  datatype InventoryQuery = InventoryQuery(
    page: Option<int>,
    limit: Option<int>,
    search: string,
    status: string,
    therapeuticClass: string)

  datatype StockRow = StockRow(offer: Offer, medicine: Medicine)

  datatype InventoryResponse =
    | PharmacyNotFound
    | Failed
    | Listing(page: PageResult<StockRow>)

  function PageOf(q: InventoryQuery): int { q.page.GetOr(1) }
  function LimitOf(q: InventoryQuery): int { q.limit.GetOr(20) }

  // ---------------------------------------------------------------------------
  // The match stages

  /** First `$match`: this pharmacy, and the status unless it is absent or "all". */
  predicate OfferWanted(o: Offer, pharmacy: nat, q: InventoryQuery) {
    o.pharmacy == pharmacy && (q.status != "" && q.status != "all" ==> StatusName(o.status) == q.status)
  }

  /** Later `$match`es on the joined medicine. The search looks at the name,
      the generic name and the brand only, not the active ingredients. The
      term goes to the database as a case-insensitive regular expression;
      here it is read as a literal substring, which is what the expression
      means when it holds no metacharacter (`IsLiteralPattern`). */
  predicate MedicineWanted(m: Medicine, q: InventoryQuery) {
    && (q.search != "" ==>
          ContainsIgnoreCase(m.name, q.search)
          || ContainsIgnoreCase(m.genericName, q.search)
          || ContainsIgnoreCase(m.brand, q.search))
    && (q.therapeuticClass != "" ==> TherapeuticClassName(m.therapeuticClass) == q.therapeuticClass)
  }

  /** An offer that yields a row: the first stage keeps it, and its medicine
      is in the catalog and passes the medicine filters. */
  predicate Joins(ms: seq<Medicine>, o: Offer, wanted: Offer -> bool, q: InventoryQuery) {
    wanted(o) && FindMedicine(ms, o.medicine).Some? && MedicineWanted(FindMedicine(ms, o.medicine).value, q)
  }

  /** The offers that yield a row, in offer order. */
  function JoinedOffers(ms: seq<Medicine>, offers: seq<Offer>, wanted: Offer -> bool, q: InventoryQuery): seq<Offer> {
    Filter(offers, o => Joins(ms, o, wanted, q))
  }

  /** The first `$match`, then `$lookup` + `$unwind` and the medicine
      filters, in offer order; `wanted` is the first stage's test. There is
      one row per offer that yields one, carrying that offer's medicine. */
  function JoinRowsWhere(ms: seq<Medicine>, offers: seq<Offer>, wanted: Offer -> bool, q: InventoryQuery): (rows: seq<StockRow>)
    ensures |rows| == |JoinedOffers(ms, offers, wanted, q)|
    ensures forall k :: 0 <= k < |rows| ==>
      rows[k].offer == JoinedOffers(ms, offers, wanted, q)[k]
      && Some(rows[k].medicine) == FindMedicine(ms, rows[k].offer.medicine)
    ensures forall k :: 0 <= k < |rows| ==>
      && rows[k].offer in offers
      && wanted(rows[k].offer)
      && rows[k].medicine in ms
      && rows[k].medicine.id == rows[k].offer.medicine
      && MedicineWanted(rows[k].medicine, q)
    ensures forall k :: (0 <= k < |offers| && wanted(offers[k])
                         && FindMedicine(ms, offers[k].medicine).Some?
                         && MedicineWanted(FindMedicine(ms, offers[k].medicine).value, q))
                        ==> StockRow(offers[k], FindMedicine(ms, offers[k].medicine).value) in rows
  {
    var joined := JoinedOffers(ms, offers, wanted, q);
    var rows := WithMedicines(ms, joined);
    forall k | 0 <= k < |offers| && Joins(ms, offers[k], wanted, q)
      ensures StockRow(offers[k], FindMedicine(ms, offers[k].medicine).value) in rows
    {
      assert offers[k] in joined;
      var j :| 0 <= j < |joined| && joined[j] == offers[k];
      assert rows[j] == StockRow(offers[k], FindMedicine(ms, offers[k].medicine).value);
    }
    rows
  }

  /** Each offer paired with its medicine. */
  function WithMedicines(ms: seq<Medicine>, os: seq<Offer>): (rows: seq<StockRow>)
    requires forall k :: 0 <= k < |os| ==> FindMedicine(ms, os[k].medicine).Some?
    ensures |rows| == |os|
    ensures forall k :: 0 <= k < |os| ==> rows[k] == StockRow(os[k], FindMedicine(ms, os[k].medicine).value)
  {
    seq(|os|, k requires 0 <= k < |os| => StockRow(os[k], FindMedicine(ms, os[k].medicine).value))
  }

  /** A first stage that keeps no offer leaves nothing to join. */
  lemma {:induction false} JoinNothingWanted(ms: seq<Medicine>, offers: seq<Offer>, wanted: Offer -> bool, q: InventoryQuery)
    requires forall o :: !wanted(o)
    ensures JoinRowsWhere(ms, offers, wanted, q) == []
  {
    if offers != [] {
      JoinNothingWanted(ms, offers[1..], wanted, q);
    }
  }

  /** The first stage's test for `pharmacy`. */
  function WantedAt(pharmacy: nat, q: InventoryQuery): Offer -> bool {
    o => OfferWanted(o, pharmacy, q)
  }

  /** The joined rows of the pharmacy's offers that pass the status filter:
      one per such offer whose medicine exists and passes the search and the
      class filter, in offer order. */
  function JoinRows(ms: seq<Medicine>, offers: seq<Offer>, pharmacy: nat, q: InventoryQuery): (rows: seq<StockRow>)
    ensures |rows| == |JoinedOffers(ms, offers, WantedAt(pharmacy, q), q)|
    ensures forall k :: 0 <= k < |rows| ==>
      rows[k].offer == JoinedOffers(ms, offers, WantedAt(pharmacy, q), q)[k]
      && Some(rows[k].medicine) == FindMedicine(ms, rows[k].offer.medicine)
    ensures forall k :: 0 <= k < |rows| ==>
      && rows[k].offer in offers
      && OfferWanted(rows[k].offer, pharmacy, q)
      && rows[k].medicine in ms
      && rows[k].medicine.id == rows[k].offer.medicine
      && MedicineWanted(rows[k].medicine, q)
    ensures forall k :: (0 <= k < |offers| && OfferWanted(offers[k], pharmacy, q)
                         && FindMedicine(ms, offers[k].medicine).Some?
                         && MedicineWanted(FindMedicine(ms, offers[k].medicine).value, q))
                        ==> StockRow(offers[k], FindMedicine(ms, offers[k].medicine).value) in rows
  {
    JoinRowsWhere(ms, offers, WantedAt(pharmacy, q), q)
  }

  /** `{'medicineDetails.name': 1}`, by the characters' codes. */
  function NameOrder(): (StockRow, StockRow) -> bool {
    (a: StockRow, b: StockRow) => LexLe(a.medicine.name, b.medicine.name)
  }

  lemma NameOrderIsPreorder()
    ensures TotalPreorder(NameOrder())
  {
    forall a: StockRow, b: StockRow ensures NameOrder()(a, b) || NameOrder()(b, a) {
      LexLeTotal(a.medicine.name, b.medicine.name);
    }
    forall a: StockRow, b: StockRow, c: StockRow | NameOrder()(a, b) && NameOrder()(b, c)
      ensures NameOrder()(a, c)
    {
      LexLeTransitive(a.medicine.name, b.medicine.name, c.medicine.name);
    }
  }

  /** Every matching row, ordered by medicine name, before paging. */
  function InventoryMatches(db: Db, pharmacy: nat, q: InventoryQuery): (r: seq<StockRow>)
    requires IsLiteralPattern(q.search)
    ensures SortedBy(r, NameOrder())
    ensures multiset(r) == multiset(JoinRows(db.medicines, db.offers, pharmacy, q))
  {
    NameOrderIsPreorder();
    Sort(JoinRows(db.medicines, db.offers, pharmacy, q), NameOrder())
  }

  /** The listing with the route's id cast to the stored type, as the
      pharmacy lookup casts it (`GetPharmacyInventoryAsWritten` passes it
      uncast and lists nothing). */
  function GetPharmacyInventory(db: Db, pharmacy: nat, q: InventoryQuery): (r: InventoryResponse)
    requires IsLiteralPattern(q.search)
    ensures r.PharmacyNotFound? <==> FindPharmacy(db.pharmacies, pharmacy).None?
    ensures r.Failed? <==> FindPharmacy(db.pharmacies, pharmacy).Some? &&
                           ((PageOf(q) - 1) * LimitOf(q) < 0 || LimitOf(q) <= 0)
    ensures r.Listing? ==>
      && r.page.total == |JoinRows(db.medicines, db.offers, pharmacy, q)|
      && r.page.total == |JoinedOffers(db.medicines, db.offers, WantedAt(pharmacy, q), q)|
      && r.page.count == |r.page.results| <= LimitOf(q)
      && r.page.pages.Some? && r.page.pages.value * LimitOf(q) >= r.page.total
      && (r.page.pages.value > 0 ==> (r.page.pages.value - 1) * LimitOf(q) < r.page.total)
      && r.page.currentPage == PageOf(q)
    ensures r.Listing? ==> forall i, j :: 0 <= i < j < |r.page.results| ==>
      LexLe(r.page.results[i].medicine.name, r.page.results[j].medicine.name)
  {
    match FindPharmacy(db.pharmacies, pharmacy)
    case None => PharmacyNotFound
    case Some(_) =>
      var matches := InventoryMatches(db, pharmacy, q);
      match MongoPage(matches, PageOf(q), LimitOf(q))
      case None => Failed
      case Some(page) =>
        WindowKeepsOrder(matches, (PageOf(q) - 1) * LimitOf(q), LimitOf(q), NameOrder());
        Listing(page)
  }

  /** The page is the sorted matches from position `(page - 1) * limit` on,
      truncated to `limit`. */
  lemma InventoryPageIsWindow(db: Db, pharmacy: nat, q: InventoryQuery)
    requires IsLiteralPattern(q.search)
    requires GetPharmacyInventory(db, pharmacy, q).Listing?
    ensures Some(GetPharmacyInventory(db, pharmacy, q).page.results)
            == MongoWindow(InventoryMatches(db, pharmacy, q), PageOf(q), LimitOf(q))
  {
  }

  /** Every listed row is one of the pharmacy's offers that passes the status
      filter, with its own medicine, which passes the search and the class
      filter; and it sits at its place in the sorted matches. */
  lemma InventoryRowsSound(db: Db, pharmacy: nat, q: InventoryQuery, k: nat)
    requires IsLiteralPattern(q.search)
    requires GetPharmacyInventory(db, pharmacy, q).Listing?
    requires k < |GetPharmacyInventory(db, pharmacy, q).page.results|
    ensures var row := GetPharmacyInventory(db, pharmacy, q).page.results[k];
      && row.offer in db.offers && row.offer.pharmacy == pharmacy
      && (q.status != "" && q.status != "all" ==> StatusName(row.offer.status) == q.status)
      && row.medicine in db.medicines && row.medicine.id == row.offer.medicine
      && MedicineWanted(row.medicine, q)
      && 0 <= (PageOf(q) - 1) * LimitOf(q) + k < |InventoryMatches(db, pharmacy, q)|
      && row == InventoryMatches(db, pharmacy, q)[(PageOf(q) - 1) * LimitOf(q) + k]
  {
    InventoryPageIsWindow(db, pharmacy, q);
    WindowRowSound(db, pharmacy, q, GetPharmacyInventory(db, pharmacy, q).page.results, k);
  }

  /** The soundness of a row of any window of the sorted matches. */
  lemma WindowRowSound(db: Db, pharmacy: nat, q: InventoryQuery, results: seq<StockRow>, k: nat)
    requires IsLiteralPattern(q.search)
    requires MongoWindow(InventoryMatches(db, pharmacy, q), PageOf(q), LimitOf(q)) == Some(results)
    requires k < |results|
    ensures var row := results[k];
      && row.offer in db.offers && OfferWanted(row.offer, pharmacy, q)
      && row.medicine in db.medicines && row.medicine.id == row.offer.medicine
      && MedicineWanted(row.medicine, q)
      && 0 <= (PageOf(q) - 1) * LimitOf(q) + k < |InventoryMatches(db, pharmacy, q)|
      && row == InventoryMatches(db, pharmacy, q)[(PageOf(q) - 1) * LimitOf(q) + k]
  {
    var matches := InventoryMatches(db, pharmacy, q);
    WindowIndex(matches, PageOf(q), LimitOf(q), results, k);
    MatchSound(db, pharmacy, q, results[k]);
  }

  lemma MatchSound(db: Db, pharmacy: nat, q: InventoryQuery, row: StockRow)
    requires IsLiteralPattern(q.search)
    requires row in InventoryMatches(db, pharmacy, q)
    ensures row.offer in db.offers && OfferWanted(row.offer, pharmacy, q)
    ensures row.medicine in db.medicines && row.medicine.id == row.offer.medicine
    ensures MedicineWanted(row.medicine, q)
  {
    var rows := JoinRows(db.medicines, db.offers, pharmacy, q);
    assert row in multiset(rows);
    var k :| 0 <= k < |rows| && rows[k] == row;
  }

  /** `total` counts the matches before the page is cut: every offer of the
      pharmacy passing the filters, whose medicine exists and passes the
      search, is among the matches. */
  lemma InventoryTotalCountsAll(db: Db, pharmacy: nat, q: InventoryQuery, o: Offer)
    requires IsLiteralPattern(q.search)
    requires o in db.offers && OfferWanted(o, pharmacy, q)
    requires FindMedicine(db.medicines, o.medicine).Some?
    requires MedicineWanted(FindMedicine(db.medicines, o.medicine).value, q)
    ensures StockRow(o, FindMedicine(db.medicines, o.medicine).value) in InventoryMatches(db, pharmacy, q)
  {
    var k :| 0 <= k < |db.offers| && db.offers[k] == o;
    var row := StockRow(o, FindMedicine(db.medicines, o.medicine).value);
    assert row in JoinRows(db.medicines, db.offers, pharmacy, q);
    assert row in multiset(InventoryMatches(db, pharmacy, q));
  }

  // ---------------------------------------------------------------------------
  // The listing as written: the route's id is not cast

  /** A value as the store compares it: type first, then value. */
  datatype FilterValue = ObjectIdValue(oid: nat) | StringValue(text: string)

  /** The first `$match` as written. The filter holds the route's id as the
      string it arrived as: aggregation stages are not cast to the schema's
      types, and the stored `pharmacy` is an ObjectId, which never equals a
      string. */
  predicate OfferWantedAsWritten(o: Offer, routeId: string, q: InventoryQuery) {
    ObjectIdValue(o.pharmacy) == StringValue(routeId)
    && (q.status != "" && q.status != "all" ==> StatusName(o.status) == q.status)
  }

  /** The listing as written. `pharmacy` is the route's id `routeId` as the
      pharmacy lookup casts it; the pipeline gets `routeId` itself. */
  function GetPharmacyInventoryAsWritten(db: Db, pharmacy: nat, routeId: string, q: InventoryQuery): InventoryResponse
    requires IsLiteralPattern(q.search)
  {
    match FindPharmacy(db.pharmacies, pharmacy)
    case None => PharmacyNotFound
    case Some(_) =>
      NameOrderIsPreorder();
      var matches := Sort(JoinRowsWhere(db.medicines, db.offers, o => OfferWantedAsWritten(o, routeId, q), q), NameOrder());
      match MongoPage(matches, PageOf(q), LimitOf(q))
      case None => Failed
      case Some(page) => Listing(page)
  }

  /** The discrepancy: as written, an existing pharmacy always lists an empty
      page with `total` 0, even when it holds an offer that the intended
      listing counts. */
  lemma UncastRouteIdHidesStock(db: Db, pharmacy: nat, routeId: string, q: InventoryQuery, o: Offer)
    requires IsLiteralPattern(q.search)
    requires o in db.offers && OfferWanted(o, pharmacy, q)
    requires FindMedicine(db.medicines, o.medicine).Some?
    requires MedicineWanted(FindMedicine(db.medicines, o.medicine).value, q)
    requires GetPharmacyInventory(db, pharmacy, q).Listing?
    ensures GetPharmacyInventory(db, pharmacy, q).page.total >= 1
    ensures var r := GetPharmacyInventoryAsWritten(db, pharmacy, routeId, q);
      r.Listing? && r.page.total == 0 && r.page.results == [] && r.page.pages == Some(0)
  {
    InventoryTotalCountsAll(db, pharmacy, q, o);
    var matches := InventoryMatches(db, pharmacy, q);
    assert |matches| >= 1;
    assert |multiset(matches)| == |matches|;
    var rows := JoinRowsWhere(db.medicines, db.offers, o => OfferWantedAsWritten(o, routeId, q), q);
    JoinNothingWanted(db.medicines, db.offers, o => OfferWantedAsWritten(o, routeId, q), q);
    NameOrderIsPreorder();
    assert multiset(Sort(rows, NameOrder())) == multiset(rows);
  }

  // ---------------------------------------------------------------------------
  // The pharmacy page

  const TopSize: nat := 10

  /** An offer with its medicine populated; a missing medicine comes back null. */
  datatype TopMedicine = TopMedicine(offer: Offer, medicine: Option<Medicine>)

  datatype PharmacyResponse =
    | NoSuchPharmacy
    | PharmacyPage(pharmacy: Pharmacy, isCurrentlyOpen: bool, topMedicines: seq<TopMedicine>)

  function QuantityOrder(): (Offer, Offer) -> bool {
    (a: Offer, b: Offer) => a.quantity >= b.quantity
  }

  predicate AvailableAt(o: Offer, pharmacy: nat) {
    o.pharmacy == pharmacy && o.status == Available
  }

  /** `find({pharmacy, status: 'available'}).sort({quantity: -1}).limit(10)`. */
  function TopOffers(offers: seq<Offer>, pharmacy: nat): (r: seq<Offer>)
    ensures |r| <= TopSize
    ensures SortedBy(r, QuantityOrder())
    ensures forall k :: 0 <= k < |r| ==> r[k] in offers && AvailableAt(r[k], pharmacy)
  {
    var ranked := RankedOffers(offers, pharmacy);
    PrefixKeepsOrder(ranked, TopSize, QuantityOrder());
    var top := Take(ranked, TopSize);
    assert forall k :: 0 <= k < |top| ==> top[k] == ranked[k];
    top
  }

  function RankedOffers(offers: seq<Offer>, pharmacy: nat): (r: seq<Offer>)
    ensures SortedBy(r, QuantityOrder())
    ensures multiset(r) == multiset(Filter(offers, (o: Offer) => AvailableAt(o, pharmacy)))
    ensures forall k :: 0 <= k < |r| ==> r[k] in offers && AvailableAt(r[k], pharmacy)
  {
    var r := Sort(Filter(offers, (o: Offer) => AvailableAt(o, pharmacy)), QuantityOrder());
    assert forall k :: 0 <= k < |r| ==> r[k] in multiset(r);
    r
  }

  function GetPharmacy(db: Db, pharmacy: nat, now: Clock): (r: PharmacyResponse)
    requires now.Valid()
    ensures r.NoSuchPharmacy? <==> FindPharmacy(db.pharmacies, pharmacy).None?
    ensures r.PharmacyPage? ==>
      && r.pharmacy in db.pharmacies && r.pharmacy.id == pharmacy
      && r.isCurrentlyOpen == IsOpen(r.pharmacy.hours, r.pharmacy.is24Hours, now)
      && |r.topMedicines| <= TopSize
    ensures r.PharmacyPage? ==> forall k :: 0 <= k < |r.topMedicines| ==>
      && r.topMedicines[k].offer in db.offers
      && AvailableAt(r.topMedicines[k].offer, pharmacy)
      && r.topMedicines[k].medicine == FindMedicine(db.medicines, r.topMedicines[k].offer.medicine)
    ensures r.PharmacyPage? ==> forall i, j :: 0 <= i < j < |r.topMedicines| ==>
      r.topMedicines[i].offer.quantity >= r.topMedicines[j].offer.quantity
  {
    match FindPharmacy(db.pharmacies, pharmacy)
    case None => NoSuchPharmacy
    case Some(p) =>
      var top := TopOffers(db.offers, pharmacy);
      var populated := seq(|top|, k requires 0 <= k < |top| => TopMedicine(top[k], FindMedicine(db.medicines, top[k].medicine)));
      PharmacyPage(p, IsOpen(p.hours, p.is24Hours, now), populated)
  }

  /** An available offer of the pharmacy is left off its page only when ten
      offers listed there hold at least as many units. */
  lemma TopMedicinesCutoff(db: Db, pharmacy: nat, now: Clock, o: Offer)
    requires now.Valid()
    requires o in db.offers && AvailableAt(o, pharmacy)
    requires GetPharmacy(db, pharmacy, now).PharmacyPage?
    requires forall k :: 0 <= k < |GetPharmacy(db, pharmacy, now).topMedicines| ==>
      GetPharmacy(db, pharmacy, now).topMedicines[k].offer != o
    ensures |GetPharmacy(db, pharmacy, now).topMedicines| == TopSize
    ensures forall k :: 0 <= k < TopSize ==>
      GetPharmacy(db, pharmacy, now).topMedicines[k].offer.quantity >= o.quantity
  {
    var ranked := RankedOffers(db.offers, pharmacy);
    assert o in Filter(db.offers, (o: Offer) => AvailableAt(o, pharmacy));
    assert o in multiset(ranked);
    var m :| 0 <= m < |ranked| && ranked[m] == o;
    var top := TopOffers(db.offers, pharmacy);
    assert top == Take(ranked, TopSize);
    var page := GetPharmacy(db, pharmacy, now).topMedicines;
    assert forall k :: 0 <= k < |top| ==> page[k].offer == top[k];
    if m < |top| {
      assert false;
    }
    forall k | 0 <= k < TopSize ensures page[k].offer.quantity >= o.quantity {
      assert top[k] == ranked[k];
      assert QuantityOrder()(ranked[k], ranked[m]);
    }
  }
}

=== FILE: phone.dfy ===
/** Kenyan phone numbers. Every entry point (registration, the payment form,
    the subscription page, the payment endpoint) rewrites a number the same
    way: keep its digits; a leading `0` becomes the country code `254`;
    otherwise `254` is put in front unless it is already there. Only the
    payment endpoint then insists on the international form, `254` and nine
    more digits. */
module Phone {
  import opened Text

  const CountryCode: string := "254"

  /** The shared rewriting rule. */
  function Normalize(raw: string): (r: string)
    ensures AllDigits(r)
    ensures CountryCode <= r
  {
    var d := KeepDigits(raw);
    if |d| > 0 && d[0] == '0' then CountryCode + d[1..]
    else if !(CountryCode <= d) then CountryCode + d
    else d
  }

  /** `/^254[0-9]{9}$/`. */
  predicate IsValidKenyan(p: string) {
    |p| == 12 && CountryCode <= p && AllDigits(p)
  }

  /** Rewriting a rewritten number changes nothing. */
  lemma NormalizeIdempotent(raw: string)
    ensures Normalize(Normalize(raw)) == Normalize(raw)
  {
    var n := Normalize(raw);
    assert KeepDigits(n) == n;
    assert n[0] == '2';
  }

  /** The digits of a number the payment endpoint accepts: ten starting with
      `0`, twelve starting with `254`, or nine starting neither way. */
  predicate AcceptedDigits(d: string) {
    if |d| > 0 && d[0] == '0' then |d| == 10
    else if CountryCode <= d then |d| == 12
    else |d| == 9
  }

  /** The endpoint accepts a number exactly when its digits have one of the
      three accepted shapes. */
  lemma AcceptedIffDigitShape(raw: string)
    ensures IsValidKenyan(Normalize(raw)) <==> AcceptedDigits(KeepDigits(raw))
  {
  }

  /** A local number: the leading `0` becomes the country code. */
  lemma LocalForm(rest: string)
    requires AllDigits(rest)
    ensures Normalize("0" + rest) == CountryCode + rest
  {
    var d := "0" + rest;
    assert AllDigits(d);
    assert KeepDigits(d) == d;
    assert d[1..] == rest;
  }

  /** An international number loses its `+` and nothing else. */
  lemma InternationalForm(rest: string)
    requires AllDigits(rest)
    ensures Normalize("+" + CountryCode + rest) == CountryCode + rest
  {
    var intl := CountryCode + rest;
    assert AllDigits(intl);
    assert "+" + CountryCode + rest == "+" + intl;
    KeepDigitsAppend("+", intl);
    assert KeepDigits("+") == "";
    assert KeepDigits(intl) == intl;
  }

  /** A bare subscriber number gets the country code in front. */
  lemma BareForm(rest: string)
    requires AllDigits(rest) && |rest| > 0 && rest[0] != '0' && !(CountryCode <= rest)
    ensures Normalize(rest) == CountryCode + rest
  {
    assert KeepDigits(rest) == rest;
  }

  /** The local (`0…`), international (`+254…`) and bare forms of one
      subscriber number rewrite to the same number, which the payment endpoint
      accepts. */
  lemma FormsAgree(subscriber: string)
    requires |subscriber| == 9 && AllDigits(subscriber)
    requires subscriber[0] != '0' && !(CountryCode <= subscriber)
    ensures Normalize("0" + subscriber) == Normalize("+" + CountryCode + subscriber) == Normalize(subscriber)
    ensures IsValidKenyan(Normalize(subscriber))
  {
    LocalForm(subscriber);
    InternationalForm(subscriber);
    BareForm(subscriber);
  }

  /** A number too short to hold the country code is still rewritten, not
      rejected: the rewriting rule alone never fails. */
  lemma ShortNumberStillRewritten(d: string)
    requires AllDigits(d) && |d| < 3 && (d == [] || d[0] != '0') && !(CountryCode <= d)
    ensures Normalize(d) == CountryCode + d
    ensures !IsValidKenyan(Normalize(d))
  {
  }
}

=== FILE: register_form.dfy ===
/** The sign-up form. Submitting checks that the two passwords agree, then
    that the password has at least six characters, then rewrites the phone by
    the shared rule and sends the form without its confirmation field. */
module RegisterForm {
  import opened Wrappers
  import opened Phone
  import opened Users
  import opened Auth

  datatype Form = Form(
    name: string,
    email: string,
    phone: string,
    password: string,
    confirmPassword: string,
    role: string,
    address: string)

  /** The form as first shown: everything empty, the role `user`. */
  const BlankForm: Form := Form("", "", "", "", "", "user", "")

  /** What the form sends. */
  datatype Payload = Payload(name: string, email: string, phone: string, password: string, role: string, address: string)

  datatype Submission = PasswordsDiffer | PasswordTooShort | Send(payload: Payload)

  function ErrorMessage(s: Submission): string {
    match s
    case PasswordsDiffer => "Passwords do not match"
    case PasswordTooShort => "Password must be at least 6 characters"
    case Send(_) => ""
  }

  function HandleSubmit(f: Form): (r: Submission)
    ensures r.PasswordsDiffer? <==> f.password != f.confirmPassword
    ensures r.PasswordTooShort? <==> f.password == f.confirmPassword && |f.password| < MinPasswordLength
    ensures r.Send? ==>
      && |f.password| >= MinPasswordLength
      && r.payload.phone == Normalize(f.phone)
      && r.payload == Payload(f.name, f.email, r.payload.phone, f.password, f.role, f.address)
  {
    if f.password != f.confirmPassword then PasswordsDiffer
    else if |f.password| < 6 then PasswordTooShort
    else Send(Payload(f.name, f.email, Normalize(f.phone), f.password, f.role, f.address))
  }

  /** The body the server receives: every field present. */
  function AsRegistration(p: Payload): Registration {
    Registration(Some(p.name), Some(p.email), Some(p.phone), Some(p.password), Some(p.role), p.address)
  }

  /** What the form sends passes the server's password rule and, on success,
      is stored with the very phone number it sent (rewriting twice changes
      nothing). A form left on its default role registers a `user`. */
  lemma FormAgreesWithServer(f: Form, users: seq<User>, id: nat, hash: string -> string)
    requires HandleSubmit(f).Send?
    ensures |AsRegistration(HandleSubmit(f).payload).password.value| >= MinPasswordLength
    ensures var r := Register(users, AsRegistration(HandleSubmit(f).payload), id, hash);
      r.Registered? ==> r.user.phone == HandleSubmit(f).payload.phone
    ensures f.role == BlankForm.role ==> ParseRole(AsRegistration(HandleSubmit(f).payload).role) == Some(UserRole)
  {
    NormalizeIdempotent(f.phone);
  }
}

=== FILE: search.dfy ===
/** The medicine availability search: match medicines, keep eligible offers,
    join each with its medicine and pharmacy, optionally keep those within a
    radius, sort, group by medicine and paginate the groups. Distances come in
    as a function from pharmacy identity to meters from the query point; the
    clock is a parameter. */
module Search {
  import opened Wrappers
  import opened Text
  import opened Seqs
  import Sorting
  import opened Hours
  import opened Medicines
  import opened Pharmacies
  import opened Inventory
  import opened Store
  import opened Grouping

  const DefaultRadius: nat := 20000
  const DefaultPage: int := 1
  const DefaultLimit: int := 20

  /** The query string of a search. Text parameters that are absent or empty
      are "", the others are None when absent; prices, page and limit are the
      integers the request strings parse to. */
  datatype SearchQuery = SearchQuery(
    search: string,
    latitude: string,
    longitude: string,
    radius: Option<nat>,
    category: string,
    therapeuticClass: string,
    requiresPrescription: Option<string>,
    minPrice: Option<int>,
    maxPrice: Option<int>,
    page: Option<int>,
    limit: Option<int>)

  function PageOf(q: SearchQuery): int { q.page.GetOr(DefaultPage) }

  function LimitOf(q: SearchQuery): int { q.limit.GetOr(DefaultLimit) }

  /** The radius of a geo search, which happens only when both coordinates are given. */
  function GeoRadius(q: SearchQuery): (r: Option<nat>)
    ensures r.Some? <==> q.latitude != "" && q.longitude != ""
    ensures r.Some? && q.radius.None? ==> r.value == DefaultRadius
  {
    if q.latitude != "" && q.longitude != "" then Some(q.radius.GetOr(DefaultRadius)) else None
  }

  // ---------------------------------------------------------------------------
  // Stage 1: medicines

  /** The text clause: name, generic name or brand contains the term ignoring
      case, or one of the active ingredients does. */
  predicate TextMatches(m: Medicine, term: string) {
    || ContainsIgnoreCase(m.name, term)
    || ContainsIgnoreCase(m.genericName, term)
    || ContainsIgnoreCase(m.brand, term)
    || exists k :: 0 <= k < |m.activeIngredients| && ContainsIgnoreCase(m.activeIngredients[k], term)
  }

  /** The text clause and, when given, the exact category, therapeutic class
      and prescription filters (the last one compares with `value == "true"`). */
  predicate MedicineMatches(m: Medicine, q: SearchQuery) {
    && TextMatches(m, q.search)
    && (q.category == "" || CategoryName(m.category) == q.category)
    && (q.therapeuticClass == "" || TherapeuticClassName(m.therapeuticClass) == q.therapeuticClass)
    && (q.requiresPrescription.None? || m.requiresPrescription == (q.requiresPrescription.value == "true"))
  }

  function MatchMedicines(ms: seq<Medicine>, q: SearchQuery): (r: seq<Medicine>)
    ensures forall m :: m in r <==> m in ms && MedicineMatches(m, q)
  {
    Filter(ms, m => MedicineMatches(m, q))
  }

  function IdsOf(ms: seq<Medicine>): (ids: seq<nat>)
    ensures forall id :: id in ids <==> exists k :: 0 <= k < |ms| && ms[k].id == id
  {
    if ms == [] then [] else [ms[0].id] + IdsOf(ms[1..])
  }

  // ---------------------------------------------------------------------------
  // Stages 2-4: offers, joins, radius

  /** Each price bound applies only when given, and both are inclusive. */
  predicate InPriceRange(price: nat, q: SearchQuery) {
    (q.minPrice.None? || q.minPrice.value <= price) && (q.maxPrice.None? || price <= q.maxPrice.value)
  }

  /** The first match stage: an offer of a matched medicine, not out of stock, in the price range. */
  predicate OfferSelected(o: Offer, ids: seq<nat>, q: SearchQuery) {
    o.medicine in ids && o.status != OutOfStock && InPriceRange(o.price, q)
  }

  /** The lookups and unwinds: an offer whose medicine or pharmacy is missing
      yields no row, as does a pharmacy that is not active and verified, or one
      farther than the radius in a geo search. */
  function JoinOffer(db: Db, o: Offer, geo: Option<nat>, distance: nat -> nat): Option<Row> {
    match (FindMedicine(db.medicines, o.medicine), FindPharmacy(db.pharmacies, o.pharmacy))
    case (Some(m), Some(p)) =>
      if !Eligible(p) then None
      else if geo.Some? && distance(p.id) > geo.value then None
      else Some(Row(o, m, p, if geo.Some? then Some(distance(p.id)) else None))
    case _ => None
  }

  /** Everything a surviving row satisfies. */
  predicate RowSound(r: Row, db: Db, ids: seq<nat>, q: SearchQuery, distance: nat -> nat) {
    && OfferSelected(r.offer, ids, q)
    && r.medicine in db.medicines && r.medicine.id == r.offer.medicine
    && r.pharmacy in db.pharmacies && r.pharmacy.id == r.offer.pharmacy
    && Eligible(r.pharmacy)
    && match GeoRadius(q)
       case None => r.distance.None?
       case Some(radius) => r.distance == Some(distance(r.pharmacy.id)) && distance(r.pharmacy.id) <= radius
  }

  /** An offer that yields a row: the first stage keeps it and it survives the joins. */
  predicate Yields(db: Db, o: Offer, ids: seq<nat>, q: SearchQuery, distance: nat -> nat) {
    OfferSelected(o, ids, q) && JoinOffer(db, o, GeoRadius(q), distance).Some?
  }

  /** The offers that yield a row, in offer order. */
  function YieldingOffers(db: Db, offers: seq<Offer>, ids: seq<nat>, q: SearchQuery, distance: nat -> nat): seq<Offer> {
    Filter(offers, o => Yields(db, o, ids, q, distance))
  }

  /** The rows before sorting: one per offer that yields one, in offer order,
      each the join of its offer. */
  function CandidateRows(db: Db, offers: seq<Offer>, ids: seq<nat>, q: SearchQuery, distance: nat -> nat): (rows: seq<Row>)
    ensures |rows| == |YieldingOffers(db, offers, ids, q, distance)|
    ensures forall k :: 0 <= k < |rows| ==>
      Some(rows[k]) == JoinOffer(db, YieldingOffers(db, offers, ids, q, distance)[k], GeoRadius(q), distance)
      && rows[k].offer == YieldingOffers(db, offers, ids, q, distance)[k]
    ensures forall k :: 0 <= k < |rows| ==> RowSound(rows[k], db, ids, q, distance) && rows[k].offer in offers
    ensures forall k ::
      (0 <= k < |offers| && OfferSelected(offers[k], ids, q) && JoinOffer(db, offers[k], GeoRadius(q), distance).Some?)
      ==> JoinOffer(db, offers[k], GeoRadius(q), distance).value in rows
  {
    var rows := JoinAll(db, YieldingOffers(db, offers, ids, q, distance), GeoRadius(q), distance);
    JoinedRowsSound(db, offers, ids, q, distance, rows);
    JoinedRowsComplete(db, offers, ids, q, distance, rows);
    rows
  }

  lemma JoinedRowsSound(db: Db, offers: seq<Offer>, ids: seq<nat>, q: SearchQuery, distance: nat -> nat, rows: seq<Row>)
    requires rows == JoinAll(db, YieldingOffers(db, offers, ids, q, distance), GeoRadius(q), distance)
    ensures forall k :: 0 <= k < |rows| ==> RowSound(rows[k], db, ids, q, distance) && rows[k].offer in offers
  {
    var yielding := YieldingOffers(db, offers, ids, q, distance);
    forall k | 0 <= k < |rows|
      ensures RowSound(rows[k], db, ids, q, distance) && rows[k].offer in offers
    {
      assert yielding[k] in yielding;
      JoinOfferSound(db, yielding[k], ids, q, distance);
    }
  }

  lemma JoinedRowsComplete(db: Db, offers: seq<Offer>, ids: seq<nat>, q: SearchQuery, distance: nat -> nat, rows: seq<Row>)
    requires rows == JoinAll(db, YieldingOffers(db, offers, ids, q, distance), GeoRadius(q), distance)
    ensures forall k :: 0 <= k < |offers| && Yields(db, offers[k], ids, q, distance) ==>
      JoinOffer(db, offers[k], GeoRadius(q), distance).value in rows
  {
    var yielding := YieldingOffers(db, offers, ids, q, distance);
    forall k | 0 <= k < |offers| && Yields(db, offers[k], ids, q, distance)
      ensures JoinOffer(db, offers[k], GeoRadius(q), distance).value in rows
    {
      assert offers[k] in yielding;
      var j :| 0 <= j < |yielding| && yielding[j] == offers[k];
      assert rows[j] == JoinOffer(db, offers[k], GeoRadius(q), distance).value;
    }
  }

  /** Each offer joined. */
  function JoinAll(db: Db, os: seq<Offer>, geo: Option<nat>, distance: nat -> nat): (rows: seq<Row>)
    requires forall k :: 0 <= k < |os| ==> JoinOffer(db, os[k], geo, distance).Some?
    ensures |rows| == |os|
    ensures forall k :: 0 <= k < |os| ==> Some(rows[k]) == JoinOffer(db, os[k], geo, distance)
  {
    seq(|os|, k requires 0 <= k < |os| => JoinOffer(db, os[k], geo, distance).value)
  }

  /** The join of an offer that yields a row satisfies everything a row does. */
  lemma JoinOfferSound(db: Db, o: Offer, ids: seq<nat>, q: SearchQuery, distance: nat -> nat)
    requires Yields(db, o, ids, q, distance)
    ensures RowSound(JoinOffer(db, o, GeoRadius(q), distance).value, db, ids, q, distance)
    ensures JoinOffer(db, o, GeoRadius(q), distance).value.offer == o
  {
  }

  // ---------------------------------------------------------------------------
  // Stage 5: order

  function Dist(r: Row): nat { r.distance.GetOr(0) }

  /** `{distance: 1, price: 1}` in a geo search, `{price: 1}` otherwise. */
  predicate RowLe(a: Row, b: Row, geo: bool) {
    if geo then Dist(a) < Dist(b) || (Dist(a) == Dist(b) && a.offer.price <= b.offer.price)
    else a.offer.price <= b.offer.price
  }

  function RowOrder(geo: bool): (Row, Row) -> bool {
    (a: Row, b: Row) => RowLe(a, b, geo)
  }

  lemma RowOrderIsPreorder(geo: bool)
    ensures Sorting.TotalPreorder(RowOrder(geo))
  {
  }

  function SortedRows(db: Db, q: SearchQuery, distance: nat -> nat): (r: seq<Row>)
    ensures Sorting.SortedBy(r, RowOrder(GeoRadius(q).Some?))
  {
    var ids := IdsOf(MatchMedicines(db.medicines, q));
    var rows := CandidateRows(db, db.offers, ids, q, distance);
    RowOrderIsPreorder(GeoRadius(q).Some?);
    Sorting.Sort(rows, RowOrder(GeoRadius(q).Some?))
  }

  /** The sorted rows are exactly the candidate rows, rearranged. */
  lemma SortedRowsArePermutation(db: Db, q: SearchQuery, distance: nat -> nat)
    ensures multiset(SortedRows(db, q, distance)) ==
      multiset(CandidateRows(db, db.offers, IdsOf(MatchMedicines(db.medicines, q)), q, distance))
  {
  }

  // ---------------------------------------------------------------------------
  // Stages 6-7: group and paginate

  function SearchGroups(db: Db, q: SearchQuery, distance: nat -> nat, now: Clock): seq<Group>
    requires now.Valid()
  {
    GroupRows(SortedRows(db, q, distance), now)
  }

  datatype SearchResponse =
    | MissingTerm                     // 400 "Please provide a search term"
    | NoMedicines                     // 200 with results [] and total 0
    | Results(page: PageResult<Group>)
    | ServerError                     // 500 with the thrown error's message

  /** The whole search: a missing term is refused before any lookup, no
      matching medicine gives the empty answer, otherwise one page of the
      groups. */
  function SearchMedicines(db: Db, q: SearchQuery, distance: nat -> nat, now: Clock): (r: SearchResponse)
    requires now.Valid()
    requires IsLiteralPattern(q.search)
    ensures r.MissingTerm? <==> q.search == ""
    ensures r.NoMedicines? <==> q.search != "" && forall m :: m in db.medicines ==> !MedicineMatches(m, q)
    ensures r.Results? <==> q.search != "" && exists m :: m in db.medicines && MedicineMatches(m, q)
    ensures r.Results? ==> r.page == Paginate(SearchGroups(db, q, distance, now), PageOf(q), LimitOf(q))
  {
    if q.search == "" then MissingTerm
    else
      var matched := MatchMedicines(db.medicines, q);
      if matched == [] then
        assert forall m :: m in db.medicines ==> !MedicineMatches(m, q);
        NoMedicines
      else
        assert matched[0] in db.medicines;
        Results(Paginate(SearchGroups(db, q, distance, now), PageOf(q), LimitOf(q)))
  }

  // ---------------------------------------------------------------------------
  // The geo search as written

  /** The search as written. The geo branch puts in front a `$lookup` whose
      inner pipeline runs a `$match` and then `$geoNear`; the store accepts
      `$geoNear` only as the first stage of a pipeline, so whenever the
      aggregate runs with both coordinates given it throws, and the handler
      answers 500. The term check and the medicine lookup come first. */
  function SearchMedicinesAsWritten(db: Db, q: SearchQuery, distance: nat -> nat, now: Clock): SearchResponse
    requires now.Valid()
    requires IsLiteralPattern(q.search)
  {
    if q.search == "" then MissingTerm
    else if MatchMedicines(db.medicines, q) == [] then NoMedicines
    else if GeoRadius(q).Some? then ServerError
    else Results(Paginate(SearchGroups(db, q, distance, now), PageOf(q), LimitOf(q)))
  }

  /** The discrepancy: a geo search with a matching medicine fails as written,
      where the intended search answers with a page of groups; without
      coordinates the two agree. */
  lemma GeoSearchFailsAsWritten(db: Db, q: SearchQuery, distance: nat -> nat, now: Clock, m: Medicine)
    requires now.Valid()
    requires IsLiteralPattern(q.search)
    requires q.search != "" && m in db.medicines && MedicineMatches(m, q)
    ensures q.latitude != "" && q.longitude != "" ==>
      SearchMedicinesAsWritten(db, q, distance, now) == ServerError
      && SearchMedicines(db, q, distance, now).Results?
    ensures q.latitude == "" || q.longitude == "" ==>
      SearchMedicinesAsWritten(db, q, distance, now) == SearchMedicines(db, q, distance, now)
  {
    assert m in MatchMedicines(db.medicines, q);
  }

  // ---------------------------------------------------------------------------
  // Properties of the grouped results

  /** The order of listed offers: `(distance, price)` in a geo search, `price` otherwise. */
  predicate AvailabilityLe(a: Availability, b: Availability, geo: bool) {
    if geo then
      a.distance.GetOr(0) < b.distance.GetOr(0)
      || (a.distance.GetOr(0) == b.distance.GetOr(0) && a.price <= b.price)
    else a.price <= b.price
  }

  /** Unfolds the grouped results to the reference description over the sorted rows. */
  lemma GroupsAreReference(db: Db, q: SearchQuery, distance: nat -> nat, now: Clock)
    requires now.Valid()
    ensures var sorted := SortedRows(db, q, distance);
      && SearchGroups(db, q, distance, now) == ReferenceGroups(sorted, now)
      && |SearchGroups(db, q, distance, now)| == |Ids(sorted)|
      && forall k :: 0 <= k < |Ids(sorted)| ==>
           |RowsFor(sorted, Ids(sorted)[k])| > 0 &&
           SearchGroups(db, q, distance, now)[k] == GroupFor(sorted, Ids(sorted)[k], now)
  {
    var sorted := SortedRows(db, q, distance);
    GroupRowsIsReference(sorted, now);
    forall k | 0 <= k < |Ids(sorted)|
      ensures |RowsFor(sorted, Ids(sorted)[k])| > 0
    {
      RowsForNonEmpty(sorted, Ids(sorted)[k]);
    }
  }

  /** A sorted row is one of the candidate rows, so it satisfies everything they do. */
  lemma SortedRowSound(db: Db, q: SearchQuery, distance: nat -> nat, r: Row)
    requires r in SortedRows(db, q, distance)
    ensures RowSound(r, db, IdsOf(MatchMedicines(db.medicines, q)), q, distance)
    ensures r.offer in db.offers
  {
    var rows := CandidateRows(db, db.offers, IdsOf(MatchMedicines(db.medicines, q)), q, distance);
    SortedRowsArePermutation(db, q, distance);
    var k := Sorting.MemberOfPermutation(SortedRows(db, q, distance), rows, r);
  }

  /** A listed offer is the annotation of a sorted row, and its group's medicine
      is that of a sorted row of the same medicine. */
  lemma GroupEntryRow(db: Db, q: SearchQuery, distance: nat -> nat, now: Clock, k: nat, j: nat)
    returns (head: Row, row: Row)
    requires now.Valid()
    requires k < |SearchGroups(db, q, distance, now)|
    requires j < |SearchGroups(db, q, distance, now)[k].availability|
    ensures head in SortedRows(db, q, distance) && row in SortedRows(db, q, distance)
    ensures SearchGroups(db, q, distance, now)[k].medicine == head.medicine
    ensures head.medicine.id == row.medicine.id
    ensures SearchGroups(db, q, distance, now)[k].availability[j] == Annotate(row, now)
  {
    var sorted := SortedRows(db, q, distance);
    GroupsAreReference(db, q, distance, now);
    var mine := RowsFor(sorted, Ids(sorted)[k]);
    head := mine[0];
    row := mine[j];
  }

  /** Two catalog entries with one identity are the same entry. */
  lemma SameIdSameMedicine(ms: seq<Medicine>, a: Medicine, b: Medicine)
    requires UniqueMedicineIds(ms)
    requires a in ms && b in ms && a.id == b.id
    ensures a == b
  {
    var i :| 0 <= i < |ms| && ms[i] == a;
    var j :| 0 <= j < |ms| && ms[j] == b;
  }

  /** Every listed offer is for a matching medicine of the catalog, comes from
      an offer of that medicine at that pharmacy with the listed stock and
      price, is not out of stock, lies in the price range, is at an active and
      verified pharmacy and, in a geo search, carries its distance, which is
      within the radius. */
  lemma SearchResultsSound(db: Db, q: SearchQuery, distance: nat -> nat, now: Clock, k: nat, j: nat)
    requires now.Valid()
    requires UniqueMedicineIds(db.medicines)
    requires k < |SearchGroups(db, q, distance, now)|
    requires j < |SearchGroups(db, q, distance, now)[k].availability|
    ensures var g := SearchGroups(db, q, distance, now)[k];
      var a := g.availability[j];
      && g.medicine in db.medicines && MedicineMatches(g.medicine, q)
      && (exists o :: o in db.offers && o.medicine == g.medicine.id && o.pharmacy == a.pharmacy.id
            && o.price == a.price && o.quantity == a.quantity && o.status == a.status)
      && a.status != OutOfStock
      && InPriceRange(a.price, q)
      && a.pharmacy in db.pharmacies && Eligible(a.pharmacy)
      && a.isCurrentlyOpen == IsOpen(a.pharmacy.hours, a.pharmacy.is24Hours, now)
      && match GeoRadius(q)
         case None => a.distance.None?
         case Some(radius) => a.distance == Some(distance(a.pharmacy.id)) && distance(a.pharmacy.id) <= radius
  {
    var head, row := GroupEntryRow(db, q, distance, now, k, j);
    SortedRowSound(db, q, distance, head);
    SortedRowSound(db, q, distance, row);
    var matched := MatchMedicines(db.medicines, q);
    var i :| 0 <= i < |matched| && matched[i].id == head.offer.medicine;
    assert matched[i] in db.medicines && MedicineMatches(matched[i], q);
    SameIdSameMedicine(db.medicines, matched[i], head.medicine);
  }

  /** Every offer that passes the filters and joins shows up, under its
      medicine's group. */
  lemma SearchResultsComplete(db: Db, q: SearchQuery, distance: nat -> nat, now: Clock, o: Offer)
    requires now.Valid()
    requires o in db.offers
    requires OfferSelected(o, IdsOf(MatchMedicines(db.medicines, q)), q)
    requires JoinOffer(db, o, GeoRadius(q), distance).Some?
    ensures exists k :: (0 <= k < |SearchGroups(db, q, distance, now)|
                         && SearchGroups(db, q, distance, now)[k].medicine.id == o.medicine
                         && Annotate(JoinOffer(db, o, GeoRadius(q), distance).value, now)
                              in SearchGroups(db, q, distance, now)[k].availability)
  {
    var sorted := SortedRows(db, q, distance);
    var groups := GroupRows(sorted, now);
    assert groups == SearchGroups(db, q, distance, now);
    var i := SelectedOfferIsSorted(db, q, distance, o);
    var k := RowInItsGroup(sorted, now, i);
    assert groups[k].medicine.id == o.medicine;
  }

  /** A selected offer that joins is among the sorted rows, under its medicine. */
  lemma SelectedOfferIsSorted(db: Db, q: SearchQuery, distance: nat -> nat, o: Offer) returns (i: nat)
    requires o in db.offers
    requires OfferSelected(o, IdsOf(MatchMedicines(db.medicines, q)), q)
    requires JoinOffer(db, o, GeoRadius(q), distance).Some?
    ensures i < |SortedRows(db, q, distance)|
    ensures SortedRows(db, q, distance)[i] == JoinOffer(db, o, GeoRadius(q), distance).value
    ensures SortedRows(db, q, distance)[i].medicine.id == o.medicine
  {
    var ids := IdsOf(MatchMedicines(db.medicines, q));
    var rows := CandidateRows(db, db.offers, ids, q, distance);
    var row := JoinOffer(db, o, GeoRadius(q), distance).value;
    var n :| 0 <= n < |db.offers| && db.offers[n] == o;
    assert row in rows;
    SortedRowsArePermutation(db, q, distance);
    i := Sorting.MemberOfPermutation(rows, SortedRows(db, q, distance), row);
  }

  /** No medicine appears in two groups. */
  lemma SearchGroupsDistinct(db: Db, q: SearchQuery, distance: nat -> nat, now: Clock)
    requires now.Valid()
    ensures forall a, b :: 0 <= a < b < |SearchGroups(db, q, distance, now)| ==>
      SearchGroups(db, q, distance, now)[a].medicine.id != SearchGroups(db, q, distance, now)[b].medicine.id
  {
    var sorted := SortedRows(db, q, distance);
    GroupRowsIsReference(sorted, now);
    ReferenceIds(sorted, now);
  }

  /** Within a group, offers keep the sort order: `(distance, price)` in a geo
      search and plain price order (non-decreasing) otherwise. */
  lemma SearchGroupSorted(db: Db, q: SearchQuery, distance: nat -> nat, now: Clock, k: nat, a: nat, b: nat)
    requires now.Valid()
    requires k < |SearchGroups(db, q, distance, now)|
    requires a < b < |SearchGroups(db, q, distance, now)[k].availability|
    ensures AvailabilityLe(SearchGroups(db, q, distance, now)[k].availability[a],
                           SearchGroups(db, q, distance, now)[k].availability[b], GeoRadius(q).Some?)
  {
    var sorted := SortedRows(db, q, distance);
    GroupsAreReference(db, q, distance, now);
    var id := Ids(sorted)[k];
    RowsForSorted(sorted, id, RowOrder(GeoRadius(q).Some?));
    var mine := RowsFor(sorted, id);
    assert RowLe(mine[a], mine[b], GeoRadius(q).Some?);
  }

  /** Groups come in the order of their first offers; in a geo search the
      first offer is the nearest, so groups are ordered by nearest distance. */
  lemma SearchGroupsOrdered(db: Db, q: SearchQuery, distance: nat -> nat, now: Clock, i: nat, j: nat)
    requires now.Valid()
    requires i < j < |SearchGroups(db, q, distance, now)|
    ensures |SearchGroups(db, q, distance, now)[i].availability| > 0
    ensures |SearchGroups(db, q, distance, now)[j].availability| > 0
    ensures AvailabilityLe(SearchGroups(db, q, distance, now)[i].availability[0],
                           SearchGroups(db, q, distance, now)[j].availability[0], GeoRadius(q).Some?)
  {
    var sorted := SortedRows(db, q, distance);
    GroupsAreReference(db, q, distance, now);
    GroupHeadsSorted(sorted, RowOrder(GeoRadius(q).Some?), i, j);
  }
}

=== FILE: seqs.dfy ===
/** Sequence stages that several queries share: filtering, JavaScript's
    `Array.prototype.slice`, the document store's `$skip`/`$limit`, and the
    `Math.ceil(total / limit)` page count. */
module Seqs {
  import opened Wrappers

  /** `s.filter(p)`: the elements of `s` satisfying `p`, in their original order. */
  function Filter<T(!new)>(s: seq<T>, p: T -> bool): (r: seq<T>)
    ensures |r| <= |s|
    ensures forall i :: 0 <= i < |r| ==> p(r[i])
    ensures forall x :: x in r <==> x in s && p(x)
  {
    if s == [] then []
    else if p(s[0]) then [s[0]] + Filter(s[1..], p)
    else Filter(s[1..], p)
  }

  /** Filtering distributes over concatenation, so it keeps relative order. */
  lemma {:induction false} FilterAppend<T(!new)>(a: seq<T>, b: seq<T>, p: T -> bool)
    ensures Filter(a + b, p) == Filter(a, p) + Filter(b, p)
  {
    if a == [] {
      assert a + b == b;
    } else {
      assert (a + b)[0] == a[0];
      assert (a + b)[1..] == a[1..] + b;
      FilterAppend(a[1..], b, p);
    }
  }

  /** A filter that every element passes is the identity. */
  lemma {:induction false} FilterAll<T(!new)>(s: seq<T>, p: T -> bool)
    requires forall x :: x in s ==> p(x)
    ensures Filter(s, p) == s
  {
    if s != [] {
      FilterAll(s[1..], p);
    }
  }

  /** `findIndex`, with `|s|` in place of -1: the position of the first
      element satisfying `p`, or `|s|` when none does. */
  function FirstIndex<T>(s: seq<T>, p: T -> bool): (k: nat)
    ensures k <= |s|
    ensures k < |s| ==> p(s[k])
    ensures forall j :: 0 <= j < k ==> !p(s[j])
  {
    if s == [] then 0
    else if p(s[0]) then 0
    else 1 + FirstIndex(s[1..], p)
  }

  /** `find`: the first element satisfying `p`, if any. */
  function FindFirst<T>(s: seq<T>, p: T -> bool): (r: Option<T>)
    ensures r.Some? ==> r.value in s && p(r.value)
    ensures r.None? <==> forall k :: 0 <= k < |s| ==> !p(s[k])
  {
    var k := FirstIndex(s, p);
    if k < |s| then Some(s[k]) else None
  }

  /** How `Array.prototype.slice` resolves an index: negative counts from the end, then clamp. */
  function JsIndex(i: int, n: nat): (r: nat)
    ensures r <= n
    ensures 0 <= i <= n ==> r == i
    ensures i > n ==> r == n
    ensures i < 0 ==> r == if n + i < 0 then 0 else n + i
  {
    if i < 0 then (if n + i < 0 then 0 else n + i) else if i > n then n else i
  }

  /** `s.slice(start, end)`. */
  function JsSlice<T>(s: seq<T>, start: int, end: int): (r: seq<T>)
    ensures forall k :: 0 <= k < |r| ==> r[k] in s
  {
    var a := JsIndex(start, |s|);
    var b := JsIndex(end, |s|);
    if a < b then s[a..b] else []
  }

  /** For a non-negative start the slice is a window of at most `end - start`
      elements, element k being `s[start + k]`. */
  lemma JsSliceWindow<T>(s: seq<T>, start: int, end: int)
    ensures 0 <= start <= end ==>
      |JsSlice(s, start, end)| == if start >= |s| then 0 else (if end <= |s| then end - start else |s| - start)
    ensures 0 <= start <= end ==>
      forall k :: 0 <= k < |JsSlice(s, start, end)| ==> JsSlice(s, start, end)[k] == s[start + k]
  {
  }

  /** A zero start and a zero end select nothing, whatever the length. */
  lemma JsSliceZeroEnd<T>(s: seq<T>, start: int)
    requires start <= 0
    ensures JsSlice(s, start, 0) == []
  {
  }

  /** One page of a list as the search reports it. */
  datatype PageResult<T> = PageResult(count: nat, total: nat, pages: Option<int>, currentPage: int, results: seq<T>)

  /** `Math.ceil(n / d)` as a JSON answer carries it: `None` (null) for a
      zero divisor, where the quotient is infinite or not a number. */
  function JsCeilDiv(n: nat, d: int): (r: Option<int>)
    ensures r.None? <==> d == 0
    ensures d >= 1 ==> r == Some(CeilDiv(n, d))
    ensures d < 0 ==> r.Some? && r.value <= 0 && r.value * d <= n && (r.value - 1) * d > n
  {
    if d == 0 then None
    else if d > 0 then Some(CeilDiv(n, d))
    else
      NegativeCeil(n, -d);
      Some(-(n / -d))
  }

  /** For a negative divisor `-m` the ceiling of `n / -m` is `-(n / m)`: the
      largest multiple of `m` not above `n`, negated. */
  lemma NegativeCeil(n: nat, m: int)
    requires m >= 1
    ensures -(n / m) * -m <= n && (-(n / m) - 1) * -m > n
  {
    var q := n / m;
    assert n == q * m + n % m;
    assert -q * -m == q * m;
    assert (-q - 1) * -m == q * m + m;
  }

  /** Pagination over a whole list: the window `items.slice((page - 1) * limit,
      (page - 1) * limit + limit)`, its length, the list's length, the page
      count `Math.ceil(total / limit)` and the requested page. A zero limit
      gives an empty window and no page count; a negative one slices from
      the end, as `slice` does. */
  function Paginate<T>(items: seq<T>, page: int, limit: int): (r: PageResult<T>)
    ensures r.total == |items|
    ensures r.count == |r.results|
    ensures limit >= 1 ==> r.count <= limit
    ensures limit == 0 ==> r.results == []
    ensures r.pages == JsCeilDiv(|items|, limit)
    ensures limit >= 1 ==> r.pages.value * limit >= r.total && (r.pages.value > 0 ==> (r.pages.value - 1) * limit < r.total)
    ensures r.currentPage == page
    ensures forall k :: 0 <= k < |r.results| ==> r.results[k] in items
  {
    var start := (page - 1) * limit;
    var window := JsSlice(items, start, start + limit);
    assert limit >= 1 ==> |window| <= limit;
    PageResult(|window|, |items|, JsCeilDiv(|items|, limit), page, window)
  }

  /** Page `page >= 1` holds the items from `(page - 1) * limit` on, at most
      `limit` of them; page 0 is empty. */
  lemma PaginateWindow<T>(items: seq<T>, page: int, limit: int)
    requires limit >= 1
    ensures page >= 1 ==>
      var start := (page - 1) * limit;
      var r := Paginate(items, page, limit).results;
      && |r| == (if start >= |items| then 0 else if |items| - start < limit then |items| - start else limit)
      && forall k :: 0 <= k < |r| ==> r[k] == items[start + k]
    ensures page == 0 ==> Paginate(items, page, limit).results == []
  {
    var start := (page - 1) * limit;
    StartOfPage(page, limit);
    JsSliceWindow(items, start, start + limit);
  }

  lemma StartOfPage(page: int, limit: int)
    requires limit >= 1
    ensures page >= 1 ==> (page - 1) * limit >= 0
    ensures page == 0 ==> (page - 1) * limit + limit == 0
  {
    if page >= 1 {
      assert (page - 1) * limit >= 0 * limit;
    }
  }

  /** `$skip: n` followed by `$limit: l` on a stage's output, for n >= 0 and l >= 1. */
  function SkipLimit<T>(s: seq<T>, skip: nat, limit: nat): (r: seq<T>)
    ensures |r| <= limit
    ensures |r| == if skip >= |s| then 0 else (if |s| - skip < limit then |s| - skip else limit)
    ensures forall k :: 0 <= k < |r| ==> r[k] == s[skip + k]
  {
    if skip >= |s| then []
    else if |s| - skip < limit then s[skip..]
    else s[skip..skip + limit]
  }

  /** `$skip: (page - 1) * limit` then `$limit: limit` as the store runs them:
      a negative skip or a limit that is not positive makes the whole
      aggregation fail (`None`). */
  function MongoWindow<T>(s: seq<T>, page: int, limit: int): (r: Option<seq<T>>)
    ensures r.None? <==> (page - 1) * limit < 0 || limit <= 0
    ensures r.Some? ==> |r.value| <= limit
    ensures r.Some? ==> forall k :: 0 <= k < |r.value| ==>
      0 <= (page - 1) * limit + k < |s| && r.value[k] == s[(page - 1) * limit + k]
    ensures r.Some? && (page - 1) * limit + limit <= |s| ==> |r.value| == limit
    ensures r.Some? && (page - 1) * limit < |s| ==> |r.value| > 0
  {
    if (page - 1) * limit < 0 || limit <= 0 then None
    else Some(SkipLimit(s, (page - 1) * limit, limit))
  }

  /** The k-th entry of a window is the entry `k` places past the skipped ones. */
  lemma WindowIndex<T>(s: seq<T>, page: int, limit: int, w: seq<T>, k: nat)
    requires MongoWindow(s, page, limit) == Some(w) && k < |w|
    ensures 0 <= (page - 1) * limit + k < |s| && w[k] == s[(page - 1) * limit + k]
  {
  }

  /** A page of a listing whose `total` counts every match and `pages` is
      `Math.ceil(total / limit)`; `None` when the store rejects the window. */
  function MongoPage<T>(items: seq<T>, page: int, limit: int): (r: Option<PageResult<T>>)
    ensures r.None? <==> (page - 1) * limit < 0 || limit <= 0
    ensures r.Some? ==> && r.value.total == |items|
                        && r.value.count == |r.value.results| <= limit
                        && r.value.currentPage == page
                        && r.value.pages == Some(CeilDiv(|items|, limit))
                        && Some(r.value.results) == MongoWindow(items, page, limit)
  {
    match MongoWindow(items, page, limit)
    case None => None
    case Some(w) => Some(PageResult(|w|, |items|, Some(CeilDiv(|items|, limit)), page, w))
  }

  /** `$limit: n` alone (the first n elements, or all of them). */
  function Take<T>(s: seq<T>, n: nat): (r: seq<T>)
    ensures |r| == if |s| < n then |s| else n
    ensures r <= s
  {
    if |s| < n then s else s[..n]
  }

  /** A prefix holds no element more often than the whole. */
  lemma TakeSubMultiset<T>(s: seq<T>, n: nat)
    ensures multiset(Take(s, n)) <= multiset(s)
  {
    var t := Take(s, n);
    assert s == t + s[|t|..];
  }

  /** `Math.ceil(n / d)` for a positive divisor: the fewest pages of `d` that hold `n` items. */
  function CeilDiv(n: nat, d: nat): (r: nat)
    requires d >= 1
    ensures r * d >= n
    ensures r > 0 ==> (r - 1) * d < n
    ensures r == 0 <==> n == 0
  {
    (n + d - 1) / d
  }

  // ---------------------------------------------------------------------------
  // Repeated elements, counted through multisets

  lemma {:induction false} FilterSubMultiset<T(!new)>(s: seq<T>, p: T -> bool)
    ensures multiset(Filter(s, p)) <= multiset(s)
  {
    if s != [] {
      assert s == [s[0]] + s[1..];
      FilterSubMultiset(s[1..], p);
    }
  }

  /** Two positions holding `x` make it occur at least twice. */
  lemma RepeatCountsTwice<T>(s: seq<T>, i: nat, j: nat)
    requires i < j < |s| && s[i] == s[j]
    ensures multiset(s)[s[i]] >= 2
  {
    assert s == s[..j] + s[j..];
    assert s[i] in s[..j];
    assert s[j..][0] == s[j];
  }

  /** An element occurring twice sits at two positions. */
  lemma {:induction false} TwiceCountedRepeats<T>(s: seq<T>, x: T)
    requires multiset(s)[x] >= 2
    ensures exists i, j :: 0 <= i < j < |s| && s[i] == x && s[j] == x
  {
    assert s == [s[0]] + s[1..];
    if s[0] == x {
      assert x in multiset(s[1..]);
      var j :| 0 <= j < |s[1..]| && s[1..][j] == x;
      assert s[j + 1] == x;
    } else {
      TwiceCountedRepeats(s[1..], x);
      var i, j :| 0 <= i < j < |s[1..]| && s[1..][i] == x && s[1..][j] == x;
      assert s[i + 1] == x && s[j + 1] == x;
    }
  }
}

=== FILE: sorting.dfy ===
/** Ordering results by a comparison, as the document store's `$sort` and
    `.sort()` do. Ties are left in input order (a stable insertion sort); the
    store itself promises nothing about ties, so the contracts below claim
    only what any correct sort gives: a permutation in non-decreasing order. */
module Sorting {
  import opened Seqs

  /** `le` is a total preorder: every two values compare, and it chains. */
  ghost predicate TotalPreorder<T(!new)>(le: (T, T) -> bool) {
    && (forall a, b :: le(a, b) || le(b, a))
    && (forall a, b, c :: le(a, b) && le(b, c) ==> le(a, c))
  }

  /** Every element is `le` every later element. */
  ghost predicate SortedBy<T>(s: seq<T>, le: (T, T) -> bool) {
    forall i, j :: 0 <= i < j < |s| ==> le(s[i], s[j])
  }

  /** Inserts `x` before the first element it is `le`. */
  function Insert<T(!new)>(x: T, s: seq<T>, le: (T, T) -> bool): (r: seq<T>)
    requires TotalPreorder(le)
    requires SortedBy(s, le)
    ensures multiset(r) == multiset(s) + multiset{x}
    ensures forall e :: e in r ==> e == x || e in s
    ensures SortedBy(r, le)
  {
    if s == [] then [x]
    else if le(x, s[0]) then
      InsertFront(x, s, le);
      [x] + s
    else
      var rest := Insert(x, s[1..], le);
      assert s == [s[0]] + s[1..];
      InsertBehind(x, s, rest, le);
      [s[0]] + rest
  }

  lemma InsertFront<T(!new)>(x: T, s: seq<T>, le: (T, T) -> bool)
    requires TotalPreorder(le)
    requires SortedBy(s, le)
    requires s != [] && le(x, s[0])
    ensures SortedBy([x] + s, le)
  {
    var r := [x] + s;
    forall i, j | 0 <= i < j < |r|
      ensures le(r[i], r[j])
    {
      if i == 0 && j > 1 {
        assert le(s[0], s[j - 1]);
      }
    }
  }

  lemma InsertBehind<T(!new)>(x: T, s: seq<T>, rest: seq<T>, le: (T, T) -> bool)
    requires TotalPreorder(le)
    requires SortedBy(s, le)
    requires s != [] && !le(x, s[0])
    requires SortedBy(rest, le)
    requires forall e :: e in rest ==> e == x || e in s[1..]
    ensures SortedBy([s[0]] + rest, le)
  {
    var r := [s[0]] + rest;
    forall i, j | 0 <= i < j < |r|
      ensures le(r[i], r[j])
    {
      if i == 0 {
        var e := rest[j - 1];
        assert e in rest;
        if e != x {
          var k :| 0 <= k < |s[1..]| && s[1..][k] == e;
          assert le(s[0], s[k + 1]);
        }
      } else {
        assert r[i] == rest[i - 1] && r[j] == rest[j - 1];
      }
    }
  }

  /** The elements of `s` in non-decreasing `le` order. */
  function Sort<T(!new)>(s: seq<T>, le: (T, T) -> bool): (r: seq<T>)
    requires TotalPreorder(le)
    ensures multiset(r) == multiset(s)
    ensures |r| == |s|
    ensures SortedBy(r, le)
  {
    if s == [] then []
    else
      assert s == [s[0]] + s[1..];
      Insert(s[0], Sort(s[1..], le), le)
  }

  /** Dropping elements keeps a sorted sequence sorted. */
  lemma {:induction false} FilterKeepsOrder<T(!new)>(s: seq<T>, p: T -> bool, le: (T, T) -> bool)
    requires SortedBy(s, le)
    ensures SortedBy(Filter(s, p), le)
  {
    if s != [] {
      var tail := s[1..];
      assert SortedBy(tail, le) by {
        forall i, j | 0 <= i < j < |tail| ensures le(tail[i], tail[j]) {
          assert tail[i] == s[i + 1] && tail[j] == s[j + 1];
        }
      }
      FilterKeepsOrder(tail, p, le);
      var rest := Filter(tail, p);
      if p(s[0]) {
        assert Filter(s, p) == [s[0]] + rest;
        forall j | 0 <= j < |rest| ensures le(s[0], rest[j]) {
          assert rest[j] in tail;
          var m :| 0 <= m < |tail| && tail[m] == rest[j];
          assert s[m + 1] == rest[j];
        }
      } else {
        assert Filter(s, p) == rest;
      }
    }
  }

  /** A prefix of a sorted sequence is sorted. */
  lemma PrefixKeepsOrder<T>(s: seq<T>, n: nat, le: (T, T) -> bool)
    requires SortedBy(s, le)
    ensures SortedBy(Take(s, n), le)
  {
    var t := Take(s, n);
    forall i, j | 0 <= i < j < |t| ensures le(t[i], t[j]) {
      assert t[i] == s[i] && t[j] == s[j];
    }
  }

  /** A window of a sorted sequence is sorted. */
  lemma WindowKeepsOrder<T>(s: seq<T>, skip: nat, limit: nat, le: (T, T) -> bool)
    requires SortedBy(s, le)
    ensures SortedBy(SkipLimit(s, skip, limit), le)
  {
    var t := SkipLimit(s, skip, limit);
    forall i, j | 0 <= i < j < |t| ensures le(t[i], t[j]) {
      assert t[i] == s[skip + i] && t[j] == s[skip + j];
    }
  }

  /** A rearrangement has the same members, at some position. */
  lemma MemberOfPermutation<T>(a: seq<T>, b: seq<T>, x: T) returns (k: nat)
    requires multiset(a) == multiset(b) && x in a
    ensures k < |b| && b[k] == x
  {
    assert x in multiset(b);
    k :| 0 <= k < |b| && b[k] == x;
  }
}

=== FILE: store.dfy ===
/** The three collections the queries read, and lookups by identity. */
module Store {
  import opened Wrappers
  import opened Seqs
  import opened Medicines
  import opened Pharmacies
  import opened Inventory

  datatype Db = Db(medicines: seq<Medicine>, pharmacies: seq<Pharmacy>, offers: seq<Offer>)

  /** `findById` on the catalog: the entry with that identity, if any. */
  function FindMedicine(ms: seq<Medicine>, id: nat): (r: Option<Medicine>)
    ensures r.Some? ==> r.value in ms && r.value.id == id
    ensures r.None? <==> forall k :: 0 <= k < |ms| ==> ms[k].id != id
  {
    FindFirst(ms, (m: Medicine) => m.id == id)
  }

  /** `findById` on the pharmacies: the pharmacy with that identity, if any. */
  function FindPharmacy(ps: seq<Pharmacy>, id: nat): (r: Option<Pharmacy>)
    ensures r.Some? ==> r.value in ps && r.value.id == id
    ensures r.None? <==> forall k :: 0 <= k < |ps| ==> ps[k].id != id
  {
    FindFirst(ps, (p: Pharmacy) => p.id == id)
  }

  /** Document identities are unique within a collection. */
  predicate UniqueMedicineIds(ms: seq<Medicine>) {
    forall i, j :: 0 <= i < j < |ms| ==> ms[i].id != ms[j].id
  }
}

=== FILE: subscription_page.dfy ===
/** The subscription page. It shows the user's active subscription (as the
    server reports it) and disables the button of the plan it is on; paying
    asks for a phone number, rewrites it by the shared rule and sends it with
    the chosen plan; closing the payment dialog clears what was typed. */
module SubscriptionPage {
  import opened Wrappers
  import opened Phone
  import opened Subscriptions

  datatype PageState = PageState(
    dialogOpen: bool,
    selectedPlan: string,
    phoneNumber: string,
    loading: bool,
    paymentStatus: string)

  /** The body of the subscribe request. */
  datatype SubscribeRequest = SubscribeRequest(plan: string, phoneNumber: string)

  /** Choosing a plan opens the dialog for it with a cleared status. */
  function HandleSubscribe(st: PageState, planType: string): (r: PageState)
    ensures r.dialogOpen && r.selectedPlan == planType && r.paymentStatus == ""
    ensures r.phoneNumber == st.phoneNumber && r.loading == st.loading
  {
    st.(dialogOpen := true, selectedPlan := planType, paymentStatus := "")
  }

  /** The request `initiatePayment` sends: none for an empty phone. */
  function InitiatePayment(st: PageState): (r: Option<SubscribeRequest>)
    ensures r.None? <==> st.phoneNumber == ""
    ensures r.Some? ==> r.value.plan == st.selectedPlan && r.value.phoneNumber == Normalize(st.phoneNumber)
  {
    if st.phoneNumber == "" then None
    else Some(SubscribeRequest(st.selectedPlan, Normalize(st.phoneNumber)))
  }

  /** The status the page shows once the server has answered: `initiated`
      when it accepted, `failed` when the request failed, unchanged otherwise. */
  function AfterReply(st: PageState, accepted: Option<bool>): (r: PageState)
    ensures !r.loading && r.dialogOpen == st.dialogOpen && r.phoneNumber == st.phoneNumber
    ensures r.paymentStatus == (match accepted case None => "failed"
                                               case Some(ok) => if ok then "initiated" else st.paymentStatus)
  {
    match accepted
    case None => st.(loading := false, paymentStatus := "failed")
    case Some(ok) => st.(loading := false, paymentStatus := if ok then "initiated" else st.paymentStatus)
  }

  /** Closing the dialog clears phone, progress and status but remembers the plan. */
  function HandleCloseDialog(st: PageState): (r: PageState)
    ensures !r.dialogOpen && r.phoneNumber == "" && !r.loading && r.paymentStatus == ""
    ensures r.selectedPlan == st.selectedPlan
  {
    PageState(false, st.selectedPlan, "", false, "")
  }

  /** A plan's button is disabled when the reported active subscription is on it. */
  predicate IsCurrentlySubscribed(active: Option<Subscription>, planType: string) {
    active.Some? && PlanName(active.value.plan) == planType
  }

  /** With the server's report, a plan's button is disabled exactly when the
      user's newest current subscription is on that plan; at most one button
      is, and none when the user has no current subscription. */
  lemma DisabledPlanIsCurrent(subs: seq<Subscription>, user: nat, now: int, planType: string)
    ensures var active := ActiveSubscription(subs, user, now);
      IsCurrentlySubscribed(active, planType) ==>
        exists k :: 0 <= k < |subs| && subs[k].user == user && CurrentlyActive(subs[k], now)
                    && PlanName(subs[k].plan) == planType
    ensures !(IsCurrentlySubscribed(ActiveSubscription(subs, user, now), "basic")
              && IsCurrentlySubscribed(ActiveSubscription(subs, user, now), "premium"))
    ensures (forall k :: 0 <= k < |subs| ==> !(subs[k].user == user && CurrentlyActive(subs[k], now))) ==>
      !IsCurrentlySubscribed(ActiveSubscription(subs, user, now), planType)
  {
  }

  /** The page's request, accepted by the server, stores the number the page
      sent: the server's own rewriting leaves it as it is. */
  lemma PageRequestStoresItsPhone(ledger: seq<Subscription>, user: nat, id: nat, st: PageState,
                                  now: int, reply: GatewayReply)
    requires InitiatePayment(st).Some?
    ensures var req := InitiatePayment(st).value;
      var r := InitiateSubscription(ledger, user, id, req.plan, Some(req.phoneNumber), now, reply);
      r.Requested? ==> r.ledger[|ledger|].phoneNumber == req.phoneNumber
  {
    NormalizeIdempotent(st.phoneNumber);
  }
}

=== FILE: subscriptions.dfy ===
/** Paid subscriptions and their M-Pesa payment. A subscription is created
    `pending` when a payment is requested; the gateway's immediate reply either
    records the checkout request or marks it `failed`; the gateway's later
    callback makes it `active` (and upgrades the user) or `failed`; the user
    can cancel an active one. The ledger is the sequence of subscription
    records in creation order; the clock is a millisecond count passed in,
    and the gateway's replies are inputs. */
module Subscriptions {
  import opened Wrappers
  import opened Text
  import opened Phone
  import opened Users

  // ---------------------------------------------------------------------------
  // Plans

  datatype Plan = Basic | Premium

  function PlanName(p: Plan): string {
    match p
    case Basic => "basic"
    case Premium => "premium"
  }

  /** Monthly price in shillings. */
  function PlanPrice(p: Plan): nat {
    match p
    case Basic => 500
    case Premium => 1000
  }

  const PlanDurationDays: nat := 30
  const DayMs: nat := 24 * 60 * 60 * 1000

  /** The end of a period bought at `now`. */
  function PeriodEnd(now: int): int {
    now + PlanDurationDays * DayMs
  }

  function TierOf(p: Plan): Tier {
    match p
    case Basic => BasicTier
    case Premium => PremiumTier
  }

  datatype SubStatus = Pending | Active | Expired | Cancelled | Failed

  datatype Features = Features(
    maxSearchesPerDay: nat,
    canViewPrices: bool,
    canGetAlerts: bool,
    canAccessTelemedicine: bool,
    prioritySupport: bool)

  /** The schema's feature defaults, each computed from the plan's name. */
  function DefaultFeatures(p: Plan): (f: Features)
    ensures f.maxSearchesPerDay == if p == Basic then 50 else 1000
    ensures f.canViewPrices
    ensures f.canAccessTelemedicine <==> p == Premium
    ensures f.prioritySupport <==> p == Premium
  {
    Features(
      if PlanName(p) == "basic" then 50 else 1000,
      true,
      PlanName(p) != "free",
      PlanName(p) == "premium",
      PlanName(p) == "premium")
  }

  /** Alerts default to "plan is not free", which no plan is: always on. */
  lemma AlertsAlwaysOn(p: Plan)
    ensures DefaultFeatures(p).canGetAlerts
  {
  }

  datatype Subscription = Subscription(
    id: nat,
    user: nat,
    plan: Plan,
    amount: nat,
    currency: string,
    status: SubStatus,
    startDate: int,
    endDate: int,
    autoRenew: bool,
    paymentMethod: string,
    phoneNumber: string,
    receipt: string,
    transactionDate: Option<int>,
    checkoutRequestId: Option<string>,
    features: Features)

  /** A fresh pending subscription with the schema's defaults. */
  function NewSubscription(id: nat, user: nat, plan: Plan, phone: string, now: int): (s: Subscription)
    ensures s.status == Pending && s.amount == PlanPrice(plan) && s.endDate == PeriodEnd(now)
    ensures s.currency == "KES" && s.autoRenew && s.paymentMethod == "mpesa"
    ensures s.checkoutRequestId.None? && s.features == DefaultFeatures(plan)
  {
    Subscription(id, user, plan, PlanPrice(plan), "KES", Pending, now, PeriodEnd(now), true, "mpesa",
                 phone, "", None, None, DefaultFeatures(plan))
  }

  // ---------------------------------------------------------------------------
  // Looking a plan up by name

  /** Names every plain object answers through its prototype. */
  const InheritedNames: set<string> := {
    "constructor", "toString", "toLocaleString", "valueOf", "hasOwnProperty",
    "isPrototypeOf", "propertyIsEnumerable", "__proto__", "__defineGetter__",
    "__defineSetter__", "__lookupGetter__", "__lookupSetter__"}

  /** What indexing the plan table with a name gives: a plan, an inherited
      member (truthy, but no plan), or nothing. */
  datatype PlanLookup = Known(plan: Plan) | Inherited | Unknown

  /** The table lookup as written: inherited members pass the truthiness check. */
  function LookupPlanAsWritten(name: string): (r: PlanLookup)
    ensures r.Known? <==> name == "basic" || name == "premium"
    ensures r.Inherited? <==> name in InheritedNames
  {
    if name == "basic" then Known(Basic)
    else if name == "premium" then Known(Premium)
    else if name in InheritedNames then Inherited
    else Unknown
  }

  /** The lookup as intended: only the table's own plans. */
  function LookupPlan(name: string): (r: PlanLookup)
    ensures r.Inherited? == false
    ensures r.Known? <==> name == "basic" || name == "premium"
  {
    if name == "basic" then Known(Basic)
    else if name == "premium" then Known(Premium)
    else Unknown
  }

  lemma PlanNameRoundTrip(p: Plan)
    ensures LookupPlan(PlanName(p)) == Known(p)
    ensures LookupPlanAsWritten(PlanName(p)) == Known(p)
  {
  }

  // ---------------------------------------------------------------------------
  // Requesting a payment

  /** The gateway's immediate answer to the payment request; `Unreachable`
      covers every failure to obtain one (token, network). */
  datatype GatewayReply = Unreachable | Replied(responseCode: string, checkoutRequestId: string)

  datatype InitiateOutcome =
    | InvalidPlan                                        // 400
    | InvalidPhone                                       // 400
    | ServerError(ledger: seq<Subscription>)            // 500
    | Requested(ledger: seq<Subscription>, subscriptionId: nat, checkoutRequestId: string)  // 200
    | Rejected(ledger: seq<Subscription>)                // 400

  function InitiateWith(lookup: PlanLookup, ledger: seq<Subscription>, user: nat, id: nat,
                        phoneNumber: Option<string>, now: int, reply: GatewayReply): InitiateOutcome
  {
    if lookup.Unknown? then InvalidPlan
    else if phoneNumber.None? then ServerError(ledger)
    else
      var phone := Normalize(phoneNumber.value);
      if !IsValidKenyan(phone) then InvalidPhone
      else if lookup.Inherited? then ServerError(ledger)
      else
        var created := NewSubscription(id, user, lookup.plan, phone, now);
        match reply
        case Unreachable => ServerError(ledger + [created])
        case Replied(code, checkout) =>
          if code == "0" then Requested(ledger + [created.(checkoutRequestId := Some(checkout))], id, checkout)
          else Rejected(ledger + [created.(status := Failed)])
  }

  /** The endpoint as written. */
  function InitiateSubscriptionAsWritten(ledger: seq<Subscription>, user: nat, id: nat, plan: string,
                                         phoneNumber: Option<string>, now: int, reply: GatewayReply): InitiateOutcome
  {
    InitiateWith(LookupPlanAsWritten(plan), ledger, user, id, phoneNumber, now, reply)
  }

  /** The endpoint with the plan check it intends. An unknown plan is refused
      before anything is stored; a missing phone is a server error (the code
      calls a string method on it); an invalid phone is refused; otherwise one
      pending subscription is appended, whose fate the gateway's reply decides. */
  function InitiateSubscription(ledger: seq<Subscription>, user: nat, id: nat, plan: string,
                                phoneNumber: Option<string>, now: int, reply: GatewayReply): (r: InitiateOutcome)
    ensures r.InvalidPlan? <==> plan != "basic" && plan != "premium"
    ensures r.InvalidPhone? <==> (plan == "basic" || plan == "premium")
                                 && phoneNumber.Some? && !IsValidKenyan(Normalize(phoneNumber.value))
    ensures r.Requested? <==> (plan == "basic" || plan == "premium")
                              && phoneNumber.Some? && IsValidKenyan(Normalize(phoneNumber.value))
                              && reply.Replied? && reply.responseCode == "0"
    ensures r.Rejected? <==> (plan == "basic" || plan == "premium")
                             && phoneNumber.Some? && IsValidKenyan(Normalize(phoneNumber.value))
                             && reply.Replied? && reply.responseCode != "0"
    ensures r.ServerError? <==> (plan == "basic" || plan == "premium")
                                && (phoneNumber.None?
                                    || (IsValidKenyan(Normalize(phoneNumber.value)) && reply.Unreachable?))
    ensures r.ServerError? && phoneNumber.None? ==> r.ledger == ledger
    ensures (r.ServerError? && phoneNumber.Some?) || r.Requested? || r.Rejected? ==>
      && phoneNumber.Some?
      && |r.ledger| == |ledger| + 1
      && r.ledger[..|ledger|] == ledger
      && var s := r.ledger[|ledger|];
         && s.id == id && s.user == user && PlanName(s.plan) == plan
         && s.amount == PlanPrice(s.plan) && s.endDate == PeriodEnd(now)
         && s.phoneNumber == Normalize(phoneNumber.value) && IsValidKenyan(s.phoneNumber)
         && s.status == (if r.Rejected? then Failed else Pending)
         && s.checkoutRequestId == (if r.Requested? then Some(r.checkoutRequestId) else None)
    ensures r.Requested? ==> r.subscriptionId == id && r.checkoutRequestId == reply.checkoutRequestId
  {
    var r := InitiateWith(LookupPlan(plan), ledger, user, id, phoneNumber, now, reply);
    assert (r.ServerError? && phoneNumber.Some?) || r.Requested? || r.Rejected? ==> r.ledger[..|ledger|] == ledger;
    r
  }

  /** The discrepancy: a name the plan table answers through its prototype,
      such as "toString", passes the plan check; with a valid phone the request
      then fails validation with a server error instead of the intended 400. */
  lemma InheritedPlanNameAsWritten(ledger: seq<Subscription>, user: nat, id: nat,
                                   phoneNumber: string, now: int, reply: GatewayReply)
    requires IsValidKenyan(Normalize(phoneNumber))
    ensures InitiateSubscriptionAsWritten(ledger, user, id, "toString", Some(phoneNumber), now, reply) == ServerError(ledger)
    ensures InitiateSubscription(ledger, user, id, "toString", Some(phoneNumber), now, reply) == InvalidPlan
  {
  }

  /** On the table's own plan names the two lookups agree. */
  lemma AsWrittenAgreesOnRealPlans(ledger: seq<Subscription>, user: nat, id: nat, plan: string,
                                   phoneNumber: Option<string>, now: int, reply: GatewayReply)
    requires plan !in InheritedNames
    ensures InitiateSubscriptionAsWritten(ledger, user, id, plan, phoneNumber, now, reply)
         == InitiateSubscription(ledger, user, id, plan, phoneNumber, now, reply)
  {
  }

  // ---------------------------------------------------------------------------
  // The gateway's callback

  /** A metadata value: the gateway sends numbers and strings. */
  datatype JsValue = Num(n: int) | Str(s: string)

  predicate Truthy(v: JsValue) {
    match v
    case Num(n) => n != 0
    case Str(s) => s != ""
  }

  /** `String(v)`, as storing a value in a string field does. */
  function JsString(v: JsValue): string {
    match v
    case Str(s) => s
    case Num(n) => if n < 0 then "-" + DecimalString(-n) else DecimalString(n)
  }

  datatype CallbackItem = CallbackItem(name: string, value: JsValue)

  /** `items.find(i => i.Name === name)?.Value || fallback`. */
  function ItemValue(items: seq<CallbackItem>, name: string, fallback: JsValue): (v: JsValue)
    ensures (exists k :: (0 <= k < |items| && items[k].name == name && Truthy(items[k].value)
                          && forall j :: 0 <= j < k ==> items[j].name != name)) ==> Truthy(v)
    ensures (forall k :: 0 <= k < |items| ==> items[k].name != name) ==> v == fallback
  {
    if items == [] then fallback
    else if items[0].name == name then (if Truthy(items[0].value) then items[0].value else fallback)
    else
      assert forall k :: 1 <= k < |items| ==> items[k] == items[1..][k - 1];
      ItemValue(items[1..], name, fallback)
  }

  /** The first item named `name` decides; a falsy or missing value gives the fallback. */
  lemma ItemValueFirstWins(items: seq<CallbackItem>, name: string, fallback: JsValue, k: nat)
    requires k < |items| && items[k].name == name
    requires forall j :: 0 <= j < k ==> items[j].name != name
    ensures ItemValue(items, name, fallback) == if Truthy(items[k].value) then items[k].value else fallback
  {
    if k > 0 {
      assert forall j :: 0 <= j < k - 1 ==> items[1..][j] == items[j + 1];
      ItemValueFirstWins(items[1..], name, fallback, k - 1);
    }
  }

  datatype PaymentData = PaymentData(
    checkoutRequestId: string,
    amount: JsValue,
    receipt: JsValue,
    transactionDate: Option<JsValue>,
    phoneNumber: JsValue)

  function ExtractPaymentData(checkout: string, items: seq<CallbackItem>): (d: PaymentData)
    ensures d.checkoutRequestId == checkout
    ensures (forall k :: 0 <= k < |items| ==> items[k].name != "Amount") ==> d.amount == Num(0)
    ensures (forall k :: 0 <= k < |items| ==> items[k].name != "MpesaReceiptNumber") ==> d.receipt == Str("")
    ensures (forall k :: 0 <= k < |items| ==> items[k].name != "PhoneNumber") ==> d.phoneNumber == Str("")
    ensures d.amount == ItemValue(items, "Amount", Num(0))
    ensures d.receipt == ItemValue(items, "MpesaReceiptNumber", Str(""))
    ensures d.phoneNumber == ItemValue(items, "PhoneNumber", Str(""))
    ensures d.transactionDate.Some? <==> Truthy(ItemValue(items, "TransactionDate", Num(0)))
    ensures d.transactionDate.Some? ==> d.transactionDate.value == ItemValue(items, "TransactionDate", Num(0))
  {
    var date := ItemValue(items, "TransactionDate", Num(0));
    PaymentData(
      checkout,
      ItemValue(items, "Amount", Num(0)),
      ItemValue(items, "MpesaReceiptNumber", Str("")),
      if Truthy(date) then Some(date) else None,
      ItemValue(items, "PhoneNumber", Str("")))
  }

  datatype Callback = Callback(resultCode: int, checkoutRequestId: string, items: Option<seq<CallbackItem>>)

  datatype Accounts = Accounts(users: seq<User>, subscriptions: seq<Subscription>)

  /** Position of the first subscription (in ledger order) with this checkout
      request, or `|subs|`. */
  function IndexOfCheckout(subs: seq<Subscription>, checkout: string): (k: nat)
    ensures k <= |subs|
    ensures k < |subs| ==> subs[k].checkoutRequestId == Some(checkout)
    ensures forall j :: 0 <= j < k ==> subs[j].checkoutRequestId != Some(checkout)
  {
    if subs == [] then 0
    else if subs[0].checkoutRequestId == Some(checkout) then 0
    else 1 + IndexOfCheckout(subs[1..], checkout)
  }

  /** The upgrade a paid subscription gives its user. */
  function Upgrade(u: User, s: Subscription, receipt: string, now: int): (r: User)
    ensures r.subscription == TierOf(s.plan) && r.subscriptionExpiry == Some(PeriodEnd(now))
    ensures r.history == u.history + [HistoryEntry(PlanName(s.plan), s.amount, now, PeriodEnd(now), receipt, HistoryActive)]
    ensures r.(subscription := u.subscription, subscriptionExpiry := u.subscriptionExpiry, history := u.history) == u
  {
    u.(subscription := TierOf(s.plan), subscriptionExpiry := Some(PeriodEnd(now)),
       history := u.history + [HistoryEntry(PlanName(s.plan), s.amount, now, PeriodEnd(now), receipt, HistoryActive)])
  }

  /** A successful payment: the first subscription with the checkout request
      becomes active, whatever it was, and its user is upgraded. An
      unreadable transaction date aborts the whole update; a subscription whose
      user is gone is activated but nobody is upgraded. `dateOf` is the date
      parser. */
  function ProcessSuccessfulPayment(a: Accounts, d: PaymentData, now: int, dateOf: string -> Option<int>): Accounts {
    var k := IndexOfCheckout(a.subscriptions, d.checkoutRequestId);
    if k == |a.subscriptions| then a
    else
      var date := match d.transactionDate case None => Some(now) case Some(v) => dateOf(JsString(v));
      if date.None? then a
      else
        var s := a.subscriptions[k];
        var receipt := JsString(d.receipt);
        var subs := a.subscriptions[k := s.(status := Active, receipt := receipt, transactionDate := date)];
        var u := IndexOfUser(a.users, s.user);
        if u == |a.users| then Accounts(a.users, subs)
        else Accounts(a.users[u := Upgrade(a.users[u], s, receipt, now)], subs)
  }

  /** The callback handler. The reply to the gateway is always result code 0,
      so only the new state is returned. */
  function HandleCallback(a: Accounts, cb: Callback, now: int, dateOf: string -> Option<int>): (r: Accounts)
    ensures |r.subscriptions| == |a.subscriptions| && |r.users| == |a.users|
    ensures forall k :: 0 <= k < |a.subscriptions| && a.subscriptions[k].checkoutRequestId != Some(cb.checkoutRequestId) ==>
      r.subscriptions[k] == a.subscriptions[k]
    ensures cb.resultCode != 0 ==> r.users == a.users
  {
    if cb.resultCode == 0 then
      match cb.items
      case None => a
      case Some(items) => ProcessSuccessfulPayment(a, ExtractPaymentData(cb.checkoutRequestId, items), now, dateOf)
    else
      var k := IndexOfCheckout(a.subscriptions, cb.checkoutRequestId);
      if k == |a.subscriptions| then a
      else Accounts(a.users, a.subscriptions[k := a.subscriptions[k].(status := Failed)])
  }

  /** A success callback for a known checkout request with a readable date
      activates that subscription, sets its user's tier and a 30-day expiry,
      and appends exactly one history entry; no other subscription or user
      changes. */
  lemma SuccessActivatesAndUpgrades(a: Accounts, cb: Callback, now: int, dateOf: string -> Option<int>)
    requires cb.resultCode == 0 && cb.items.Some?
    requires IndexOfCheckout(a.subscriptions, cb.checkoutRequestId) < |a.subscriptions|
    requires var d := ExtractPaymentData(cb.checkoutRequestId, cb.items.value);
      d.transactionDate.None? || dateOf(JsString(d.transactionDate.value)).Some?
    ensures var k := IndexOfCheckout(a.subscriptions, cb.checkoutRequestId);
      var s := a.subscriptions[k];
      var r := HandleCallback(a, cb, now, dateOf);
      && r.subscriptions[k].status == Active
      && r.subscriptions[k].(status := s.status, receipt := s.receipt, transactionDate := s.transactionDate) == s
      && (forall j :: 0 <= j < |a.subscriptions| && j != k ==> r.subscriptions[j] == a.subscriptions[j])
      && (forall j :: 0 <= j < |a.users| && a.users[j].id != s.user ==> r.users[j] == a.users[j])
      && (forall j :: (0 <= j < |a.users| && a.users[j].id == s.user
                       && (forall i :: 0 <= i < j ==> a.users[i].id != s.user)) ==>
            && r.users[j].subscription == TierOf(s.plan)
            && r.users[j].subscriptionExpiry == Some(now + 30 * 86400000)
            && |r.users[j].history| == |a.users[j].history| + 1
            && r.users[j].history[..|a.users[j].history|] == a.users[j].history
            && r.users[j].history[|a.users[j].history|].status == HistoryActive)
  {
    var d := ExtractPaymentData(cb.checkoutRequestId, cb.items.value);
    assert HandleCallback(a, cb, now, dateOf) == ProcessSuccessfulPayment(a, d, now, dateOf);
    PaymentActivatesAndUpgrades(a, d, now, dateOf);
  }

  /** The same, for whatever payment data the callback carries. */
  lemma PaymentActivatesAndUpgrades(a: Accounts, d: PaymentData, now: int, dateOf: string -> Option<int>)
    requires IndexOfCheckout(a.subscriptions, d.checkoutRequestId) < |a.subscriptions|
    requires d.transactionDate.None? || dateOf(JsString(d.transactionDate.value)).Some?
    ensures var k := IndexOfCheckout(a.subscriptions, d.checkoutRequestId);
      var s := a.subscriptions[k];
      var r := ProcessSuccessfulPayment(a, d, now, dateOf);
      && r.subscriptions[k].status == Active
      && r.subscriptions[k].(status := s.status, receipt := s.receipt, transactionDate := s.transactionDate) == s
      && (forall j :: 0 <= j < |a.subscriptions| && j != k ==> r.subscriptions[j] == a.subscriptions[j])
      && (forall j :: 0 <= j < |a.users| && a.users[j].id != s.user ==> r.users[j] == a.users[j])
      && (forall j :: (0 <= j < |a.users| && a.users[j].id == s.user
                       && (forall i :: 0 <= i < j ==> a.users[i].id != s.user)) ==>
            && r.users[j].subscription == TierOf(s.plan)
            && r.users[j].subscriptionExpiry == Some(now + 30 * 86400000)
            && |r.users[j].history| == |a.users[j].history| + 1
            && r.users[j].history[..|a.users[j].history|] == a.users[j].history
            && r.users[j].history[|a.users[j].history|].status == HistoryActive)
  {
    var k := IndexOfCheckout(a.subscriptions, d.checkoutRequestId);
    var s := a.subscriptions[k];
    var u := IndexOfUser(a.users, s.user);
    var r := ProcessSuccessfulPayment(a, d, now, dateOf);
    SuccessfulPaymentShape(a, d, now, dateOf);
    if u < |a.users| {
      var up := Upgrade(a.users[u], s, JsString(d.receipt), now);
      assert up.history[..|a.users[u].history|] == a.users[u].history;
      assert r.users == a.users[u := up];
    } else {
      assert r.users == a.users;
    }
  }

  /** What a successful payment with a readable date writes: the activated
      subscription in place and, when its user exists, the upgraded user. */
  lemma SuccessfulPaymentShape(a: Accounts, d: PaymentData, now: int, dateOf: string -> Option<int>)
    requires IndexOfCheckout(a.subscriptions, d.checkoutRequestId) < |a.subscriptions|
    requires d.transactionDate.None? || dateOf(JsString(d.transactionDate.value)).Some?
    ensures var k := IndexOfCheckout(a.subscriptions, d.checkoutRequestId);
      var s := a.subscriptions[k];
      var u := IndexOfUser(a.users, s.user);
      var r := ProcessSuccessfulPayment(a, d, now, dateOf);
      && r.subscriptions == a.subscriptions[k := s.(status := Active, receipt := JsString(d.receipt),
                                                    transactionDate := r.subscriptions[k].transactionDate)]
      && (u < |a.users| ==> r.users == a.users[u := Upgrade(a.users[u], s, JsString(d.receipt), now)])
      && (u == |a.users| ==> r.users == a.users)
  {
  }

  /** A failure callback marks the first subscription with that checkout
      request `failed` and touches nothing else. */
  lemma FailureMarksFailed(a: Accounts, cb: Callback, now: int, dateOf: string -> Option<int>)
    requires cb.resultCode != 0
    ensures var k := IndexOfCheckout(a.subscriptions, cb.checkoutRequestId);
      var r := HandleCallback(a, cb, now, dateOf);
      && (k < |a.subscriptions| ==> r.subscriptions == a.subscriptions[k := a.subscriptions[k].(status := Failed)])
      && (k == |a.subscriptions| ==> r == a)
  {
  }

  // ---------------------------------------------------------------------------
  // Reading and cancelling

  predicate CurrentlyActive(s: Subscription, now: int) {
    s.status == Active && s.endDate > now
  }

  /** Position of the newest (latest in the ledger) currently active
      subscription of the user, or -1 when there is none. */
  function LastActiveIndex(subs: seq<Subscription>, user: nat, now: int): (k: int)
    ensures -1 <= k < |subs|
    ensures k >= 0 ==> subs[k].user == user && CurrentlyActive(subs[k], now)
    ensures forall j :: k < j < |subs| ==> !(subs[j].user == user && CurrentlyActive(subs[j], now))
  {
    if subs == [] then -1
    else
      var prefix := subs[..|subs| - 1];
      if subs[|subs| - 1].user == user && CurrentlyActive(subs[|subs| - 1], now) then |subs| - 1
      else
        var k := LastActiveIndex(prefix, user, now);
        assert forall j :: k < j < |prefix| ==> subs[j] == prefix[j];
        k
  }

  /** The active subscription reported to a user: the newest (latest in the
      ledger) of theirs that is active and not past its end. */
  function ActiveSubscription(subs: seq<Subscription>, user: nat, now: int): (r: Option<Subscription>)
    ensures r.Some? ==> r.value in subs && r.value.user == user && CurrentlyActive(r.value, now)
    ensures r.None? <==> forall k :: 0 <= k < |subs| ==> !(subs[k].user == user && CurrentlyActive(subs[k], now))
    ensures r.Some? ==> exists k :: (0 <= k < |subs| && subs[k] == r.value
      && forall j :: k < j < |subs| ==> !(subs[j].user == user && CurrentlyActive(subs[j], now)))
  {
    var k := LastActiveIndex(subs, user, now);
    if k < 0 then None else Some(subs[k])
  }

  datatype CancelOutcome = NoActiveSubscription | CancelledOk(subscriptions: seq<Subscription>, expiryDate: int)

  /** Position of the first (oldest) currently active subscription of the user, or `|subs|`. */
  function IndexOfActive(subs: seq<Subscription>, user: nat, now: int): (k: nat)
    ensures k <= |subs|
    ensures k < |subs| ==> subs[k].user == user && CurrentlyActive(subs[k], now)
    ensures forall j :: 0 <= j < k ==> !(subs[j].user == user && CurrentlyActive(subs[j], now))
  {
    if subs == [] then 0
    else if subs[0].user == user && CurrentlyActive(subs[0], now) then 0
    else 1 + IndexOfActive(subs[1..], user, now)
  }

  /** Cancelling: 404 when the user has no currently active subscription;
      otherwise the first one found is set `cancelled` with auto-renewal off,
      its end date kept and reported, and nothing else changes. */
  function CancelSubscription(subs: seq<Subscription>, user: nat, now: int): (r: CancelOutcome)
    ensures r.NoActiveSubscription? <==> ActiveSubscription(subs, user, now).None?
    ensures r.CancelledOk? ==> |r.subscriptions| == |subs|
    ensures r.CancelledOk? ==> exists k :: (0 <= k < |subs|
      && subs[k].user == user && CurrentlyActive(subs[k], now)
      && r.subscriptions == subs[k := subs[k].(status := Cancelled, autoRenew := false)]
      && r.expiryDate == subs[k].endDate)
  {
    var k := IndexOfActive(subs, user, now);
    if k == |subs| then NoActiveSubscription
    else CancelledOk(subs[k := subs[k].(status := Cancelled, autoRenew := false)], subs[k].endDate)
  }

  /** After a cancel the cancelled subscription is no longer reported active;
      a user who had only that one then has no active subscription. */
  lemma CancelEndsActive(subs: seq<Subscription>, user: nat, now: int)
    requires CancelSubscription(subs, user, now).CancelledOk?
    requires forall i, j :: 0 <= i < j < |subs| && subs[i].user == user && subs[j].user == user ==>
      !(CurrentlyActive(subs[i], now) && CurrentlyActive(subs[j], now))
    ensures ActiveSubscription(CancelSubscription(subs, user, now).subscriptions, user, now).None?
  {
    var k := IndexOfActive(subs, user, now);
    var after := CancelSubscription(subs, user, now).subscriptions;
    forall j | 0 <= j < |after| ensures !(after[j].user == user && CurrentlyActive(after[j], now)) {
      if j != k {
        assert after[j] == subs[j];
      }
    }
  }

  /** Cancel picks the oldest current subscription while the read side reports
      the newest; they coincide when the user has only one. */
  lemma CancelAndReadAgreeOnOne(subs: seq<Subscription>, user: nat, now: int)
    requires forall i, j :: 0 <= i < j < |subs| && subs[i].user == user && subs[j].user == user ==>
      !(CurrentlyActive(subs[i], now) && CurrentlyActive(subs[j], now))
    requires ActiveSubscription(subs, user, now).Some?
    ensures CancelSubscription(subs, user, now).CancelledOk?
    ensures subs[IndexOfActive(subs, user, now)] == ActiveSubscription(subs, user, now).value
  {
    var k := IndexOfActive(subs, user, now);
    var s := ActiveSubscription(subs, user, now).value;
    var m :| 0 <= m < |subs| && subs[m] == s
      && forall j :: m < j < |subs| ==> !(subs[j].user == user && CurrentlyActive(subs[j], now));
    assert k <= m;
    if k < m {
      assert false;
    }
  }
}

=== FILE: text.dfy ===
/** Character and string helpers shared by the backend and the client:
    ASCII digits, ASCII lower-casing, substring search, splitting on a
    separator, byte-wise string order and JavaScript's `parseInt` on a run
    of leading digits. */
module Text {
  import opened Wrappers

  predicate IsDigit(c: char) {
    '0' <= c <= '9'
  }

  predicate AllDigits(s: string) {
    forall i :: 0 <= i < |s| ==> IsDigit(s[i])
  }

  function DigitValue(c: char): nat
    requires IsDigit(c)
  {
    (c as int) - ('0' as int)
  }

  /** `s.replace(/\D/g, '')`: the ASCII digits of `s`, in order. */
  function KeepDigits(s: string): (r: string)
    ensures AllDigits(r)
    ensures |r| <= |s|
    ensures AllDigits(s) ==> r == s
    ensures forall c :: c in r <==> c in s && IsDigit(c)
  {
    if s == [] then []
    else if IsDigit(s[0]) then [s[0]] + KeepDigits(s[1..])
    else KeepDigits(s[1..])
  }

  /** Removing non-digits works piece by piece. */
  lemma {:induction false} KeepDigitsAppend(a: string, b: string)
    ensures KeepDigits(a + b) == KeepDigits(a) + KeepDigits(b)
  {
    if a != [] {
      assert (a + b)[0] == a[0] && (a + b)[1..] == a[1..] + b;
      KeepDigitsAppend(a[1..], b);
      if IsDigit(a[0]) {
        assert [a[0]] + (KeepDigits(a[1..]) + KeepDigits(b)) == ([a[0]] + KeepDigits(a[1..])) + KeepDigits(b);
      }
    } else {
      assert a + b == b;
    }
  }

  /** ASCII lower-casing of one character. */
  function LowerChar(c: char): char {
    if 'A' <= c <= 'Z' then (c as int + 32) as char else c
  }

  /** `s.toLowerCase()` restricted to ASCII letters. */
  function Lower(s: string): (r: string)
    ensures |r| == |s|
    ensures forall i :: 0 <= i < |s| ==> r[i] == LowerChar(s[i])
  {
    seq(|s|, i requires 0 <= i < |s| => LowerChar(s[i]))
  }

  /** `needle` occurs in `hay` at some position (the empty string occurs everywhere). */
  predicate Contains(hay: string, needle: string)
    decreases |hay|
  {
    needle <= hay || (|hay| > 0 && Contains(hay[1..], needle))
  }

  /** Case-insensitive substring test: `hay.toLowerCase().includes(needle.toLowerCase())`,
      and also what a literal pattern with the `i` option matches. */
  predicate ContainsIgnoreCase(hay: string, needle: string) {
    Contains(Lower(hay), Lower(needle))
  }

  /** A search term with none of the characters that have a meaning inside a
      regular expression, so that using it as a pattern matches it literally. */
  predicate IsLiteralPattern(s: string) {
    forall i :: 0 <= i < |s| ==> s[i] !in "\\^$.|?*+()[]{}"
  }

  /** `needle` sits in `hay` starting at index `i`. */
  predicate OccursAt(hay: string, needle: string, i: nat) {
    i + |needle| <= |hay| && hay[i..i + |needle|] == needle
  }

  /** The recursive Contains agrees with the positional definition of a substring. */
  lemma {:induction false} ContainsIffOccurs(hay: string, needle: string)
    ensures Contains(hay, needle) <==> exists i: nat :: OccursAt(hay, needle, i)
    decreases |hay|
  {
    if needle <= hay {
      assert OccursAt(hay, needle, 0);
    } else if |hay| > 0 {
      ContainsIffOccurs(hay[1..], needle);
      if Contains(hay[1..], needle) {
        var i: nat :| OccursAt(hay[1..], needle, i);
        assert i + 1 + |needle| <= |hay|;
        var here, there := hay[1..][i..i + |needle|], hay[i + 1..i + 1 + |needle|];
        assert |here| == |there| && forall k :: 0 <= k < |here| ==> here[k] == there[k];
        assert here == there;
        assert OccursAt(hay, needle, i + 1);
      } else {
        forall i: nat | OccursAt(hay, needle, i)
          ensures false
        {
          if i != 0 {
            assert hay[1..][i - 1..i - 1 + |needle|] == hay[i..i + |needle|];
            assert OccursAt(hay[1..], needle, i - 1);
          }
        }
      }
    }
  }

  /** The empty search term is contained in every string. */
  lemma EmptyIsContained(hay: string)
    ensures Contains(hay, "")
  {
  }

  // ---------------------------------------------------------------------------
  // Splitting on a separator (JavaScript `s.split(sep)` for a one-character sep)

  /** The pieces of `s` between occurrences of `sep`; always at least one piece. */
  function Split(s: string, sep: char): (r: seq<string>)
    ensures |r| >= 1
    ensures forall k :: 0 <= k < |r| ==> sep !in r[k]
    decreases |s|
  {
    if s == [] then [""]
    else
      var rest := Split(s[1..], sep);
      if s[0] == sep then [""] + rest
      else [[s[0]] + rest[0]] + rest[1..]
  }

  /** A string without the separator splits into itself alone. */
  lemma {:induction false} SplitWithoutSeparator(s: string, sep: char)
    requires sep !in s
    ensures Split(s, sep) == [s]
    decreases |s|
  {
    if s != [] {
      SplitWithoutSeparator(s[1..], sep);
      assert s == [s[0]] + s[1..];
    }
  }

  /** Joining pieces back together with the separator. */
  function Join(parts: seq<string>, sep: char): string
    requires |parts| >= 1
  {
    if |parts| == 1 then parts[0] else parts[0] + [sep] + Join(parts[1..], sep)
  }

  /** Splitting loses nothing: joining the pieces gives back the input. */
  lemma {:induction false} JoinSplit(s: string, sep: char)
    ensures Join(Split(s, sep), sep) == s
    decreases |s|
  {
    if s != [] {
      JoinSplit(s[1..], sep);
      var rest := Split(s[1..], sep);
      if s[0] == sep {
        assert Split(s, sep) == [""] + rest;
        assert ([""] + rest)[1..] == rest;
      } else {
        var parts := [[s[0]] + rest[0]] + rest[1..];
        assert Split(s, sep) == parts;
        if |rest| == 1 {
          assert Join(parts, sep) == [s[0]] + rest[0];
        } else {
          assert parts[1..] == rest[1..];
          assert Join(rest, sep) == rest[0] + [sep] + Join(rest[1..], sep);
        }
        assert s == [s[0]] + s[1..];
      }
    }
  }

  // ---------------------------------------------------------------------------
  // Byte-wise string order (how the document store sorts string fields)

  predicate LexLe(a: string, b: string)
    decreases |a|
  {
    a == [] || (|b| > 0 && (a[0] < b[0] || (a[0] == b[0] && LexLe(a[1..], b[1..]))))
  }

  lemma {:induction false} LexLeTotal(a: string, b: string)
    ensures LexLe(a, b) || LexLe(b, a)
    decreases |a|
  {
    if a != [] && b != [] && a[0] == b[0] {
      LexLeTotal(a[1..], b[1..]);
    }
  }

  lemma {:induction false} LexLeTransitive(a: string, b: string, c: string)
    requires LexLe(a, b) && LexLe(b, c)
    ensures LexLe(a, c)
    decreases |a|
  {
    if a != [] && a[0] == b[0] && b[0] == c[0] {
      LexLeTransitive(a[1..], b[1..], c[1..]);
    }
  }

  // ---------------------------------------------------------------------------
  // parseInt

  /** `s.replace(c, '')` with a one-character pattern: only the FIRST occurrence goes. */
  function RemoveFirst(s: string, c: char): (r: string)
    ensures c in s ==> |r| == |s| - 1
    ensures c !in s ==> r == s
  {
    if s == [] then []
    else if s[0] == c then s[1..]
    else [s[0]] + RemoveFirst(s[1..], c)
  }

  /** The run of digits at the start of `s`. */
  function LeadingDigits(s: string): (r: string)
    ensures AllDigits(r) && r <= s
    ensures |r| < |s| ==> !IsDigit(s[|r|])
  {
    if s != [] && IsDigit(s[0]) then [s[0]] + LeadingDigits(s[1..]) else []
  }

  /** The decimal value of a string of digits. */
  function DigitsValue(d: string): nat
    requires AllDigits(d)
  {
    if d == [] then 0 else DigitsValue(d[..|d| - 1]) * 10 + DigitValue(d[|d| - 1])
  }

  /** The decimal value of the digits `s` starts with, or None when it does
      not start with a digit. */
  function ParseDecimal(s: string): (r: Option<nat>)
    ensures r.None? <==> (s == [] || !IsDigit(s[0]))
    ensures r.Some? ==> r.value == DigitsValue(LeadingDigits(s))
  {
    var d := LeadingDigits(s);
    if d == [] then None else Some(DigitsValue(d))
  }

  predicate IsHexDigit(c: char) {
    IsDigit(c) || 'a' <= c <= 'f' || 'A' <= c <= 'F'
  }

  function HexDigitValue(c: char): (v: nat)
    requires IsHexDigit(c)
    ensures v < 16
  {
    if IsDigit(c) then DigitValue(c)
    else if 'a' <= c <= 'f' then (c as int) - ('a' as int) + 10
    else (c as int) - ('A' as int) + 10
  }

  /** The run of hexadecimal digits at the start of `s`. */
  function LeadingHexDigits(s: string): (r: string)
    ensures r <= s && forall i :: 0 <= i < |r| ==> IsHexDigit(r[i])
    ensures |r| < |s| ==> !IsHexDigit(s[|r|])
  {
    if s != [] && IsHexDigit(s[0]) then [s[0]] + LeadingHexDigits(s[1..]) else []
  }

  function HexValue(d: string): nat
    requires forall i :: 0 <= i < |d| ==> IsHexDigit(d[i])
  {
    if d == [] then 0 else HexValue(d[..|d| - 1]) * 16 + HexDigitValue(d[|d| - 1])
  }

  /** The base-16 value of the hexadecimal digits `s` starts with, or None
      when it does not start with one. */
  function ParseHex(s: string): (r: Option<nat>)
    ensures r.None? <==> (s == [] || !IsHexDigit(s[0]))
  {
    var d := LeadingHexDigits(s);
    if d == [] then None else Some(HexValue(d))
  }

  /** `0x` or `0X`, which makes `parseInt` without a radix read base 16. */
  predicate HasHexPrefix(s: string) {
    |s| >= 2 && s[0] == '0' && (s[1] == 'x' || s[1] == 'X')
  }

  /** A number's negation, NaN staying NaN. */
  function Negate(n: Option<int>): (r: Option<int>)
    ensures r.Some? <==> n.Some?
    ensures r.Some? ==> r.value + n.value == 0
  {
    match n
    case Some(v) => Some(-v)
    case None => None
  }

  /** The digits after an optional sign: base 16 after a `0x`/`0X` prefix,
      base 10 otherwise; None (NaN) when there are none. */
  function Magnitude(u: string): (r: Option<int>)
    ensures !HasHexPrefix(u) ==> r == ParseDecimal(u)
  {
    if HasHexPrefix(u) then ParseHex(u[2..]) else ParseDecimal(u)
  }

  /** One optional sign, then the magnitude. */
  function SignedValue(t: string): (r: Option<int>)
    ensures t != [] && t[0] == '-' ==> r == Negate(Magnitude(t[1..]))
    ensures t != [] && t[0] == '+' ==> r == Magnitude(t[1..])
    ensures t == [] || (t[0] != '-' && t[0] != '+') ==> r == Magnitude(t)
  {
    if t != [] && t[0] == '-' then Negate(Magnitude(t[1..]))
    else if t != [] && t[0] == '+' then Magnitude(t[1..])
    else Magnitude(t)
  }

  /** `parseInt(s)` without a radix: leading white space is skipped, then one
      `+` or `-`; a `0x`/`0X` prefix selects base 16, otherwise base 10; the
      value is that of the run of digits that follows, and None (NaN) when
      that run is empty. A negative zero is read as 0. */
  function ParseInt(s: string): (r: Option<int>)
    ensures IsBlank(s) ==> r.None?
  {
    SignedValue(s[LeadingSpaces(s)..])
  }

  /** A string that starts with a decimal digit and has no hexadecimal prefix
      reads as its leading digits. */
  lemma ParseIntDecimal(s: string)
    requires s != [] && IsDigit(s[0]) && !HasHexPrefix(s)
    ensures ParseInt(s) == Some(DigitsValue(LeadingDigits(s)))
  {
    assert LeadingSpaces(s) == 0;
  }

  /** A white-space character in front changes nothing. */
  lemma ParseIntSkipsSpace(c: char, s: string)
    requires IsSpace(c)
    ensures ParseInt([c] + s) == ParseInt(s)
  {
    assert ([c] + s)[1..] == s;
    assert ([c] + s)[LeadingSpaces([c] + s)..] == s[LeadingSpaces(s)..];
  }

  /** A minus sign in front of an unsigned number negates it; a plus sign
      changes nothing. */
  lemma ParseIntSign(s: string)
    requires s == [] || (!IsSpace(s[0]) && s[0] != '-' && s[0] != '+')
    ensures ParseInt("-" + s) == Negate(ParseInt(s))
    ensures ParseInt("+" + s) == ParseInt(s)
  {
    assert ("-" + s)[1..] == s && ("+" + s)[1..] == s;
    assert LeadingSpaces("-" + s) == 0 && LeadingSpaces("+" + s) == 0 && LeadingSpaces(s) == 0;
  }

  /** With a `0x` prefix the digits are read in base 16: "0x1A" is 26. */
  lemma ParseIntHexExample()
    ensures ParseInt("0x1A") == Some(26)
  {
    assert LeadingSpaces("0x1A") == 0;
    assert "0x1A"[2..] == "1A";
    assert LeadingHexDigits("1A"[2..]) == [];
    assert LeadingHexDigits("1A"[1..]) == "A";
    assert LeadingHexDigits("1A") == "1A";
    assert "1A"[..1] == "1" && "1"[..0] == [];
  }

  /** The digit character for `0 <= n < 10`. */
  function DigitChar(n: nat): (c: char)
    requires n < 10
    ensures IsDigit(c) && DigitValue(c) == n
  {
    ['0', '1', '2', '3', '4', '5', '6', '7', '8', '9'][n]
  }

  /** `String(n)` for a natural number: its decimal digits, no leading zero. */
  function DecimalString(n: nat): (r: string)
    ensures AllDigits(r) && |r| >= 1
    ensures n > 0 ==> r[0] != '0'
  {
    if n < 10 then [DigitChar(n)] else DecimalString(n / 10) + [DigitChar(n % 10)]
  }

  /** Reading the digits back gives the number. */
  lemma {:induction false} DecimalStringValue(n: nat)
    ensures DigitsValue(DecimalString(n)) == n
  {
    var r := DecimalString(n);
    if n >= 10 {
      DecimalStringValue(n / 10);
      assert r[..|r| - 1] == DecimalString(n / 10);
    } else {
      assert r[..|r| - 1] == [];
    }
  }

  /** `parseInt(String(n)) == n`. */
  lemma ParseDecimalString(n: nat)
    ensures ParseInt(DecimalString(n)) == Some(n)
  {
    var r := DecimalString(n);
    AllDigitsAreLeading(r);
    DecimalStringValue(n);
    ParseIntDecimal(r);
  }

  lemma {:induction false} AllDigitsAreLeading(s: string)
    requires AllDigits(s)
    ensures LeadingDigits(s) == s
  {
    if s != [] {
      AllDigitsAreLeading(s[1..]);
    }
  }

  // ---------------------------------------------------------------------------
  // Trimming

  /** ASCII white space: space, tab, line feed, vertical tab, form feed, carriage return. */
  predicate IsSpace(c: char) {
    c == ' ' || c == '\t' || c == '\n' || c == '\r' || c == '\U{000B}' || c == '\U{000C}'
  }

  predicate IsBlank(s: string) {
    forall i :: 0 <= i < |s| ==> IsSpace(s[i])
  }

  /** The number of white-space characters `s` starts with. */
  function LeadingSpaces(s: string): (n: nat)
    ensures n <= |s| && IsBlank(s[..n])
    ensures n < |s| ==> !IsSpace(s[n])
  {
    if s == [] || !IsSpace(s[0]) then 0
    else
      var n := LeadingSpaces(s[1..]);
      assert s[..n + 1] == [s[0]] + s[1..][..n];
      n + 1
  }

  /** The length of `s` without the white space it ends with. */
  function TrailingEnd(s: string): (m: nat)
    ensures m <= |s| && IsBlank(s[m..])
    ensures m > 0 ==> !IsSpace(s[m - 1])
  {
    if s == [] || !IsSpace(s[|s| - 1]) then |s|
    else
      var m := TrailingEnd(s[..|s| - 1]);
      assert s[m..] == s[..|s| - 1][m..] + [s[|s| - 1]];
      m
  }

  /** The string with leading and trailing white space removed: a contiguous
      piece of it that neither starts nor ends with white space, with only
      white space cut on either side. */
  function Trim(s: string): (r: string)
    ensures r == [] <==> IsBlank(s)
    ensures r != [] ==> !IsSpace(r[0]) && !IsSpace(r[|r| - 1])
    ensures exists i, j :: (0 <= i <= j <= |s| && r == s[i..j]
                            && IsBlank(s[..i]) && IsBlank(s[j..]))
  {
    var i := LeadingSpaces(s);
    var j := TrailingEnd(s);
    if i < j then
      assert !IsSpace(s[i]) && !IsSpace(s[j - 1]);
      s[i..j]
    else
      assert IsBlank(s) by {
        forall k | 0 <= k < |s| ensures IsSpace(s[k]) {
          assert s[..i][k] == s[k];
        }
      }
      assert [] == s[i..i] && IsBlank(s[i..]);
      []
  }

  /** Trimming twice trims nothing more. */
  lemma TrimIdempotent(s: string)
    ensures Trim(Trim(s)) == Trim(s)
  {
    var r := Trim(s);
    if r != [] {
      assert LeadingSpaces(r) == 0;
      assert TrailingEnd(r) == |r|;
      assert r[0..|r|] == r;
    }
  }
}

=== FILE: trending.dfy ===
/** The trending list: over the offers whose status is `available`, one tally
    per medicine (how many offers, i.e. pharmacies, stock it and how many units
    they hold together), ranked by offer count and then by units, both
    descending; the first ten are joined with the catalog, and a tally whose
    medicine is missing from the catalog is dropped after the cut. The
    average price is left out (a floating-point mean). */
module Trending {
  import opened Wrappers
  import opened Seqs
  import opened Sorting
  import opened Medicines
  import opened Inventory
  import opened Store

  const TrendingSize: nat := 10

  datatype Tally = Tally(medicine: nat, totalQuantity: nat, pharmacyCount: nat)
  datatype TrendingEntry = TrendingEntry(tally: Tally, medicine: Medicine)

  /** The `$match` stage. */
  function AvailableOffers(offers: seq<Offer>): (r: seq<Offer>)
    ensures forall o :: o in r <==> o in offers && o.status == Available
  {
    Filter(offers, (o: Offer) => o.status == Available)
  }

  // ---------------------------------------------------------------------------
  // Reference description of `$group`

  /** The medicines that have offers, each once, by first occurrence. */
  function MedicineIds(offers: seq<Offer>): (ids: seq<nat>)
    ensures forall i, j :: 0 <= i < j < |ids| ==> ids[i] != ids[j]
    ensures forall id :: id in ids <==> exists k :: 0 <= k < |offers| && offers[k].medicine == id
  {
    if offers == [] then []
    else
      var prefix := MedicineIds(offers[..|offers| - 1]);
      var last := offers[|offers| - 1];
      assert forall k :: 0 <= k < |offers| - 1 ==> offers[..|offers| - 1][k] == offers[k];
      if last.medicine in prefix then prefix else prefix + [last.medicine]
  }

  /** The number of offers for medicine `id`. */
  function CountFor(offers: seq<Offer>, id: nat): nat {
    if offers == [] then 0
    else CountFor(offers[..|offers| - 1], id) + (if offers[|offers| - 1].medicine == id then 1 else 0)
  }

  /** The units held over all offers for medicine `id`. */
  function QuantityFor(offers: seq<Offer>, id: nat): nat {
    if offers == [] then 0
    else QuantityFor(offers[..|offers| - 1], id)
         + (if offers[|offers| - 1].medicine == id then offers[|offers| - 1].quantity else 0)
  }

  lemma {:induction false} CountForPositive(offers: seq<Offer>, id: nat)
    requires id in MedicineIds(offers)
    ensures CountFor(offers, id) >= 1
  {
    var p := offers[..|offers| - 1];
    if offers[|offers| - 1].medicine != id {
      var k :| 0 <= k < |offers| && offers[k].medicine == id;
      assert p[k] == offers[k];
      CountForPositive(p, id);
    }
  }

  lemma {:induction false} CountForAbsent(offers: seq<Offer>, id: nat)
    requires id !in MedicineIds(offers)
    ensures CountFor(offers, id) == 0 && QuantityFor(offers, id) == 0
  {
    if offers != [] {
      var p := offers[..|offers| - 1];
      assert forall k :: 0 <= k < |p| ==> p[k] == offers[k];
      CountForAbsent(p, id);
    }
  }

  function TallyOf(offers: seq<Offer>, id: nat): Tally {
    Tally(id, QuantityFor(offers, id), CountFor(offers, id))
  }

  function ReferenceTallies(offers: seq<Offer>): seq<Tally> {
    var ids := MedicineIds(offers);
    seq(|ids|, k requires 0 <= k < |ids| => TallyOf(offers, ids[k]))
  }

  // ---------------------------------------------------------------------------
  // The fold

  function IndexOfTally(ts: seq<Tally>, id: nat): (k: nat)
    ensures k <= |ts|
    ensures k < |ts| ==> ts[k].medicine == id
    ensures forall j :: 0 <= j < k ==> ts[j].medicine != id
  {
    if ts == [] then 0
    else if ts[0].medicine == id then 0
    else 1 + IndexOfTally(ts[1..], id)
  }

  /** The tally of `o`'s medicine after `o`: one more offer and its units. */
  function Bumped(t: Tally, o: Offer): Tally {
    t.(totalQuantity := t.totalQuantity + o.quantity, pharmacyCount := t.pharmacyCount + 1)
  }

  /** Adds one offer to the running tallies. */
  function AddOffer(ts: seq<Tally>, o: Offer): seq<Tally> {
    var k := IndexOfTally(ts, o.medicine);
    if k < |ts| then ts[k := Bumped(ts[k], o)]
    else ts + [Tally(o.medicine, o.quantity, 1)]
  }

  /** `$group: {_id: '$medicine', totalQuantity: {$sum: '$quantity'}, pharmacyCount: {$sum: 1}}`. */
  function GroupTallies(offers: seq<Offer>): seq<Tally> {
    if offers == [] then []
    else AddOffer(GroupTallies(offers[..|offers| - 1]), offers[|offers| - 1])
  }

  lemma TallySnoc(p: seq<Offer>, o: Offer, id: nat)
    ensures CountFor(p + [o], id) == CountFor(p, id) + (if o.medicine == id then 1 else 0)
    ensures QuantityFor(p + [o], id) == QuantityFor(p, id) + (if o.medicine == id then o.quantity else 0)
  {
    assert (p + [o])[..|p|] == p;
  }

  /** A medicine with offers is found at its place among the tallies. */
  lemma TallyForKnown(p: seq<Offer>, j: nat)
    requires j < |MedicineIds(p)|
    ensures IndexOfTally(ReferenceTallies(p), MedicineIds(p)[j]) == j
  {
    TallyIds(p);
  }

  lemma AddOfferAt(ts: seq<Tally>, o: Offer, j: nat)
    requires j < |ts| && IndexOfTally(ts, o.medicine) == j
    ensures AddOffer(ts, o) == ts[j := Bumped(ts[j], o)]
  {
  }

  lemma AddOfferNew(ts: seq<Tally>, o: Offer)
    requires IndexOfTally(ts, o.medicine) == |ts|
    ensures AddOffer(ts, o) == ts + [Tally(o.medicine, o.quantity, 1)]
  {
  }

  /** One reference tally after an offer for a known medicine. */
  lemma KnownEntry(p: seq<Offer>, o: Offer, m: nat)
    requires o.medicine in MedicineIds(p)
    requires m < |MedicineIds(p)|
    ensures m < |ReferenceTallies(p + [o])|
    ensures ReferenceTallies(p + [o])[m] ==
      if MedicineIds(p)[m] == o.medicine then Bumped(ReferenceTallies(p)[m], o) else ReferenceTallies(p)[m]
  {
    IdsSnoc(p, o);
    TallySnoc(p, o, MedicineIds(p)[m]);
  }

  /** Adding an offer for a medicine already tallied bumps that tally only. */
  lemma StepKnown(p: seq<Offer>, o: Offer)
    requires o.medicine in MedicineIds(p)
    ensures AddOffer(ReferenceTallies(p), o) == ReferenceTallies(p + [o])
  {
    var ts := ReferenceTallies(p);
    var ids := MedicineIds(p);
    IdsSnoc(p, o);
    TallyIds(p);
    var j :| 0 <= j < |ids| && ids[j] == o.medicine;
    TallyForKnown(p, j);
    var r := AddOffer(ts, o);
    AddOfferAt(ts, o, j);
    var want := ReferenceTallies(p + [o]);
    forall m | 0 <= m < |r| ensures r[m] == want[m] {
      KnownEntry(p, o, m);
    }
  }

  lemma IdsSnoc(p: seq<Offer>, o: Offer)
    ensures MedicineIds(p + [o]) == if o.medicine in MedicineIds(p) then MedicineIds(p) else MedicineIds(p) + [o.medicine]
  {
    assert (p + [o])[..|p|] == p;
  }

  /** The reference tallies carry the identities in order. */
  lemma TallyIds(offers: seq<Offer>)
    ensures |ReferenceTallies(offers)| == |MedicineIds(offers)|
    ensures forall m :: 0 <= m < |MedicineIds(offers)| ==> ReferenceTallies(offers)[m].medicine == MedicineIds(offers)[m]
  {
  }

  /** A medicine without offers has no tally to find. */
  lemma NoTallyForNew(p: seq<Offer>, id: nat)
    requires id !in MedicineIds(p)
    ensures IndexOfTally(ReferenceTallies(p), id) == |ReferenceTallies(p)|
  {
    TallyIds(p);
  }

  /** One reference tally after an offer for a new medicine. */
  lemma NewEntry(p: seq<Offer>, o: Offer, m: nat)
    requires o.medicine !in MedicineIds(p)
    requires m <= |MedicineIds(p)|
    ensures m < |ReferenceTallies(p + [o])|
    ensures ReferenceTallies(p + [o])[m] ==
      if m < |MedicineIds(p)| then ReferenceTallies(p)[m] else Tally(o.medicine, o.quantity, 1)
  {
    IdsSnoc(p, o);
    var id := (MedicineIds(p) + [o.medicine])[m];
    TallySnoc(p, o, id);
    if m == |MedicineIds(p)| {
      CountForAbsent(p, o.medicine);
    }
  }

  /** Adding an offer for a new medicine appends its tally. */
  lemma StepNew(p: seq<Offer>, o: Offer)
    requires o.medicine !in MedicineIds(p)
    ensures AddOffer(ReferenceTallies(p), o) == ReferenceTallies(p + [o])
  {
    var ts := ReferenceTallies(p);
    IdsSnoc(p, o);
    TallyIds(p);
    NoTallyForNew(p, o.medicine);
    var r := AddOffer(ts, o);
    AddOfferNew(ts, o);
    var want := ReferenceTallies(p + [o]);
    forall m | 0 <= m < |r| ensures r[m] == want[m] {
      NewEntry(p, o, m);
    }
  }

  /** The fold computes, for every medicine with offers and for no other, the
      offer count and the sum of quantities. */
  lemma {:induction false} GroupTalliesIsReference(offers: seq<Offer>)
    ensures GroupTallies(offers) == ReferenceTallies(offers)
  {
    if offers != [] {
      var p := offers[..|offers| - 1];
      var o := offers[|offers| - 1];
      assert offers == p + [o];
      GroupTalliesIsReference(p);
      if o.medicine in MedicineIds(p) {
        StepKnown(p, o);
      } else {
        StepNew(p, o);
      }
    }
  }

  // ---------------------------------------------------------------------------
  // Ranking, cut and join

  /** `{pharmacyCount: -1, totalQuantity: -1}`. */
  predicate TallyLe(a: Tally, b: Tally) {
    a.pharmacyCount > b.pharmacyCount
    || (a.pharmacyCount == b.pharmacyCount && a.totalQuantity >= b.totalQuantity)
  }

  function TallyOrder(): (Tally, Tally) -> bool {
    (a, b) => TallyLe(a, b)
  }

  lemma TallyOrderIsPreorder()
    ensures TotalPreorder(TallyOrder())
  {
  }

  /** `$sort` over the tallies. */
  function RankedTallies(db: Db): (r: seq<Tally>)
    ensures SortedBy(r, TallyOrder())
    ensures multiset(r) == multiset(ReferenceTallies(AvailableOffers(db.offers)))
  {
    TallyOrderIsPreorder();
    GroupTalliesIsReference(AvailableOffers(db.offers));
    Sort(GroupTallies(AvailableOffers(db.offers)), TallyOrder())
  }

  /** The ranked tallies, cut to the first ten (before the catalog join). */
  function TopTallies(db: Db): (r: seq<Tally>)
    ensures |r| <= TrendingSize
    ensures SortedBy(r, TallyOrder())
    ensures multiset(r) <= multiset(ReferenceTallies(AvailableOffers(db.offers)))
  {
    var ranked := RankedTallies(db);
    PrefixKeepsOrder(ranked, TrendingSize, TallyOrder());
    TakeSubMultiset(ranked, TrendingSize);
    Take(ranked, TrendingSize)
  }

  /** Whether the catalog holds the tally's medicine. */
  function InCatalog(ms: seq<Medicine>): Tally -> bool {
    (t: Tally) => FindMedicine(ms, t.medicine).Some?
  }

  /** A tally paired with its catalog entry. */
  function JoinOne(ms: seq<Medicine>, t: Tally): TrendingEntry
    requires FindMedicine(ms, t.medicine).Some?
  {
    TrendingEntry(t, FindMedicine(ms, t.medicine).value)
  }

  /** The tallies whose medicine is in the catalog keep the ranking. */
  lemma KeptInOrder(ms: seq<Medicine>, ts: seq<Tally>)
    ensures SortedBy(ts, TallyOrder()) ==> SortedBy(Filter(ts, InCatalog(ms)), TallyOrder())
  {
    if SortedBy(ts, TallyOrder()) {
      FilterKeepsOrder(ts, InCatalog(ms), TallyOrder());
    }
  }

  /** Pairs tallies known to the catalog with their entries, position by position. */
  function JoinKept(ms: seq<Medicine>, kept: seq<Tally>): (r: seq<TrendingEntry>)
    requires forall t :: t in kept ==> FindMedicine(ms, t.medicine).Some?
    ensures |r| == |kept|
    ensures forall k :: 0 <= k < |r| ==> r[k].tally == kept[k] && r[k].medicine in ms && r[k].medicine.id == kept[k].medicine
  {
    seq(|kept|, k requires 0 <= k < |kept| => JoinOne(ms, kept[k]))
  }

  /** `$lookup` + `$unwind`: pairs each tally with its medicine, dropping those without one. */
  function JoinMedicines(ms: seq<Medicine>, ts: seq<Tally>): (r: seq<TrendingEntry>)
    ensures |r| <= |ts|
    ensures forall k :: 0 <= k < |r| ==> r[k].tally in ts && r[k].medicine in ms && r[k].medicine.id == r[k].tally.medicine
    ensures forall t :: t in ts && FindMedicine(ms, t.medicine).Some? ==> exists k :: 0 <= k < |r| && r[k].tally == t
    ensures SortedBy(ts, TallyOrder()) ==> forall i, j :: 0 <= i < j < |r| ==> TallyLe(r[i].tally, r[j].tally)
  {
    var kept := Filter(ts, InCatalog(ms));
    KeptInOrder(ms, ts);
    JoinKept(ms, kept)
  }

  function GetTrending(db: Db): (r: seq<TrendingEntry>)
    ensures |r| <= TrendingSize
    ensures forall k :: 0 <= k < |r| ==> r[k].medicine in db.medicines && r[k].medicine.id == r[k].tally.medicine
    ensures forall i, j :: 0 <= i < j < |r| ==> TallyLe(r[i].tally, r[j].tally)
  {
    JoinMedicines(db.medicines, TopTallies(db))
  }

  // ---------------------------------------------------------------------------
  // Properties

  /** Every reference tally is the tally of its own medicine, and none repeats. */
  lemma ReferenceTalliesDistinct(offers: seq<Offer>)
    ensures forall t :: t in ReferenceTallies(offers) ==> t == TallyOf(offers, t.medicine)
    ensures forall t :: multiset(ReferenceTallies(offers))[t] <= 1
  {
    var refs := ReferenceTallies(offers);
    var ids := MedicineIds(offers);
    forall t ensures multiset(refs)[t] <= 1 {
      if multiset(refs)[t] >= 2 {
        TwiceCountedRepeats(refs, t);
      }
    }
  }

  /** Each entry's figures are those of the available offers of its medicine:
      the number of such offers (at least one) and the sum of their quantities. */
  lemma TrendingTalliesAreExact(db: Db, k: nat)
    requires k < |GetTrending(db)|
    ensures var t := GetTrending(db)[k].tally;
      && t == TallyOf(AvailableOffers(db.offers), t.medicine)
      && t.pharmacyCount >= 1
      && exists o :: o in db.offers && o.status == Available && o.medicine == t.medicine
  {
    var avail := AvailableOffers(db.offers);
    var ids := MedicineIds(avail);
    var refs := ReferenceTallies(avail);
    var t := GetTrending(db)[k].tally;
    assert t in TopTallies(db);
    assert t in multiset(refs);
    var m :| 0 <= m < |refs| && refs[m] == t;
    CountForPositive(avail, ids[m]);
    var n :| 0 <= n < |avail| && avail[n].medicine == ids[m];
    assert avail[n] in avail;
  }

  /** Tallies drawn without repetition from the reference tallies name distinct medicines. */
  lemma DrawnTalliesDistinct(ts: seq<Tally>, offers: seq<Offer>)
    requires multiset(ts) <= multiset(ReferenceTallies(offers))
    ensures forall i, j :: 0 <= i < j < |ts| ==> ts[i].medicine != ts[j].medicine
  {
    var refs := ReferenceTallies(offers);
    ReferenceTalliesDistinct(offers);
    forall i, j | 0 <= i < j < |ts| ensures ts[i].medicine != ts[j].medicine {
      if ts[i].medicine == ts[j].medicine {
        assert ts[i] in multiset(refs) && ts[j] in multiset(refs);
        assert ts[i] == ts[j];
        RepeatCountsTwice(ts, i, j);
        assert false;
      }
    }
  }

  /** No medicine appears twice in the trending list. */
  lemma TrendingDistinct(db: Db)
    ensures forall i, j :: 0 <= i < j < |GetTrending(db)| ==>
      GetTrending(db)[i].tally.medicine != GetTrending(db)[j].tally.medicine
  {
    var top := TopTallies(db);
    var kept := Filter(top, InCatalog(db.medicines));
    var r := GetTrending(db);
    assert |r| == |kept| && forall k :: 0 <= k < |r| ==> r[k].tally == kept[k];
    FilterSubMultiset(top, InCatalog(db.medicines));
    DrawnTalliesDistinct(kept, AvailableOffers(db.offers));
  }

  /** The tally of a medicine with available offers sits somewhere in the ranking. */
  lemma RankOf(db: Db, id: nat) returns (m: nat)
    requires exists o :: o in db.offers && o.status == Available && o.medicine == id
    ensures m < |RankedTallies(db)| && RankedTallies(db)[m] == TallyOf(AvailableOffers(db.offers), id)
  {
    var avail := AvailableOffers(db.offers);
    var ids := MedicineIds(avail);
    var o :| o in db.offers && o.status == Available && o.medicine == id;
    assert o in avail;
    var n :| 0 <= n < |avail| && avail[n] == o;
    assert id in ids;
    var i :| 0 <= i < |ids| && ids[i] == id;
    var t := TallyOf(avail, id);
    assert ReferenceTallies(avail)[i] == t;
    var ranked := RankedTallies(db);
    assert t in multiset(ranked);
    m :| 0 <= m < |ranked| && ranked[m] == t;
  }

  /** A tally in the cut whose medicine is in the catalog is listed. */
  lemma TopTallyListed(db: Db, t: Tally)
    requires t in TopTallies(db) && FindMedicine(db.medicines, t.medicine).Some?
    ensures exists k :: 0 <= k < |GetTrending(db)| && GetTrending(db)[k].tally.medicine == t.medicine
  {
    var r := JoinMedicines(db.medicines, TopTallies(db));
    assert r == GetTrending(db);
    var k :| 0 <= k < |r| && r[k].tally == t;
  }

  /** A medicine with available offers and a catalog entry is missing from the
      list only when ten tallies rank at or above its own. */
  lemma TrendingCutoff(db: Db, id: nat)
    requires exists o :: o in db.offers && o.status == Available && o.medicine == id
    requires FindMedicine(db.medicines, id).Some?
    requires forall k :: 0 <= k < |GetTrending(db)| ==> GetTrending(db)[k].tally.medicine != id
    ensures |TopTallies(db)| == TrendingSize
    ensures forall k :: 0 <= k < TrendingSize ==> TallyLe(TopTallies(db)[k], TallyOf(AvailableOffers(db.offers), id))
  {
    var t := TallyOf(AvailableOffers(db.offers), id);
    var m := RankOf(db, id);
    var ranked := RankedTallies(db);
    var top := TopTallies(db);
    assert top == Take(ranked, TrendingSize);
    if m < |top| {
      assert top[m] == t;
      TopTallyListed(db, t);
      assert false;
    }
    forall k | 0 <= k < TrendingSize ensures TallyLe(top[k], t) {
      assert top[k] == ranked[k];
      assert TallyOrder()(ranked[k], ranked[m]);
    }
  }
}

=== FILE: users.dfy ===
/** Accounts: who a user is, their role, and the subscription tier they hold
    with its expiry and history. The password is kept only as the stored
    hash; hashing itself is outside the model. */
module Users {
  import opened Wrappers
  import opened Seqs

  datatype Role = UserRole | PharmacyRole | DoctorRole | AdminRole

  function RoleName(r: Role): string {
    match r
    case UserRole => "user"
    case PharmacyRole => "pharmacy"
    case DoctorRole => "doctor"
    case AdminRole => "admin"
  }

  /** The role enum; an absent role defaults to `user`. */
  function ParseRole(s: Option<string>): (r: Option<Role>)
    ensures s.None? ==> r == Some(UserRole)
    ensures s.Some? ==> (r.Some? <==> s.value in {"user", "pharmacy", "doctor", "admin"})
  {
    match s
    case None => Some(UserRole)
    case Some(name) =>
      if name == "user" then Some(UserRole)
      else if name == "pharmacy" then Some(PharmacyRole)
      else if name == "doctor" then Some(DoctorRole)
      else if name == "admin" then Some(AdminRole)
      else None
  }

  lemma RoleRoundTrip(r: Role)
    ensures ParseRole(Some(RoleName(r))) == Some(r)
  {
  }

  /** The tier a user holds; `free` by default. */
  datatype Tier = Free | BasicTier | PremiumTier

  function TierName(t: Tier): string {
    match t
    case Free => "free"
    case BasicTier => "basic"
    case PremiumTier => "premium"
  }

  datatype HistoryStatus = HistoryActive | HistoryExpired | HistoryCancelled

  /** One paid period, as appended to a user's history. */
  datatype HistoryEntry = HistoryEntry(
    plan: string,
    amount: nat,
    startDate: int,
    endDate: int,
    receipt: string,
    status: HistoryStatus)

  datatype User = User(
    id: nat,
    name: string,
    email: string,
    phone: string,
    passwordHash: string,
    role: Role,
    address: string,
    isVerified: bool,
    subscription: Tier,
    subscriptionExpiry: Option<int>,
    history: seq<HistoryEntry>)

  const MinPasswordLength: nat := 6

  /** The unique indexes on `email` and `phone`. */
  predicate UniqueContacts(users: seq<User>) {
    forall i, j :: 0 <= i < j < |users| ==> users[i].email != users[j].email && users[i].phone != users[j].phone
  }

  /** Position of the user with this id, or `|users|` when there is none. */
  function IndexOfUser(users: seq<User>, id: nat): (k: nat)
    ensures k <= |users|
    ensures k < |users| ==> users[k].id == id
    ensures forall j :: 0 <= j < k ==> users[j].id != id
  {
    FirstIndex(users, (u: User) => u.id == id)
  }
}

=== FILE: wrappers.dfy ===
/** Optional values, used wherever the source reads a field that may be absent
    or a lookup that may find nothing. */
module Wrappers {

  datatype Option<+T> = None | Some(value: T) {

    /** The value, or `default` when there is none. */
    function GetOr(default: T): T {
      match this
      case Some(v) => v
      case None => default
    }
  }
}
